=== FILE: README.md ===
# decorest request assembly, modelled in Dafny

decorest turns a Python class whose methods carry decorators (`@GET('pets/{id}')`,
`@query('status')`, `@header('X-Key', 'key')`, `@on(404, handler)`, ...) into a REST
client. A call of such a method binds its arguments, renders the path template,
collects the decorations of the method and of the client class, lets keyword
arguments of the call override them, and hands a request description to an HTTP
backend (`requests` or `httpx`). The answer is then turned into a result by status
handlers or by the content type.

This project models that engine as pure functions over immutable values. It covers
both generations of the code in the repository:

- the newer one in `decorest/request.py` (`HttpRequest.__init__`, `_merge_args`,
  `_validate_decor`, the redirect-flag renamings and `handle_response`) and
  `decorest/decorator_utils.py` (the `__decorest__` table, `set_decor`,
  `set_header_decor`, `get_decor`, `DECOR_LIST`);
- the older one in `decorest/decorators.py` (its own `set_decor`/`get_decor`, the
  `on`, `query`, `header`, `content`, `accept` and `body` decorators, and
  `HttpMethodDecorator.call`) and `decorest/client.py` (the greedy `render_path`,
  `RestClient` and `build_request`);
- the helpers of `decorest/utils.py` (`render_path`, `dict_from_args`, `merge_dicts`,
  `normalize_url`) and the enumerations of `decorest/types.py`.

Modules, one per part of the program:

| module | file | models |
|---|---|---|
| `Wrappers` | wrappers.dfy | `Option` and `Result` |
| `PyDict` | pydict.dfy | a Python `dict`: an insertion-ordered association list with unique keys |
| `Values` | values.dfy | Python values, truthiness, `isinstance` tests, `CaseInsensitiveDict` (keys kept lower-cased) |
| `Text` | text.dfy | `str.split`, `str.join`, `str.endswith` |
| `HttpTypes` | types.dfy | `HttpMethod`, `HttpStatus` and the `ANY` sentinel |
| `PathTemplate` | path_template.dfy | `render_path` of `utils.py` with its `{`-count termination measure |
| `TemplateParts` | template_parts.dfy | a template as literal texts and placeholders, and the reference rendering `render_path` agrees with |
| `Utils` | utils.dfy | `dict_from_args`, `merge_dicts`, `normalize_url` |
| `DecorStore` | decor_store.dfy | the decoration table of `decorator_utils.py` |
| `Request` | request.dfy | `HttpRequest.__init__` in three stages: declared, overridden, finished |
| `Objects` | objects.dfy | dictionary objects in a heap: which object `merge_dicts` writes, as written and with copying merges |
| `Response` | response.dfy | `handle_response` and the response half of the older `call` |
| `LegacyClient` | legacy_client.dfy | the greedy `render_path` and `build_request` of `client.py` |
| `LegacyDecorators` | legacy_decorators.dfy | the decorators and `call` of `decorators.py` |

Modelling choices:

- Dictionaries keep insertion order, because `_merge_args` and the older query loop
  resolve colliding entries by iteration order.
- A case-insensitive dictionary stores its keys lower-cased (ASCII). `Values.Get`
  reads a dictionary value case-insensitively exactly when it is one.
- `get_decor` returns `None` for a stored falsy value, so the model reads every
  decoration through `DecorStore.GetDecor`. The typed `get_*_decor` accessors are
  `GetDecor` with a fixed name.
- What these files call but do not define is a parameter. `Request.Host`
  carries `str()`, the client's `build_path_`, the body serializer call, `json.dumps`
  and the backend's multipart guess. `Request.Client` carries `endpoint_`, `auth_()`
  and `backend_`. `LegacyClient.UrlLib` carries `urljoin` and `urlencode`. The
  helper `merge_header_dicts` is the `mergeHeaders` parameter of
  `DecorStore.SetHeaderDecor`.
- Python exceptions are `Failure` values that name the error. Raising a plain string
  (`decorators.py` lines 102 and 284) is a `TypeError` in Python 3; the model names
  it after the message.
- `render_path` is modelled for rendered values of the arguments the template names
  that are free of `{`, `}` and `\` (`PathTemplate.SafeToRender`); other arguments may
  hold anything. For such values every substitution removes at least one `{`, which
  is the termination measure. Other values do not always render in Python: see the
  `decorest/utils.py:28-35` row of "## Findings" and "## Left out".

## Behaviour worth knowing

- In `decorators.py` a second header decoration under the same name replaces the
  first (`merge_dicts` is an `update`); it does not accumulate into a list. The newer
  `set_header_decor` combines through `merge_header_dicts`, and lines 105-107 of
  `request.py` join any list value with `", "`.
- The `accept` default of lines 223-225 of `request.py` is added for multipart
  requests too. Only the `content-type` default is skipped for them.
- `_merge_args` rewrites an entry `arg ↦ name` with a string `name` to
  `name ↦ args[arg]` whenever `arg` is bound, falsy values included. It keeps the
  entry literally when `arg` is not bound or the value is not a string. Only the
  older query loop skips falsy arguments.
- The method timeout replaces the class timeout only when it is truthy.
- No `MissingEndpoint` error is raised by `HttpRequest.__init__`. The endpoint chain
  may end in `None`, which is handed to `build_path_`.
- Decoration tables are not read-only at call time: the merges write into the
  class's own dictionaries (the `decorest/request.py:91-93, 124-125, 168-169` row of
  "## Findings").
- The older `call`, which every verb decorator of this version of decorest calls,
  compares the stored `http_method` decoration with the strings of
  `client.HttpMethod`, and no verb decorator stores such a string.
  `decorest/GET.py`, `POST.py`, `PATCH.py` and `HEAD.py` store a member of the
  `types.HttpMethod` enumeration through `set_decor`, which no comparison matches
  (`LegacyDecorators.EnumVerbNeverDispatched`). `decorest/PUT.py`, `DELETE.py`,
  `OPTIONS.py` and `UPDATE.py` set an attribute `_http__method` of the function that
  `call` never reads, so the decoration reads as `None`
  (`LegacyDecorators.UndecoratedVerbNeverDispatched`). Either way the call raises at
  lines 283-285 of `decorators.py`.

## Model

| member | source | states |
|---|---|---|
| HttpTypes.MethodStrIsName | decorest/types.py:27-41 | `str(m)` is the member's own name for each of the seven verbs, because their values are one-element tuples; for `INVALID` it fails on an empty string |
| HttpTypes.StatusCode | decorest/types.py:44-52 | `ANY` is 999 and is the only member with that code; the class codes lie in 1..5 |
| Values.CIUpdateLookup | decorest/request.py:91-93 | after `update` of a case-insensitive dictionary a key reads the last entry that matches it up to case, else its old value |
| Values.UpdateEntriesGet | decorest/utils.py:86 | `dict.update`: the source wins on every key it has, compared up to case when the target is case-insensitive; other keys keep their values |
| Values.CISetLookup | decorest/request.py:174-179 | `ci[k] = v` changes exactly the keys equal to `k` up to case |
| PathTemplate.Span | decorest/utils.py:29 | `[^}.]*` stops at the first `}` or `.`: no closer before the returned index, a closer at it |
| PathTemplate.RenderPath | decorest/utils.py:25-36 | on success no `{token}` match is left; on failure the named token is unbound; a template without a match is returned unchanged; an unbound first token fails naming exactly that token; only the arguments the template names need be safe |
| PathTemplate.SafeToRenderStep | decorest/utils.py:28-34 | one substitution keeps what rendering needs, and the substituted value is a safe one |
| PathTemplate.StepKeepsTokens | decorest/utils.py:34 | substituting the first token of a template of identifier tokens by a safe value creates no token the template did not already have |
| PathTemplate.OnlyTokensMatter | decorest/utils.py:28-36 | two argument maps that agree on the template's tokens render it alike |
| PathTemplate.UnusedArgumentsIgnored | decorest/utils.py:28-36 | rendering with every bound argument gives what rendering with only the template's tokens gives, whatever the other arguments hold |
| PathTemplate.RenderStepShrinks | decorest/utils.py:34 | replacing the matched placeholder with a safe value removes at least one `{`: the loop terminates |
| PathTemplate.FirstTokenOccurs | decorest/utils.py:29-31 | the matched token's placeholder occurs literally in the path |
| PathTemplate.CompleteBindingRenders | decorest/utils.py:28-36 | when every token of the template is bound, and the values it needs are safe, rendering succeeds |
| PathTemplate.ReplaceKeepsBound | decorest/utils.py:34 | a substitution never creates a placeholder whose token is unbound |
| TemplateParts.RepeatedTokenRendersEverywhere | decorest/utils.py:29-36 | a placeholder that occurs twice is replaced at both places in one step, and the result is exactly the template with the value at both places; only that token's value need be safe, whatever the other arguments hold |
| TemplateParts.RepeatedParts | decorest/utils.py:29-36 | the template `pre{t}mid{t}post` is the parts `pre`, `{t}`, `mid`, `{t}`, `post`, and their reference rendering puts the value at both places |
| PathTemplate.PlaceholderMatches | decorest/utils.py:29 | the pattern matches an identifier's placeholder at its start and captures the identifier |
| TemplateParts.TemplateRenders | decorest/utils.py:25-36 | a template `p0 {t1} p1 ... {tn} pn` with brace-free texts and identifier tokens renders to `p0 + args[t1] + p1 + ... + args[tn] + pn` when every token is bound, and otherwise fails naming the leftmost unbound token |
| TemplateParts.ReplaceParts | decorest/utils.py:34 | one `re.sub` of `{t}` over such a template turns exactly the placeholders of `t` into the value and leaves the rest in place |
| TemplateParts.FirstTokenParts | decorest/utils.py:29-31 | the first match of such a template is its first placeholder |
| TemplateParts.OtherPlaceholderSkipped | decorest/utils.py:34 | `re.sub` of `{t}` passes over the placeholder of any other identifier |
| PathTemplate.SelfPlaceholderFixedPoint | decorest/utils.py:28-35 | as written, a value that renders to its own placeholder: the substitution gives back the template, whose first match is the same token, so the loop does not end; such a value is not safe to render |
| PathTemplate.ReplaceAbsent | decorest/utils.py:34 | `re.sub` leaves a string without `{` unchanged |
| Utils.DictFromArgs | decorest/utils.py:57-71 | the loop binds the i-th parameter to the i-th positional argument, else to its default, else leaves it out; the keys are exactly the bound parameter names |
| Utils.BindArguments | decorest/utils.py:39-71 | the functional binding has exactly the bound parameter names as keys |
| Utils.BindArgumentsLookup | decorest/utils.py:59-69 | the functional binding and the loop agree on every parameter |
| Utils.ShiftBinding | decorest/utils.py:58-67 | dropping the first parameter and argument shifts every later binding by one and keeps names distinct |
| Utils.MergeDictsShape | decorest/utils.py:74-87 | `merge_dicts` is `None` exactly when every argument is `None`; otherwise it has the kind (plain or case-insensitive) of the first dictionary |
| Utils.MergeFromShape | decorest/utils.py:80-86 | the loop of `merge_dicts` from any start: `None` only while no dictionary has been seen, and it keeps the kind of the first dictionary |
| Utils.FirstPresentNone | decorest/utils.py:82 | there is no first dictionary exactly when every argument is `None` |
| Utils.MergeDictsPlain | decorest/utils.py:74-87 | over plain dictionaries the merge has the union of the keys, and a shared key takes the value of the last dictionary that has it |
| Utils.MergeFromPlain | decorest/utils.py:81-86 | the same union and last-wins reading for the loop from any start |
| Utils.MergeSingle | decorest/utils.py:83-84 | with a single dictionary among the arguments the merge is that very dictionary, not a copy |
| Utils.MergePair | decorest/utils.py:74-87 | `merge_dicts(a, b)` is `b` merged over the first non-`None` of the two; when `a` is a dictionary it is `a` updated with `b` |
| Utils.NormalizeUrl | decorest/utils.py:90-97 | the result ends with `/`; it is the input when the input ends with `/`, else the input plus `/` |
| Utils.NormalizeUrlIdempotent | decorest/utils.py:90-97 | normalising twice is normalising once |
| Text.JoinSplit | decorest/decorators.py:243-244 | joining the `/`-fields of a path gives the path back |
| Text.SplitJoin | decorest/client.py:81 | splitting a `/`-join of fields without `/` gives the fields back |
| DecorStore.MergeDecor | decorest/decorator_utils.py:44-57 | a dictionary merges into the stored one: every key reads the new value where the new dictionary has one and the stored value otherwise (an absent or falsy stored value counts as empty); a list extends the stored list, or an empty one; other values replace; the merge fails exactly when a truthy stored value has the wrong kind |
| DecorStore.SetDecor | decorest/decorator_utils.py:34-57 | only the named entry changes; it holds the merged value; a wrapper and the function it wraps share the table afterwards |
| DecorStore.GetDecor | decorest/decorator_utils.py:77-92 | the stored value when present and truthy, else `None`; a non-`None` result is always stored |
| DecorStore.SetHeaderDecor | decorest/decorator_utils.py:60-74 | writes only under `header`, from the stored headers or an empty case-insensitive dictionary, combined by `merge_header_dicts`; adopts a wrapped table first |
| DecorStore.FalsyReadsAsNone | decorest/decorator_utils.py:89-92 | a stored falsy scalar (`False`, `0`, `''`) reads back as `None` |
| DecorStore.DictDecorationsAccumulate | decorest/decorator_utils.py:48-51 | two dictionary decorations under one name: the later wins on a shared key, every key of the earlier one is kept |
| DecorStore.MergeIntoStored | decorest/decorator_utils.py:48-51 | a plain dictionary decoration over a stored plain dictionary gives the stored one updated with it, an empty stored one included |
| DecorStore.ListDecorationsAccumulate | decorest/decorator_utils.py:52-55 | two list decorations under one name concatenate in application order |
| DecorStore.WrapperKeepsInnerDecorations | decorest/decorator_utils.py:36-37 | a decoration applied to a wrapper keeps every other decoration of the wrapped function |
| DecorStore.HeaderDecorAsSetDecor | decorest/decorator_utils.py:60-74 | when `merge_header_dicts` is a plain update, `set_header_decor` is the case-insensitive branch of `set_decor` |
| Request.CheckVerb | decorest/request.py:61-70 | succeeds exactly for the seven supported verbs; any other value raises `ValueError`, and `INVALID` fails while its name is formatted |
| Request.ArgEntry | decorest/request.py:386-391 | a string value naming a bound argument becomes `value ↦ args[arg]`; any other entry is kept literally |
| Request.MergeArgs | decorest/request.py:383-392 | fails exactly when the decoration is not a dictionary; an absent decoration gives an empty dictionary |
| Request.MergeArgsLookup | decorest/request.py:386-391 | every output key of `_merge_args` holds the value of the last rewritten entry that maps to it |
| Request.MergeArgsBinds | decorest/request.py:386-391 | `first_name ↦ firstName` with `first_name` bound sends `firstName` with the argument's value; any other entry is sent literally |
| Request.JoinHeaderValue | decorest/request.py:105-107 | a list header value of strings becomes those strings joined with `", "`, and a list holding anything else fails; other values are unchanged |
| Request.JoinHeaderLists | decorest/request.py:105-107 | every header keeps its name and place and holds its joined value, no value is a list afterwards, and the join fails exactly when one list holds a non-string |
| Request.LiteralHeadersLookup | decorest/request.py:98-103 | a method header whose name is not an argument name is set literally, the last such declaration winning up to case; other headers are kept |
| Request.DeclaredHeaders | decorest/request.py:91-107 | the declared headers carry no list values |
| Request.BaseHeaders | decorest/request.py:91-93 | the merged headers are a dictionary; they fail exactly when the method's or the class's header decoration is not a dictionary; without class headers they are exactly the argument-bound method headers; with class headers they are the class's dictionary updated with them |
| Request.DeclaredBody | decorest/request.py:111-118 | without a body decoration there is no body; a list or tuple decoration names the argument by its first element: a falsy argument (an unbound one or a non-string name included) is the body as it is, a truthy one passes through the second element when that is truthy, and a one-element decoration fails only when the argument is truthy; a decoration of any other kind fails |
| Request.DeclaredHandlers | decorest/request.py:124-125 | succeeds exactly when the class's and the method's `on` decorations are dictionaries or absent; the result is `merge_dicts` of the two: the class's dictionary updated with the method's, or the method's own when the class declares none |
| Request.DeclaredTimeout | decorest/request.py:128-130 | the method timeout when truthy, else the class timeout |
| Request.DeclaredStream | decorest/request.py:133-135 | the method stream flag unless it reads as `None`, else the class flag |
| Request.Pop | decorest/request.py:76-83 | `__session` and `__endpoint` are taken out of the keyword arguments with their values; every other keyword argument is kept |
| Request.Declare | decorest/request.py:61-135 | an unsupported verb fails before anything else, then a call without arguments; on success the verb is the decorated one, the path is the rendered template, the arguments are the binding, the session and session endpoint are the values of `__session` and `__endpoint` (else `None`), the declared parts are those `DeclarePending` computes, and the keyword arguments are the call's without those two |
| Request.DeclarePending | decorest/request.py:86-135 | succeeds exactly when every helper does; query, form and multipart are `_merge_args` of their decorations as plain dictionaries; headers, body and handlers are the helpers' results; timeout and stream are the method's over the class's; the keyword arguments pass on unchanged |
| Request.ApplyOverride | decorest/request.py:143-194 | one override: fails with a `TypeError` naming it exactly when its value has the wrong type; a consumed override leaves the keyword arguments and no other keyword argument changes; on success its field takes the caller's value, merged over a declared dictionary for `query`, `form`, `multipart` and `on` and replacing it for `timeout`, `stream` and `body`, the headers change as `header`, `accept` or `content` dictate, and every other field is unchanged; an absent one changes nothing |
| Request.ApplyAll | decorest/request.py:144-194 | the override loop keeps the decorations' shapes |
| Request.ApplyOverrides | decorest/request.py:143-145 | without keyword arguments nothing is overridden, and the loop keeps the decorations' shapes; what each override does is stated by `OverriddenField`, `MergedOverrideKey` and `OverriddenHeader` |
| Request.ApplyAllConsumes | decorest/request.py:151-192 | every examined override but `endpoint` leaves the keyword arguments; every other keyword argument passes on unchanged |
| Request.OverridesConsumed | decorest/request.py:143-194 | after the loop no consumed override name remains and every other keyword argument is unchanged |
| Request.ApplyAllTypeErrors | decorest/request.py:355-367 | the loop fails only with the `TypeError` of an examined override of the wrong type, and succeeds when every examined override has its type |
| Request.ApplyAllConcat | decorest/request.py:144 | running the loop over two lists of names is running it over their concatenation |
| Request.ApplyAllField | decorest/request.py:144-192 | over any list of names, a field the loop examines holds the caller's override, merged or replacing, when its name is listed and passed, else the declared value |
| Request.OverriddenField | decorest/request.py:152-192 | after the whole loop, each of `query`, `form`, `multipart`, `on`, `timeout`, `stream` and `body` holds the caller's override when passed (merged over a dictionary for the first four, exactly the caller's value for the last three), else the declared value |
| Request.MergedOverrideKey | decorest/request.py:152-171 | after a dictionary override of `query`, `form`, `multipart` or `on`, a key the caller passes reads the caller's value, and any other key the declared value, if any |
| Request.OverriddenHeader | decorest/request.py:146-180 | after the whole loop, `accept` reads the caller's `accept` override, `content-type` the caller's `content` override, any other header the last matching entry of the caller's `header` override, else the declared header |
| Request.ApplyAllHeaders | decorest/request.py:172-180 | after `header`, only `accept` and `content` write a header, and each writes only its own name |
| Request.OverridesTyped | decorest/request.py:355-367 | when the loop succeeds, every examined override the caller passed has its type |
| Request.ApplyAllFails | decorest/request.py:355-367 | one examined override of the wrong type makes the loop fail |
| Request.ApplyAllKeepsAccept | decorest/request.py:176-192 | overrides other than `header` and `accept` keep the `accept` header |
| Request.AcceptOverrideWins | decorest/request.py:146-175 | the `accept` override beats an `Accept` entry of the `header` override, because `accept` is examined later |
| Request.HandlerPrecedence | decorest/request.py:124-170 | when the class's and the method's handlers and the call's `on` override are plain dictionaries, the handlers after the override read, for each status code, the call's handler, else the method's, else the class's |
| Request.AssembledHandlers | decorest/request.py:124-170 | through the whole assembly, a prepared request with an `on` override gives each status code the call's handler, else the method's, else the class's |
| Request.AssembledTimeout | decorest/request.py:181-247 | through the whole assembly, a caller's truthy `timeout` is the one the backend receives |
| Request.OverriddenTimeoutSent | decorest/request.py:181-293 | from the declared request, a truthy `timeout` override survives the redirect renaming into the backend's keyword arguments |
| Request.TimeoutToBackend | decorest/request.py:181-247 | a truthy `timeout` override is the backend's `timeout` |
| Request.EffectiveEndpointIsFirstTruthy | decorest/request.py:197-200 | the endpoint is the first truthy of the session endpoint, the client's, the defining class's decoration and the client's decoration |
| Request.DefaultHeaders | decorest/request.py:218-225 | `accept` defaults to JSON when absent; `content-type` defaults to JSON when absent and the request is not multipart; every other header is unchanged |
| Request.FinalHeadersDefaults | decorest/request.py:218-225 | the sent headers always carry `accept`, carry `content-type` unless multipart, and a form forces the URL-encoded content type |
| Request.BodyArgs | decorest/request.py:248-259 | a falsy body adds nothing; a dictionary body under a JSON content type is sent as its JSON text, through `content` with httpx and `data` with requests; another dictionary body goes to `data`; any other body to `content` with httpx and `data` with requests; nothing but `data` and `content` changes |
| Request.PayloadArgs | decorest/request.py:248-268 | `params` carries a truthy query, `data` carries a truthy form in place of the body, `stream` carries a truthy stream flag, `content` is what the body step left; every other keyword argument is left as it was |
| Request.QueryFormStream | decorest/request.py:261-266 | a truthy query, form or stream flag overrides `params`, `data` or `stream`; every other keyword argument is left as it was |
| Request.SetIf | decorest/request.py:243-270 | a guarded `kw[k] = v` sets `k` exactly when its guard holds and changes no other key |
| Request.BackendKwargsCarry | decorest/request.py:207-270 | the backend receives the final headers, multipart bindings as `files`, and a truthy timeout |
| Request.BackendKwargsPayload | decorest/request.py:261-268 | the backend receives a truthy query as `params`, a truthy form as `data` and a truthy stream flag as `stream` |
| Request.Rename | decorest/request.py:300-322 | after a renaming the old name is gone, the new name holds the old value when there was one, and every other key is unchanged |
| Request.NormalizeRoundTrip | decorest/request.py:300-322 | both renamings are idempotent, and each undoes the other when its target name was unused |
| Request.FinishKwargs | decorest/request.py:290-293 | the redirect flag is spelt the way the backend expects; every other backend keyword argument passes through |
| Request.Assemble | decorest/request.py:49-293 | an unsupported verb fails first; a failing declaration or override fails with its own error; a prepared request has the decorated supported verb and is the final stage applied to the declared request after the overrides |
| Request.ClassTableAfterCall | decorest/request.py:91-170 | as written, a call writes into the class's own table: `header` becomes the class's headers updated with the call's bound headers, `on` becomes the class's handlers updated with the method's and then the call's; each stays as it was when the class holds no dictionary there, and no other decoration changes |
| Request.HeaderWriteBack | decorest/request.py:91-93 | the in-place header update changes only `header`, which then holds the updated class headers; without class headers or bound headers nothing changes |
| Request.HandlerWriteBack | decorest/request.py:124-170 | the in-place handler update changes only `on`, which then holds the class's handlers updated with the method's and the call's; without class handlers nothing changes |
| Request.MethodTableAfterCall | decorest/request.py:124-170 | as written, when the class declares no handlers, a call with an `on` override writes it into the method's own handler dictionary, and changes nothing else; otherwise the method's table is unchanged |
| Request.AfterCallHeader | decorest/request.py:91-93 | after a call the class's `header` decoration is its old headers updated with the call's bound headers |
| Request.CallLeaksBoundHeaders | decorest/request.py:91-93 | as written, after a call the class reads each header bound by that call |
| Request.LaterCallSeesLeakedHeader | decorest/request.py:91-93 | as written, a later call of an undecorated method starts from a header that only an earlier call bound |
| Request.HeadersAccumulate | decorest/request.py:91-93 | as written, after any sequence of calls each class header reads the value of the last call that bound it, else the class's own |
| Request.HeaderWriteBackExactly | decorest/request.py:91-93 | a call changes the class's header `k` exactly when it binds `k` to a value the class did not hold; with copying merges it never does |
| Request.HandlerWriteBackExactly | decorest/request.py:124-170 | a call changes the class's handler for a status exactly when the call's or else the method's handlers give it one the class did not hold; with copying merges it never does |
| Request.MethodKeepsCallHandlers | decorest/request.py:124-170 | as written, when the class declares no handlers, a later call of the same method declares the earlier call's `on` handlers over the method's own |
| Objects.MergeObjects | decorest/utils.py:74-87 | on dictionary objects the result holds `merge_dicts` of the two dictionaries and is `None` exactly when both are; as written the result is the first non-`None` object itself and no other object changes; with copying it is a new object and no existing object changes |
| Objects.HeaderStageWritesClass | decorest/request.py:91-93 | as written, the class's own header object ends up holding the request's headers: the class's headers updated with the bound ones |
| Objects.HandlerStageWritesShared | decorest/request.py:124-169 | as written, the class's own handler object, or the method's when the class declares none, ends up holding the request's handlers, the call's override included |
| Objects.CopyingKeepsObjects | decorest/request.py:91-169 | with copying merges no dictionary object that existed before the call changes, the class's and the method's header and handler objects included |
| Objects.CopyingSameHeaders | decorest/request.py:91-93 | copying merges give the request the same headers as the merges as written |
| Objects.CopyingSameHandlers | decorest/request.py:124-169 | copying merges give the request the same handlers as the merges as written, unless the call's `on` override is the class's own object |
| Objects.HeaderStageIsBaseHeaders | decorest/request.py:91-93 | the header stage with copying merges computes the value-level `Request.BaseHeaders` |
| Objects.HandlerStageIsDeclared | decorest/request.py:124-169 | the handler stage with copying merges computes the declared handlers, overridden by the call's `on` dictionary as `Request.Overridden` does |
| Request.MergeWithEmpty | decorest/utils.py:86 | updating a dictionary with an empty one leaves it unchanged |
| Request.UpdateKeepsTruthy | decorest/utils.py:86 | updating a non-empty dictionary leaves it non-empty |
| Response.HandlerFor | decorest/request.py:326 | a handler is found only in a non-empty dictionary of handlers, and then it is the one stored |
| Response.BodyOutcome | decorest/request.py:344-353 | an empty body gives `None`; otherwise JSON exactly for `application/json`, bytes exactly for `application/octet-stream`, text for anything else |
| Response.HandleResponse | decorest/request.py:324-353 | a handler for the exact status wins; a handled outcome uses the exact or the catch-all handler; the raw response comes back exactly when no handler applies and the call streams; the wrapped error exactly when neither applies and the status raises |
| Response.HandleResponseIsFirstRule | decorest/request.py:324-353 | `handle_response` is the outcome of the first of its five rules that applies |
| Response.FirstApplicableRuleWins | decorest/request.py:324-353 | when no rule before rule i applies and rule i does, `handle_response` returns the outcome of rule i: a handler for the exact status comes before the catch-all, which comes before the stream flag, the status check and the body |
| Response.HandlerBeatsStatusCheck | decorest/request.py:326-328 | a registered handler sees every response of its status, error statuses and streamed responses included |
| Response.CatchAllAnswersTheRest | decorest/request.py:329-331 | the `ANY` handler answers every status without a handler of its own |
| Response.StreamSkipsStatusCheck | decorest/request.py:335-336 | a streamed response without a handler is returned even when its status would raise |
| Response.HandleLegacyResponse | decorest/decorators.py:287-303 | the older handling: an exact handler exactly when one is registered, the backend's own error exactly when none is and the status raises, never the raw response or the wrapped error |
| Response.LegacyAgreesWithoutCatchAll | decorest/decorators.py:287-303 | without a catch-all and a stream flag both handlings agree, up to the wrapping of the error |
| Response.LegacyIgnoresCatchAll | decorest/decorators.py:287-292 | the older handling ignores an `ANY` handler that the newer one calls |
| LegacyClient.LineLength | decorest/client.py:29 | `.` reaches to the first newline |
| LegacyClient.LastClose | decorest/client.py:29 | the greedy `}` is the last one of the line |
| LegacyClient.GreedyTokenOccurs | decorest/client.py:29-31 | the greedy match is a literal occurrence of its placeholder |
| LegacyClient.GreedyMatchAtBrace | decorest/client.py:29-31 | at a `{` whose line has a `}` further on, the greedy match reaches at least that `}`, and stops exactly there when no later `}` follows |
| LegacyClient.RenderPathGreedy | decorest/client.py:23-36 | on success no greedy match is left; on failure the named token is unbound; a template without a match is returned unchanged; an unbound first greedy token fails naming exactly that token |
| LegacyClient.SinglePlaceholderRenders | decorest/client.py:29-35 | with exactly one placeholder the greedy renderer substitutes it |
| LegacyClient.TwoPlaceholdersFail | decorest/client.py:29-33 | with two placeholders on one line the greedy token runs across the first `}`, so rendering fails even when both are bound |
| LegacyClient.GreedySelfPlaceholderFixedPoint | decorest/client.py:29-35 | the greedy renderer has the same fixed point: a value that renders to its own placeholder is matched again after the substitution |
| LegacyClient.BuildRequest | decorest/client.py:74-86 | fails exactly when the client has no endpoint (`None.endswith`) |
| LegacyClient.BuildRequestAppendsPath | decorest/client.py:81-84 | under the merge of section 5.2.3 of RFC 3986 the URL is the normalised endpoint plus the path, plus `?` and the encoded query only when the query is non-empty |
| LegacyDecorators.SetDecor | decorest/decorators.py:35-58 | the older `set_decor` merges like the newer one into the target's own table, and changes only the named entry |
| LegacyDecorators.SetDecorIsUnwrappedNewer | decorest/decorators.py:35-58 | the older `set_decor` is the newer one on a target that wraps nothing |
| LegacyDecorators.Query | decorest/decorators.py:95-108 | `@query` on a class raises |
| LegacyDecorators.QueryNamesItself | decorest/decorators.py:104-106 | `@query(name)` without a value sends the argument under its own name; with a truthy value, under that value |
| LegacyDecorators.Body | decorest/decorators.py:151-160 | `@body(name, serializer)` reads back as the pair |
| LegacyDecorators.DictDecorReadsBack | decorest/decorators.py:45-52 | a non-empty dictionary decoration reads back as the stored dictionary updated with it |
| LegacyDecorators.HeaderAdds | decorest/decorators.py:111-118 | a header decoration adds its header case-insensitively and keeps every header already declared |
| LegacyDecorators.ContentAndAcceptCombine | decorest/decorators.py:131-148 | `content` and `accept` write `Content-Type` and `Accept` into the one `header` dictionary, so a method with both declares both |
| LegacyDecorators.HandlersAccumulate | decorest/decorators.py:82-92 | handlers of several `on` decorations accumulate; a later one for the same status replaces the earlier |
| LegacyDecorators.OnStep | decorest/decorators.py:82-92 | one `on` decoration over a stored dictionary of handlers always succeeds and reads back as that dictionary with the handler set for its status |
| LegacyDecorators.ToKey | decorest/decorators.py:210-212 | strings, integers and booleans are dictionary keys (`True` is `1`); a list or dictionary wire name is unhashable |
| LegacyDecorators.QueryArgument | decorest/decorators.py:209 | an entry names a sent argument exactly when that argument is bound and truthy |
| LegacyDecorators.QueryParamsLookup | decorest/decorators.py:205-212 | with wire names that are strings, integers or booleans the query loop succeeds, and each wire name carries the value of the last truthy argument sent under it |
| LegacyDecorators.LastSentCons | decorest/decorators.py:208-212 | read from the front, a later query entry wins over the first |
| LegacyDecorators.StoreItem | decorest/decorators.py:247-252 | `h[k] = v` sets `k`, up to case when `h` is case-insensitive, and keeps every other header |
| LegacyDecorators.HeaderDefaults | decorest/decorators.py:246-252 | `content-type` and `accept` are always present afterwards, keep a declared value, and no other header changes |
| LegacyDecorators.HeaderStepAsWritten | decorest/decorators.py:214-252 | as written, declared headers get the defaults |
| LegacyDecorators.HeaderStep | decorest/decorators.py:246-252 | corrected: no declared header gives exactly the two JSON defaults; declared headers get the defaults as written |
| LegacyDecorators.UndecoratedHeadersCrash | decorest/decorators.py:214-247 | with no class or method header the call as written fails on `'content-type' not in None`, and the corrected step sends JSON for both headers |
| LegacyDecorators.HeaderStepsAgree | decorest/decorators.py:246-252 | when some header is declared, the written and the corrected step agree |
| LegacyDecorators.Dispatch | decorest/decorators.py:259-285 | dispatches exactly the strings GET, POST, PUT, DELETE and HEAD; `UPDATE` fails for want of `requests.update`; anything else, `PATCH` included, raises |
| LegacyDecorators.CallBody | decorest/decorators.py:219-228 | the same body selection: no decoration gives no body; a list or tuple decoration gives a falsy argument as it is, a truthy one through a truthy second element, and fails only for a truthy argument with no second element; any other decoration fails |
| LegacyDecorators.BodyDecorationPicksArgument | decorest/decorators.py:219-227 | after `@body(name, serializer)` the call sends the argument bound to `name`, through the serializer only when both are truthy |
| LegacyDecorators.CallAuth | decorest/decorators.py:230-233 | the method's authentication unless it reads as `None`, else the class's |
| LegacyDecorators.CallClient | decorest/decorators.py:239-241 | a class `endpoint` decoration replaces the client's endpoint; without one the client is unchanged |
| LegacyDecorators.Call | decorest/decorators.py:196-200 | no arguments fails and keeps the client; a path that does not render fails naming the token and keeps the client; otherwise the call is `Prepare` on the rendered path |
| LegacyDecorators.Prepare | decorest/decorators.py:205-285 | a failure while gathering keeps the client; past line 237 the client is the one after the endpoint step, also when the call then fails; a prepared request has the dispatched verb, the URL built from the endpoint, path and query, the gathered headers after the defaults (carrying `content-type` and `accept`), the gathered body, authentication and handlers; with an endpoint it succeeds exactly when the verb dispatches |
| LegacyDecorators.CallQuery | decorest/decorators.py:205-212 | no query decoration gives no parameters, a dictionary gives the query loop's result, anything else fails |
| LegacyDecorators.Gather | decorest/decorators.py:205-237 | succeeds exactly when the query, headers, body and both handler decorations do; then it holds the query, the merged headers, the body, the resolved authentication and `merge_dicts` of the class's and the method's handlers |
| LegacyDecorators.CallHeaders | decorest/decorators.py:214-216 | the merged headers are `None` exactly when neither the class nor the method declares any, and a declaration that is not a dictionary fails |
| LegacyDecorators.EnumVerbNeverDispatched | decorest/decorators.py:259-285 | a verb stored as a member of `types.HttpMethod` is never dispatched: the call fails |
| LegacyDecorators.UndecoratedVerbNeverDispatched | decorest/decorators.py:259-285 | a method without an `http_method` decoration, as `PUT.py`, `DELETE.py`, `OPTIONS.py` and `UPDATE.py` leave it, is never dispatched: the call fails |
| LegacyDecorators.ClassEndpointSticks | decorest/decorators.py:240-241 | once gathering succeeds, a class endpoint decoration replaces the instance's endpoint whatever happens next; if gathering fails the instance is unchanged |
| LegacyDecorators.FailedCallKeepsEndpoint | decorest/decorators.py:240-285 | with an enumeration verb, the call fails and the instance still holds the class's endpoint |
| LegacyDecorators.UndecoratedCallSendsJson | decorest/decorators.py:246-252 | with the corrected header step a call without declared headers sends JSON as content type and accepted type |

## Left out

- HTTP I/O: the backend calls, the choice of execution context, and the httpx session
  handling of `request.py` lines 233-241 and 272-288 (it depends on `isinstance`
  checks against library classes). The older `call` is modelled up to the choice of
  the backend function.
- The multipart guess of `request.py` lines 210-216 is the host function
  `multipartInferred`; only the decorator-driven branch is modelled.
- `decorest/session.py` and `errors.py` are not part of this model, and the per-verb
  decorator files (`GET.py`, `POST.py`, ...) only through what they store: a verb is
  the `http_method` entry of a decoration table, or its absence. `HTTPErrorWrapper` is
  the outcome `WrappedHttpError`.
- Library internals: JSON encoding and decoding, `urlencode`, `urljoin` in general,
  `merge_header_dicts`, and the case-preserving storage of `CaseInsensitiveDict`.
- Header names are kept lower-cased, while `CaseInsensitiveDict` remembers the
  declared spelling: `request.py` lines 100-102 and 389 compare a header name with
  the parameter names as declared, and line 270 sends the declared spelling. A
  header whose declared name has upper-case letters and equals a parameter name is
  bound in Python and literal in the model, and the model sends lower-case names.
- Timeouts are integers or booleans; floating-point timeouts are not modelled.
- The Python 2 branch of `dict_from_args` and all logging.
- `start_session` and `stop_session` of `client.py` are no-ops; `RestClient` only
  stores the endpoint.
- The older `DECOR_LIST` of `decorators.py` (lines 78-79) is never read.
- The older `auth`, `timeout` and `endpoint` decorators of `decorators.py`: `auth`
  tests `isinstance` against a library class, `timeout` stores a pair that `call`
  never reads, and `endpoint` is a plain `set_decor` under `endpoint`.
- The conversion of `...` into `HttpStatus.ANY` happens in the `on` decorator of the
  newer code, which is not part of this model; handler tables here use 999 directly.
- HttpTypes.StatusCode: the tuple values of `HttpStatus` are modelled by the integers
  `IntEnum` makes of them.
- Request.DeclaredHeaders: states only that no header value is a list; which header
  wins is stated by `Request.LiteralHeadersLookup` and `Values.CIUpdateLookup`.
- Request.DeclaredBody: the serialized body is `host.serialize(serializer, content)`,
  an abstract call. A truthy string or dictionary decoration, which Python indexes
  (`'ab'[0]`, or a lookup of the key `0`), fails in the model with
  `BodyDecorMalformed`. A list or dictionary as the argument name reads no argument in
  the model, where `args_dict.get` raises because the name is unhashable.
- LegacyDecorators.CallBody: shares the body selection of `Request.DeclaredBody`, and
  with it the same two departures.
- Request.DeclaredHandlers: a truthy `on` decoration that is not a dictionary is an
  error of the model (`DictDecor`). `merge_dicts` returns such a value unchanged when
  it is the only one, and calls its `update` otherwise, so Python either carries it on
  or fails later.
- PathTemplate.RenderPath: defined only for safe values (`SafeToRender`). On the
  values that excludes, Python behaves in three ways: a value that renders to its own
  placeholder makes the loop run forever (`PathTemplate.SelfPlaceholderFixedPoint`); a
  backslash in a value is read by `re.sub` as an escape, so `a\d` raises `re.error`;
  and in a template whose tokens are identifiers, a value holding a `}` but no `{` or
  `\` renders in Python, though the model does not cover it.
- LegacyDecorators.Call: renders the path with the corrected renderer of
  `PathTemplate` and fills absent headers with the corrected `HeaderStep` (the
  `decorest/client.py:29-35` and `decorest/decorators.py:214-216, 247` rows of
  "## Findings").
- LegacyDecorators.ToKey: `None`, tuples, enumeration members and other objects are
  hashable wire names in Python, but `Key` has only strings and integers, so the
  model fails with `QueryNameNotModelled` where Python would send them.
- PathTemplate.SafeToRender: a template with a token that is not an identifier
  (`{a-b}`, `{x{y}`) needs every argument to be safe, because a substitution could
  complete a new placeholder there; Python renders such templates with any values.
- LegacyClient.RenderPathGreedy: needs every argument to be an identifier with a
  safe value, since the greedy token can span placeholders. On other values it loops
  or raises as `render_path` does (`LegacyClient.GreedySelfPlaceholderFixedPoint`).
- LegacyDecorators.DictOrNone: a decoration that should be a dictionary but holds
  something else is reported as an error instead of failing later inside Python.
- Request.ApplyOverride: the `endpoint` override is examined but not consumed; it
  stays among the keyword arguments and reaches the backend, as written.
- The older `call` shares the class's header and handler dictionaries with the merge
  in the same way as the newer code; the `decorest/request.py:91-93, 124-125, 168-169`
  row of "## Findings" states it for the newer code only.
- Class inheritance: `hasattr` and `getattr` at `decorator_utils.py` lines 39-42 find
  a base class's `__decorest__` table, so decorating a subclass without a table of its
  own writes into its base class's table. The model gives each class and function its
  own table and has no base classes.
- LegacyDecorators.CallClient: a truthy class `endpoint` decoration that is not a
  string is stored on the instance by Python before `build_request` (line 83 of
  `client.py`) fails on it; the model fails at once with `EndpointNotString` and keeps
  the instance's endpoint.
- Request.ClassAfterCalls: only the class table is carried from call to call; the
  method tables that `MethodTableAfterCall` changes are not threaded through a
  sequence of calls.
- Request.ClassTableAfterCall, Request.HandlerWriteBack: the `on` value is stated only
  when the method's `on` decoration is a dictionary or `None` and the call's `on`
  override a plain dictionary or `None`. A call override of another type raises at
  line 168 of `request.py` after the method's handlers are written, and a method
  decoration of another type is an error of the model where `dict.update` may accept
  it.

## Findings

| source | as written | input that shows it | evidently intended | confidence | as-written member | corrected member |
|---|---|---|---|---|---|---|
| decorest/client.py:29-35 | the placeholder pattern `{(.*)}` is greedy, so it captures from the first `{` to the last `}` of the line | template `pets/{a}/{b}` with `a` and `b` both bound: the captured token is `a}/{b`, which is unbound, and rendering raises | each placeholder is matched up to its own `}`, as the `{([^}.]*)}` of `utils.py` does | not executed | LegacyClient.TwoPlaceholdersFail | PathTemplate.CompleteBindingRenders |
| decorest/decorators.py:214-216, 247 | `merge_dicts` of two absent header decorations is `None`, and the default step then tests `'content-type' in None` | a client class and method without any header, content or accept decoration: the call raises `TypeError` | no declared header means an empty dictionary that gets the two JSON defaults | not executed | LegacyDecorators.UndecoratedHeadersCrash | LegacyDecorators.HeaderStep |
| decorest/request.py:91-93, 124-125, 168-169 | `merge_dicts` returns its first non-`None` argument updated in place, and that argument is the class's own header or handler dictionary | a class with `@header('Accept', 'x')` and a method with a header bound to an argument `key`: after one call the class's headers hold that header, and a later call of another method sends it | the merges work on copies, and a call leaves the class's decorations unchanged | not executed | Objects.HeaderStageWritesClass, Objects.HandlerStageWritesShared, Request.LaterCallSeesLeakedHeader, Request.HeadersAccumulate, Request.MethodKeepsCallHandlers | Objects.CopyingKeepsObjects, Objects.HeaderStageIsBaseHeaders, Objects.HandlerStageIsDeclared |
| decorest/utils.py:28-35 | after each `re.sub` the loop searches the whole result again, so a substituted value is searched for placeholders too | `render_path('{id}', {'id': '{id}'})`: the substitution gives back `{id}`, the same token matches again, and the call never returns | a substituted value is inserted literally and not searched again, so each step removes a placeholder | not executed | PathTemplate.SelfPlaceholderFixedPoint | PathTemplate.RenderStepShrinks, PathTemplate.CompleteBindingRenders |

=== FILE: decor_store.dfy ===
/** The decoration metadata store of decorest/decorator_utils.py: every
    decorated class or function carries a table `__decorest__` from decoration
    names to values, and `set_decor` merges a new value into it. */
module DecorStore {
  import opened Wrappers
  import PyDict
  import opened Values

  /** A `__decorest__` table. */
  type Table = PyDict.Dict<string, Value>

  /** A decorated class or function: the table it carries, if any, and the
      table of the function it wraps (`__wrapped__`), if that one carries one. */
  datatype Target = Target(own: Option<Table>, inner: Option<Table>)

  /** The names a call may override through keyword arguments, in the order the
      assembler examines them. */
  const DecorList: seq<string> :=
    ["header", "query", "form", "multipart", "on", "accept", "content", "timeout", "stream", "body", "endpoint"]

  /** The stored value has no `update` (for a dictionary value) or no `extend`
      (for a list value): Python raises `AttributeError`. */
  datatype DecorError = NotMergeable(name: string)

  /** The table `set_decor` writes into: a wrapper adopts the table of the
      function it wraps, replacing its own, and a bare target gets a new one. */
  function Adopt(t: Target): (r: Table)
    ensures t.inner.Some? ==> r == t.inner.value
    ensures t.inner.None? ==> r == t.own.GetOr([])
  {
    if t.inner.Some? then t.inner.value
    else if t.own.Some? then t.own.value
    else []
  }

  /** A stored value `set_decor` merges into: one that is there and truthy. */
  predicate Present(stored: Option<Value>) {
    stored.Some? && Truthy(stored.value)
  }

  /** The merge policy of `set_decor` for the value already stored under a name
      (`None` when absent): a dictionary is merged key by key into the stored
      one, a list extends the stored list, anything else replaces it. A stored
      falsy value counts as absent and starts from an empty container of the
      new value's kind. */
  function MergeDecor(name: string, stored: Option<Value>, value: Value): (r: Result<Value, DecorError>)
    ensures r.Failure? <==>
              (value.Dict? || value.List?) && Present(stored) &&
              (value.Dict? ==> !stored.value.Dict?) && (value.List? ==> !stored.value.List?)
    ensures r.Success? && value.Dict? ==> r.value.Dict?
    ensures r.Success? && value.Dict? ==>
              r.value.caseInsensitive == (if Present(stored) then stored.value.caseInsensitive else value.caseInsensitive) &&
              forall k :: Get(r.value, k) ==
                if UpdateSource(r.value.caseInsensitive, value.entries, k).Some?
                then UpdateSource(r.value.caseInsensitive, value.entries, k)
                else if Present(stored) then Get(stored.value, k) else None
    ensures r.Success? && value.List? ==> r.value.List?
    ensures r.Success? && value.List? ==>
              r.value.items == (if Present(stored) then stored.value.items else []) + value.items
    ensures !value.Dict? && !value.List? ==> r == Success(value)
  {
    var present := Present(stored);
    if value.Dict? then
      var base := if present then stored.value else Dict([], value.caseInsensitive);
      if base.Dict? then
        UpdateEntriesGetAll(base, value.entries);
        Success(UpdateEntries(base, value.entries))
      else Failure(NotMergeable(name))
    else if value.List? then
      var base := if present then stored.value else List([]);
      if base.List? then Success(List(base.items + value.items)) else Failure(NotMergeable(name))
    else Success(value)
  }

  /** `set_decor(t, name, value)`. After it the target and the function it wraps
      share one table. */
  function SetDecor(t: Target, name: string, value: Value): (r: Result<Target, DecorError>)
    ensures r.Success? ==> r.value.own.Some?
    ensures r.Success? && t.inner.Some? ==> r.value.inner == r.value.own
    ensures r.Success? ==>
              forall n | n != name :: PyDict.Lookup(r.value.own.value, n) == PyDict.Lookup(Adopt(t), n)
    ensures r.Success? <==> MergeDecor(name, PyDict.Lookup(Adopt(t), name), value).Success?
    ensures r.Success? ==>
              PyDict.Lookup(r.value.own.value, name) == Some(MergeDecor(name, PyDict.Lookup(Adopt(t), name), value).value)
  {
    var d := Adopt(t);
    var merged :- MergeDecor(name, PyDict.Lookup(d, name), value);
    var d' := PyDict.Set(d, name, merged);
    Success(Target(Some(d'), if t.inner.Some? then Some(d') else None))
  }

  /** `get_decor(t, name)`: the stored value, or `None` when the name is absent
      or its value is falsy. */
  function GetDecor(table: Option<Table>, name: string): (r: Value)
    ensures r.Null? || Truthy(r)
    ensures !r.Null? ==> table.Some? && PyDict.Lookup(table.value, name) == Some(r)
    ensures table.Some? && PyDict.Lookup(table.value, name).Some? && Truthy(PyDict.Lookup(table.value, name).value) ==>
              r == PyDict.Lookup(table.value, name).value
  {
    if table.Some? then
      match PyDict.Lookup(table.value, name)
      case Some(v) => if Truthy(v) then v else Null
      case None => Null
    else Null
  }

  /** `set_header_decor(t, value)`: always under `header`, starting from an empty
      case-insensitive dictionary and combining with `merge_header_dicts`, which
      is not part of this model and comes in as `mergeHeaders`. */
  function SetHeaderDecor(t: Target, value: Value, mergeHeaders: (Value, Value) -> Value): (r: Target)
    ensures r.own.Some?
    ensures t.inner.Some? ==> r.inner == r.own
    ensures forall n | n != "header" :: PyDict.Lookup(r.own.value, n) == PyDict.Lookup(Adopt(t), n)
    ensures var stored := PyDict.Lookup(Adopt(t), "header");
            PyDict.Lookup(r.own.value, "header") ==
              Some(mergeHeaders(if Present(stored) then stored.value else Dict([], true), value))
  {
    var d := Adopt(t);
    var stored := PyDict.Lookup(d, "header");
    var base := if Present(stored) then stored.value else Dict([], true);
    var d' := PyDict.Set(d, "header", mergeHeaders(base, value));
    Target(Some(d'), if t.inner.Some? then Some(d') else None)
  }

  /** A stored falsy value reads back as `None`: `get_decor` cannot tell
      `stream=False` from no stream decoration. */
  lemma FalsyReadsAsNone(t: Target, name: string, value: Value)
    requires !value.Dict? && !value.List? && !Truthy(value)
    ensures SetDecor(t, name, value).Success?
    ensures GetDecor(SetDecor(t, name, value).value.own, name) == Null
  {
  }

  /** Two dictionary decorations under one name accumulate: every key of either
      is present, the later one wins on a shared key, and a key only the earlier
      one has keeps its value. */
  lemma DictDecorationsAccumulate(t: Target, name: string, a: Entries, b: Entries, k: Key)
    requires PyDict.Lookup(Adopt(t), name).None?
    ensures var first := SetDecor(t, name, Dict(a, false));
            first.Success? &&
            var second := SetDecor(first.value, name, Dict(b, false));
            second.Success? &&
            var v := PyDict.Lookup(second.value.own.value, name).value;
            v.Dict? && !v.caseInsensitive &&
            PyDict.Lookup(v.entries, k) ==
              if k in PyDict.Keys(b) then PyDict.Lookup(b, k) else PyDict.Lookup(a, k)
  {
    var one := PyDict.Update([], a);
    assert MergeDecor(name, PyDict.Lookup(Adopt(t), name), Dict(a, false)) == Success(Dict(one, false));
    var first := SetDecor(t, name, Dict(a, false));
    var t1 := first.value;
    assert Adopt(t1) == t1.own.value;
    assert PyDict.Lookup(Adopt(t1), name) == Some(Dict(one, false));
    if |a| > 0 {
      assert a[0].0 in PyDict.Keys(one);
    } else {
      assert one == [];
    }
    MergeIntoStored(name, one, b);
    PyDict.UpdateLookup([], a, k);
    PyDict.UpdateLookup(one, b, k);
  }

  /** A plain dictionary decoration over a stored plain dictionary: the stored
      one updated with it. An empty stored dictionary reads as falsy and is
      replaced by a fresh empty one, which comes to the same. */
  lemma MergeIntoStored(name: string, one: Entries, b: Entries)
    ensures MergeDecor(name, Some(Dict(one, false)), Dict(b, false)) == Success(Dict(PyDict.Update(one, b), false))
  {
    if |one| > 0 {
      assert Truthy(Dict(one, false));
    }
  }

  /** Two list decorations under one name concatenate in application order. */
  lemma ListDecorationsAccumulate(t: Target, name: string, a: seq<Value>, b: seq<Value>)
    requires PyDict.Lookup(Adopt(t), name).None?
    ensures var first := SetDecor(t, name, List(a));
            first.Success? &&
            var second := SetDecor(first.value, name, List(b));
            second.Success? &&
            PyDict.Lookup(second.value.own.value, name) == Some(List(a + b))
  {
    assert [] + a == a;
    assert MergeDecor(name, PyDict.Lookup(Adopt(t), name), List(a)) == Success(List(a));
    var first := SetDecor(t, name, List(a));
    var t1 := first.value;
    assert Adopt(t1) == t1.own.value;
    assert PyDict.Lookup(Adopt(t1), name) == Some(List(a));
    if |a| == 0 {
      assert a + b == b;
    }
    assert MergeDecor(name, Some(List(a)), List(b)) == Success(List(a + b));
  }

  /** Decorations accumulate across wrapper layers: a decoration applied to a
      wrapper keeps every decoration the wrapped function already had. */
  lemma WrapperKeepsInnerDecorations(inner: Table, own: Option<Table>, name: string, value: Value, n: string)
    requires n != name
    requires SetDecor(Target(own, Some(inner)), name, value).Success?
    ensures PyDict.Lookup(SetDecor(Target(own, Some(inner)), name, value).value.own.value, n) == PyDict.Lookup(inner, n)
  {
  }

  /** When `merge_header_dicts` is the plain update of `merge_dicts`, a header
      decoration is the case-insensitive branch of `set_decor`. */
  lemma HeaderDecorAsSetDecor(t: Target, value: Value, mergeHeaders: (Value, Value) -> Value)
    requires value.Dict? && value.caseInsensitive
    requires forall a: Value, b: Value | a.Dict? && b.Dict? :: mergeHeaders(a, b) == UpdateEntries(a, b.entries)
    requires var stored := PyDict.Lookup(Adopt(t), "header");
             stored.None? || !Truthy(stored.value) || stored.value.Dict?
    ensures SetDecor(t, "header", value) == Success(SetHeaderDecor(t, value, mergeHeaders))
  {
  }
}

=== FILE: legacy_client.dfy ===
/** The older client of decorest/client.py: a path renderer driven by the
    greedy pattern `{(.*)}`, and `RestClient.build_request`. */
module LegacyClient {
  import opened Wrappers
  import opened PathTemplate
  import opened Text
  import opened Utils
  import PyDict
  import Values

  /** The length of the first line of `t`: how far `.` (anything but a newline) reaches. */
  function LineLength(t: string): (n: nat)
    ensures n <= |t|
    ensures forall i | 0 <= i < n :: t[i] != '\n'
    ensures n < |t| ==> t[n] == '\n'
  {
    if |t| == 0 || t[0] == '\n' then 0 else 1 + LineLength(t[1..])
  }

  /** The index of the last `}` of `t`. */
  function LastClose(t: string): (r: Option<nat>)
    ensures r.Some? ==> r.value < |t| && t[r.value] == '}'
    ensures r.Some? ==> forall j | r.value < j < |t| :: t[j] != '}'
    ensures r.None? ==> forall j | 0 <= j < |t| :: t[j] != '}'
    decreases |t|
  {
    if |t| == 0 then None
    else if t[|t| - 1] == '}' then Some(|t| - 1)
    else LastClose(t[..|t| - 1])
  }

  /** The token captured when `{(.*)}` matches at the start of `s`: up to the
      last `}` of the line. */
  function GreedyTokenAt(s: string): Option<string> {
    if |s| > 0 && s[0] == '{' then
      var line := s[1..][..LineLength(s[1..])];
      match LastClose(line)
      case Some(k) => Some(s[1..1 + k])
      case None => None
    else None
  }

  function GreedyFirstToken(s: string): Option<string>
    decreases |s|
  {
    if |s| == 0 then None
    else if GreedyTokenAt(s).Some? then GreedyTokenAt(s)
    else GreedyFirstToken(s[1..])
  }

  /** An identifier's greedy match is a literal occurrence of its placeholder. */
  lemma {:induction false} GreedyTokenOccurs(s: string, token: string) returns (at: nat)
    requires GreedyFirstToken(s) == Some(token)
    ensures at + |Placeholder(token)| <= |s| && s[at..at + |Placeholder(token)|] == Placeholder(token)
    decreases |s|
  {
    if GreedyTokenAt(s).Some? {
      at := 0;
      assert GreedyFirstToken(s) == GreedyTokenAt(s);
      var line := s[1..][..LineLength(s[1..])];
      var k := LastClose(line).value;
      assert GreedyTokenAt(s) == Some(s[1..1 + k]);
      assert token == s[1..1 + k];
      assert s[0] == '{' && s[1 + k] == '}';
      assert s[..2 + k] == [s[0]] + s[1..1 + k] + [s[1 + k]];
    } else {
      var t := s[1..];
      var a := GreedyTokenOccurs(t, token);
      at := a + 1;
      var n := |Placeholder(token)|;
      var u, w := s[at..at + n], t[a..a + n];
      forall i | 0 <= i < n ensures u[i] == w[i] {
        assert u[i] == s[at + i] && w[i] == t[a + i];
      }
      assert u == w;
    }
  }

  lemma GreedyStepShrinks(s: string, token: string, v: string)
    requires GreedyFirstToken(s) == Some(token) && IsSafeValue(v)
    ensures Opens(ReplaceAll(s, Placeholder(token), v)) < Opens(s)
  {
    var at := GreedyTokenOccurs(s, token);
    ReplaceRemovesOpen(s, token, v, at);
  }

  /** `render_path` of decorest/client.py. */
  function RenderPathGreedy(path: string, args: map<string, string>): (r: Result<string, RenderError>)
    requires ValidArgs(args)
    ensures r.Success? ==> GreedyFirstToken(r.value) == None
    ensures r.Failure? ==> r.error.token !in args
    ensures GreedyFirstToken(path) == None ==> r == Success(path)
    ensures GreedyFirstToken(path).Some? && GreedyFirstToken(path).value !in args ==>
              r == Failure(MissingArgument(GreedyFirstToken(path).value))
    decreases Opens(path)
  {
    match GreedyFirstToken(path)
    case None => Success(path)
    case Some(token) =>
      if token !in args then Failure(MissingArgument(token))
      else
        GreedyStepShrinks(path, token, args[token]);
        RenderPathGreedy(ReplaceAll(path, Placeholder(token), args[token]), args)
  }

  lemma {:induction false} NoOpenNoGreedyToken(s: string)
    requires forall i | 0 <= i < |s| :: s[i] != '{'
    ensures GreedyFirstToken(s) == None
    decreases |s|
  {
    if |s| > 0 {
      NoOpenNoGreedyToken(s[1..]);
    }
  }

  lemma {:induction false} GreedySkipsPrefix(pre: string, rest: string)
    requires forall i | 0 <= i < |pre| :: pre[i] != '{'
    ensures GreedyFirstToken(pre + rest) == GreedyFirstToken(rest)
    decreases |pre|
  {
    if |pre| > 0 {
      assert (pre + rest)[1..] == pre[1..] + rest;
      GreedySkipsPrefix(pre[1..], rest);
    } else {
      assert pre + rest == rest;
    }
  }

  /** With exactly one placeholder the greedy renderer substitutes it correctly. */
  lemma SinglePlaceholderRenders(pre: string, token: string, post: string, args: map<string, string>)
    requires ValidArgs(args) && token in args
    requires NoBraces(pre) && NoBraces(post)
    ensures RenderPathGreedy(pre + Placeholder(token) + post, args) == Success(pre + args[token] + post)
  {
    var v := args[token];
    GreedyFindsLoneToken(pre, token, post, args);
    ReplaceLone(pre, token, post, v);
    var out := pre + v + post;
    assert forall i | 0 <= i < |out| :: out[i] != '{' by {
      forall i | 0 <= i < |out| ensures out[i] != '{' {
        if i < |pre| {
          assert out[i] == pre[i];
        } else if i < |pre| + |v| {
          assert out[i] == v[i - |pre|];
        } else {
          assert out[i] == post[i - |pre| - |v|];
        }
      }
    }
    NoOpenNoGreedyToken(out);
  }

  /** The greedy `render_path` of decorest/client.py:29-35 has the same fixed
      point as the newer one: a value that renders to its own placeholder is
      matched again after the substitution, and the loop does not end. */
  lemma GreedySelfPlaceholderFixedPoint(token: string)
    requires IsIdentifier(token)
    ensures GreedyFirstToken(Placeholder(token)) == Some(token)
    ensures ReplaceAll(Placeholder(token), Placeholder(token), Placeholder(token)) == Placeholder(token)
    ensures !ValidArgs(map[token := Placeholder(token)])
  {
    GreedyFindsLoneToken("", token, "", map[token := ""]);
    assert "" + Placeholder(token) + "" == Placeholder(token);
    SelfPlaceholderFixedPoint(token);
    assert Placeholder(token)[0] == '{';
  }

  /** The greedy pattern finds a lone bound placeholder. */
  lemma GreedyFindsLoneToken(pre: string, token: string, post: string, args: map<string, string>)
    requires ValidArgs(args) && token in args
    requires NoBraces(pre) && NoBraces(post)
    ensures GreedyFirstToken(pre + Placeholder(token) + post) == Some(token)
  {
    var tail := Placeholder(token) + post;
    assert pre + Placeholder(token) + post == pre + tail;
    GreedySkipsPrefix(pre, tail);
    var n := |token|;
    assert forall i | 1 <= i <= n :: tail[i] == token[i - 1];
    var k := GreedyMatchAtBrace(tail, n);
    assert forall j | 1 + n < j < |tail| :: tail[j] == post[j - 2 - n];
    assert tail[1..1 + n] == token;
  }

  /** The greedy match at a `{` whose line closes a brace `n` characters on
      reaches at least that brace, and exactly that brace when no later `}`
      follows. */
  lemma GreedyMatchAtBrace(tail: string, n: nat) returns (k: nat)
    requires |tail| > 0 && tail[0] == '{'
    requires 1 + n < |tail| && tail[1 + n] == '}'
    requires forall i | 1 <= i <= 1 + n :: tail[i] != '\n'
    ensures n <= k && 1 + k < |tail| && tail[1 + k] == '}'
    ensures GreedyTokenAt(tail) == Some(tail[1..1 + k])
    ensures (forall j | 1 + n < j < |tail| :: tail[j] != '}') ==> k == n
  {
    var x := tail[1..];
    assert forall i | 0 <= i <= n :: x[i] == tail[i + 1];
    var len := LineLength(x);
    assert len > n;
    var line := x[..len];
    assert line[n] == '}';
    k := LastClose(line).value;
    assert x[k] == '}';
    assert tail[1..1 + k] == x[..k];
  }

  /** Substituting a lone placeholder. */
  lemma ReplaceLone(pre: string, token: string, post: string, v: string)
    requires NoBraces(pre) && NoBraces(post)
    ensures ReplaceAll(pre + Placeholder(token) + post, Placeholder(token), v) == pre + v + post
  {
    var p := Placeholder(token);
    assert pre + p + post == pre + (p + post);
    ReplaceSkipsPrefix(pre, p + post, p, v);
    ReplaceAtPattern(p, post, v);
    ReplaceAbsent(post, p, v);
    assert pre + (v + post) == pre + v + post;
  }

  /** With two placeholders on one line the greedy match runs from the first `{`
      to the last `}`; its token then contains a `}`, cannot be a bound
      argument, and rendering fails even when both placeholders are bound. */
  lemma TwoPlaceholdersFail(pre: string, t1: string, mid: string, t2: string, post: string,
                            args: map<string, string>)
    requires ValidArgs(args)
    requires forall i | 0 <= i < |pre| :: pre[i] != '{'
    requires forall i | 0 <= i < |t1 + "}" + mid + "{" + t2 + "}"| :: (t1 + "}" + mid + "{" + t2 + "}")[i] != '\n'
    ensures var r := RenderPathGreedy(pre + Placeholder(t1) + mid + Placeholder(t2) + post, args);
            r.Failure? && |r.error.token| > |t1| && r.error.token[|t1|] == '}'
  {
    var tail := Placeholder(t1) + mid + Placeholder(t2) + post;
    assert pre + Placeholder(t1) + mid + Placeholder(t2) + post == pre + tail;
    GreedySkipsPrefix(pre, tail);
    var body := t1 + "}" + mid + "{" + t2 + "}";
    assert tail == "{" + body + post;
    var second := |body| - 1;
    assert forall i | 1 <= i <= 1 + second :: tail[i] == body[i - 1];
    var k := GreedyMatchAtBrace(tail, second);
    var token := tail[1..1 + k];
    assert token[|t1|] == body[|t1|] == '}';
    assert token !in args;
  }

  /** `RestClient(endpoint)`: the endpoint as given, possibly `None`. */
  datatype RestClient = RestClient(endpoint: Option<string>)

  /** The URL library calls `build_request` relies on. */
  datatype UrlLib = UrlLib(
    urljoin: (string, string) -> string,
    urlencode: PyDict.Dict<Values.Key, Values.Value> -> string)

  datatype ClientError = NoEndpoint

  /** `build_request`: `None` as endpoint fails when `normalize_url` calls `endswith`. */
  function BuildRequest(c: RestClient, pathComponents: seq<string>,
                        query: PyDict.Dict<Values.Key, Values.Value>, lib: UrlLib): (r: Result<string, ClientError>)
    ensures c.endpoint.None? <==> r.Failure?
  {
    match c.endpoint
    case None => Failure(NoEndpoint)
    case Some(e) =>
      var req := lib.urljoin(NormalizeUrl(e), Join(pathComponents, '/'));
      if |query| > 0 then Success(req + "?" + lib.urlencode(query)) else Success(req)
  }

  /** A path segment `urljoin` copies verbatim: not empty, not a dot segment, and
      free of characters that would start a scheme, query or fragment. */
  predicate IsPlainSegment(seg: string) {
    |seg| > 0 && seg != "." && seg != ".." &&
    forall i | 0 <= i < |seg| :: seg[i] != ':' && seg[i] != '?' && seg[i] != '#' && seg[i] != '/'
  }

  predicate AllPlainSegments(segs: seq<string>) {
    forall i | 0 <= i < |segs| :: IsPlainSegment(segs[i])
  }

  predicate IsPlainRelative(ref: string) {
    AllPlainSegments(Split(ref, '/'))
  }

  /** A base URL `scheme://authority/segments/` without query, fragment, empty
      or dot segments. */
  ghost predicate IsPlainBase(base: string) {
    exists scheme, rest | base == scheme + "://" + rest ::
      |rest| > 0 && EndsWith(rest, "/") &&
      IsPlainSegment(scheme) &&
      AllPlainSegments(Split(rest[..|rest| - 1], '/'))
  }

  /** The merge of section 5.2.3 of RFC 3986 for these inputs: the reference
      is appended to a base that ends with `/`. */
  ghost predicate MergesPlainPaths(urljoin: (string, string) -> string) {
    forall base, ref | IsPlainBase(base) && IsPlainRelative(ref) :: urljoin(base, ref) == base + ref
  }

  /** Rendering a path, splitting it on `/` and joining it again reaches the
      endpoint plus the path, plus `?` and the encoded query only when there is one. */
  lemma BuildRequestAppendsPath(c: RestClient, path: string,
                                query: PyDict.Dict<Values.Key, Values.Value>, lib: UrlLib)
    requires MergesPlainPaths(lib.urljoin)
    requires c.endpoint.Some? && IsPlainBase(NormalizeUrl(c.endpoint.value)) && IsPlainRelative(path)
    ensures BuildRequest(c, Split(path, '/'), query, lib) ==
            Success(NormalizeUrl(c.endpoint.value) + path + (if |query| > 0 then "?" + lib.urlencode(query) else ""))
  {
    var base := NormalizeUrl(c.endpoint.value);
    JoinSplit(path, '/');
    var req := PlainJoin(lib, base, path);
    var tail := if |query| > 0 then "?" + lib.urlencode(query) else "";
    BuildRequestTail(c, Split(path, '/'), query, lib);
    assert req + tail == base + path + tail;
  }

  lemma BuildRequestTail(c: RestClient, pathComponents: seq<string>,
                         query: PyDict.Dict<Values.Key, Values.Value>, lib: UrlLib)
    requires c.endpoint.Some?
    ensures BuildRequest(c, pathComponents, query, lib) ==
            Success(lib.urljoin(NormalizeUrl(c.endpoint.value), Join(pathComponents, '/')) +
                    (if |query| > 0 then "?" + lib.urlencode(query) else ""))
  {
    var req := lib.urljoin(NormalizeUrl(c.endpoint.value), Join(pathComponents, '/'));
    if |query| == 0 {
      assert req + "" == req;
    } else {
      var q := lib.urlencode(query);
      assert req + "?" + q == req + ("?" + q);
    }
  }

  lemma PlainJoin(lib: UrlLib, base: string, path: string) returns (req: string)
    requires MergesPlainPaths(lib.urljoin) && IsPlainBase(base) && IsPlainRelative(path)
    ensures req == lib.urljoin(base, path) == base + path
  {
    req := lib.urljoin(base, path);
  }
}

=== FILE: legacy_decorators.dfy ===
/** The older decorator module decorest/decorators.py: its own `set_decor`
    (without adoption of a wrapped function's table), the decorators that
    write through it, and `HttpMethodDecorator.call`, which assembles and
    dispatches a request through the older `RestClient` of decorest/client.py. */
module LegacyDecorators {
  import opened Wrappers
  import PyDict
  import opened Values
  import opened Utils
  import opened Text
  import PathTemplate
  import DecorStore
  import opened LegacyClient
  import Request

  type Table = DecorStore.Table

  /** Lines 35-58: the merge policy of the newer `set_decor`, into the target's
      own table or a new one. */
  function SetDecor(own: Option<Table>, name: string, value: Value): (r: Result<Table, DecorStore.DecorError>)
    ensures r.Success? <==> DecorStore.MergeDecor(name, PyDict.Lookup(own.GetOr([]), name), value).Success?
    ensures r.Success? ==>
              PyDict.Lookup(r.value, name) == Some(DecorStore.MergeDecor(name, PyDict.Lookup(own.GetOr([]), name), value).value)
    ensures r.Success? ==> forall n | n != name :: PyDict.Lookup(r.value, n) == PyDict.Lookup(own.GetOr([]), n)
  {
    var d := own.GetOr([]);
    var merged :- DecorStore.MergeDecor(name, PyDict.Lookup(d, name), value);
    Success(PyDict.Set(d, name, merged))
  }

  /** The older `set_decor` is the newer one on a target that wraps nothing. */
  lemma SetDecorIsUnwrappedNewer(own: Option<Table>, name: string, value: Value)
    ensures var older := SetDecor(own, name, value);
            var newer := DecorStore.SetDecor(DecorStore.Target(own, None), name, value);
            older.Success? == newer.Success? &&
            (older.Success? ==> newer.value == DecorStore.Target(Some(older.value), None))
  {
  }

  /** What a decorator is applied to. */
  datatype Decorated = ClassTarget | FunctionTarget

  datatype DecorateError =
    | Merge(e: DecorStore.DecorError)
    | QueryOnClass  // lines 102-103 raise a string, which is a `TypeError`

  function Lift(r: Result<Table, DecorStore.DecorError>): (l: Result<Table, DecorateError>)
    ensures l.Success? <==> r.Success?
    ensures l.Success? ==> l.value == r.value
  {
    match r
    case Success(t) => Success(t)
    case Failure(e) => Failure(Merge(e))
  }

  /** Lines 82-92: `on(status, handler)` stores `{status: handler}`. */
  function On(own: Option<Table>, status: int, handler: Value): (r: Result<Table, DecorStore.DecorError>) {
    SetDecor(own, "on", Dict([(IntKey(status), handler)], false))
  }

  /** Lines 95-108: `query(name, value)` on a method stores `{name: value or
      name}`; on a class it raises. */
  function Query(kind: Decorated, own: Option<Table>, name: string, value: Value): (r: Result<Table, DecorateError>)
    ensures kind == ClassTarget ==> r == Failure(QueryOnClass)
  {
    if kind == ClassTarget then Failure(QueryOnClass)
    else Lift(SetDecor(own, "query", Dict([(StrKey(name), Request.Or(value, Str(name)))], false)))
  }

  /** Lines 111-118: `header(name, value)` stores a one-entry case-insensitive
      dictionary under `header`. */
  function Header(own: Option<Table>, name: string, value: Value): (r: Result<Table, DecorStore.DecorError>) {
    SetDecor(own, "header", Dict(CISet([], StrKey(name), value), true))
  }

  /** Lines 131-138: `content(value)` is the `Content-Type` header. */
  function Content(own: Option<Table>, value: Value): (r: Result<Table, DecorStore.DecorError>) {
    Header(own, "Content-Type", value)
  }

  /** Lines 141-148: `accept(value)` is the `Accept` header. */
  function AcceptHeader(own: Option<Table>, value: Value): (r: Result<Table, DecorStore.DecorError>) {
    Header(own, "Accept", value)
  }

  /** Lines 151-160: `body(name, serializer)` stores the pair. */
  function Body(own: Option<Table>, name: string, serializer: Value): (r: Result<Table, DecorStore.DecorError>)
    ensures r.Success? && DecorStore.GetDecor(Some(r.value), "body") == Tuple([Str(name), serializer])
  {
    SetDecor(own, "body", Tuple([Str(name), serializer]))
  }

  /** A stored header dictionary that case-insensitive entries merge into as
      such: absent, falsy, or itself case-insensitive. */
  predicate HeadersMergeCI(own: Option<Table>) {
    var stored := PyDict.Lookup(own.GetOr([]), "header");
    stored.None? || !Truthy(stored.value) || (stored.value.Dict? && stored.value.caseInsensitive)
  }

  /** What a dictionary decoration starts from: the stored dictionary when
      truthy, else an empty one of the new value's kind. */
  function DictBase(own: Option<Table>, name: string, ci: bool): Value {
    var stored := PyDict.Lookup(own.GetOr([]), name);
    if stored.Some? && Truthy(stored.value) then stored.value else Dict([], ci)
  }

  /** A non-empty dictionary decoration over a stored dictionary (or nothing)
      reads back as the stored one updated with it. */
  lemma DictDecorReadsBack(own: Option<Table>, name: string, v: Value)
    requires v.Dict? && |v.entries| > 0 && DictBase(own, name, v.caseInsensitive).Dict?
    ensures SetDecor(own, name, v).Success?
    ensures DecorStore.GetDecor(Some(SetDecor(own, name, v).value), name) ==
            UpdateEntries(DictBase(own, name, v.caseInsensitive), v.entries)
  {
    var base := DictBase(own, name, v.caseInsensitive);
    var x := UpdateEntries(base, v.entries);
    assert DecorStore.MergeDecor(name, PyDict.Lookup(own.GetOr([]), name), v) == Success(x);
    UpdateNonEmpty(base, v.entries);
  }

  /** A header decoration adds its header, case-insensitively, and keeps every
      other header already declared. */
  lemma HeaderAdds(own: Option<Table>, name: string, value: Value, k: Key)
    requires HeadersMergeCI(own)
    ensures var r := Header(own, name, value);
            r.Success? && HeadersMergeCI(Some(r.value)) &&
            var h := DecorStore.GetDecor(Some(r.value), "header");
            h.Dict? && h.caseInsensitive &&
            CILookup(h.entries, k) ==
              if LowerKey(k) == LowerKey(StrKey(name)) then Some(value)
              else if DecorStore.GetDecor(own, "header").Dict? then CILookup(DecorStore.GetDecor(own, "header").entries, k)
              else None
  {
    var e := CISet([], StrKey(name), value);
    var base := DictBase(own, "header", true);
    assert base.Dict? && base.caseInsensitive;
    DictDecorReadsBack(own, "header", Dict(e, true));
    var r := Header(own, name, value);
    assert PyDict.Lookup(r.value, "header").Some?;
    HeaderEntry(name, value, k);
    CIUpdateLookup(base.entries, e, k);
    if !DecorStore.GetDecor(own, "header").Dict? {
      assert CILookup(base.entries, k) == None;
    }
  }

  lemma HeaderEntry(name: string, value: Value, k: Key)
    ensures LastMatch(CISet([], StrKey(name), value), LowerKey(k)) ==
            if LowerKey(k) == LowerKey(StrKey(name)) then Some(value) else None
  {
    var e := CISet([], StrKey(name), value);
    LowerIdempotentKey(StrKey(name));
    assert e == [(LowerKey(StrKey(name)), value)];
    assert e[1..] == [];
  }

  lemma LowerIdempotentKey(k: Key)
    ensures LowerKey(LowerKey(k)) == LowerKey(k)
  {
    if k.StrKey? {
      LowerIdempotent(k.s);
    }
  }

  lemma UpdateNonEmpty(base: Value, e: Entries)
    requires base.Dict? && |e| > 0
    ensures Truthy(UpdateEntries(base, e))
  {
    var x := UpdateEntries(base, e);
    if base.caseInsensitive {
      assert LowerKey(e[0].0) in PyDict.Keys(x.entries);
    } else {
      assert e[0].0 in PyDict.Keys(e);
      assert e[0].0 in PyDict.Keys(x.entries);
    }
  }

  /** `content` and `accept` write into the one `header` dictionary: a method
      decorated with both declares both headers. */
  lemma ContentAndAcceptCombine(own: Option<Table>, ct: Value, acc: Value)
    requires HeadersMergeCI(own)
    ensures var r1 := Content(own, ct);
            r1.Success? && AcceptHeader(Some(r1.value), acc).Success? &&
            var h := DecorStore.GetDecor(Some(AcceptHeader(Some(r1.value), acc).value), "header");
            h.Dict? && CILookup(h.entries, ContentType) == Some(ct) && CILookup(h.entries, Accept) == Some(acc)
  {
    LowerCaseNames();
    assert LowerKey(StrKey("Content-Type")) == ContentType;
    assert LowerKey(StrKey("Accept")) == Accept;
    HeaderAdds(own, "Content-Type", ct, ContentType);
    var r1 := Content(own, ct);
    HeaderAdds(Some(r1.value), "Accept", acc, ContentType);
    HeaderAdds(Some(r1.value), "Accept", acc, Accept);
  }

  /** A `query` decoration without a value sends the argument under its own
      name; with a truthy value, under that value. */
  lemma QueryNamesItself(own: Option<Table>, name: string, value: Value)
    requires PyDict.Lookup(own.GetOr([]), "query").None?
    ensures var r := Query(FunctionTarget, own, name, value);
            r.Success? &&
            DecorStore.GetDecor(Some(r.value), "query") ==
              Dict([(StrKey(name), if Truthy(value) then value else Str(name))], false)
  {
    var w := Request.Or(value, Str(name));
    var e: Entries := [(StrKey(name), w)];
    PyDict.UpdateSingle([], StrKey(name), w);
    assert PyDict.Set([], StrKey(name), w) == e;
    var merged := DecorStore.MergeDecor("query", None, Dict(e, false));
    assert merged == Success(Dict(e, false));
    var t := SetDecor(own, "query", Dict(e, false));
    assert PyDict.Lookup(t.value, "query") == Some(Dict(e, false));
    assert Truthy(Dict(e, false));
  }

  /** Handlers of several `on` decorations accumulate; a later one for the same
      status replaces the earlier. */
  lemma HandlersAccumulate(own: Option<Table>, s1: int, h1: Value, s2: int, h2: Value, status: int)
    requires PyDict.Lookup(own.GetOr([]), "on").None?
    ensures var r1 := On(own, s1, h1);
            r1.Success? && On(Some(r1.value), s2, h2).Success? &&
            var on := DecorStore.GetDecor(Some(On(Some(r1.value), s2, h2).value), "on");
            on.Dict? &&
            PyDict.Lookup(on.entries, IntKey(status)) ==
              if status == s2 then Some(h2) else if status == s1 then Some(h1) else None
  {
    var t1 := OnStep(own, s1, h1, []);
    var t2 := OnStep(Some(t1), s2, h2, PyDict.Set([], IntKey(s1), h1));
  }

  /** One `on` decoration over a stored dictionary of handlers: the stored
      dictionary with the handler set for its status. */
  lemma OnStep(own: Option<Table>, status: int, h: Value, base: Entries) returns (t: Table)
    requires DictBase(own, "on", false) == Dict(base, false)
    ensures On(own, status, h) == Success(t)
    ensures DecorStore.GetDecor(Some(t), "on") == Dict(PyDict.Set(base, IntKey(status), h), false)
    ensures DictBase(Some(t), "on", false) == Dict(PyDict.Set(base, IntKey(status), h), false)
  {
    DictDecorReadsBack(own, "on", Dict([(IntKey(status), h)], false));
    PyDict.UpdateSingle(base, IntKey(status), h);
    t := On(own, status, h).value;
  }

  // ---------------------------------------------------------------------------
  // HttpMethodDecorator.call (lines 196-303)

  /** The decorated method: its decoration table and declared parameters. */
  datatype LegacyMethod = LegacyMethod(table: Option<Table>, params: seq<Param>)

  /** What the backend call receives. */
  datatype LegacyRequest = LegacyRequest(
    verb: string,
    url: string,
    headers: Value,
    body: Value,
    auth: Value,
    onHandlers: Value)

  /** What a call produces, and the client instance after it: lines 240-241
      replace the instance's endpoint before the request is built, so the
      replacement stays even when the call then fails. */
  datatype CallOutcome = CallOutcome(result: Result<LegacyRequest, CallError>, client: RestClient)

  datatype CallError =
    | NoClientArgument
    | MissingArgument(token: string)
    | QueryNotDict
    | UnhashableQueryName    // a list or dictionary as a wire name: `TypeError`
    | QueryNameNotModelled   // another hashable wire name, which `Key` does not represent
    | HeaderNotDict
    | HeadersNone            // `'content-type' not in None`, as written
    | BodyDecorMalformed
    | HandlersNotDict
    | EndpointNotString
    | NoEndpoint
    | NoUpdateFunction       // `requests.update` does not exist
    | UnsupportedVerb        // line 284 raises a string, which is a `TypeError`

  /** A value used as a dictionary key; `True` and `1` are the same key. A
      list or a dictionary is unhashable; the other hashable values (`None`,
      tuples, enumeration members, objects) are keys `Key` does not represent. */
  function ToKey(v: Value): (r: Result<Key, CallError>)
    ensures v.Str? ==> r == Success(StrKey(v.s))
    ensures v.Int? ==> r == Success(IntKey(v.i))
    ensures v.Bool? ==> r == Success(IntKey(if v.b then 1 else 0))
    ensures v.List? || v.Dict? ==> r == Failure(UnhashableQueryName)
    ensures r.Failure? <==> !(v.Str? || v.Int? || v.Bool?)
  {
    match v
    case Str(s) => Success(StrKey(s))
    case Int(i) => Success(IntKey(i))
    case Bool(b) => Success(IntKey(if b then 1 else 0))
    case List(_) => Failure(UnhashableQueryName)
    case Dict(_, _) => Failure(UnhashableQueryName)
    case _ => Failure(QueryNameNotModelled)
  }

  /** The argument a query entry names, if it names one and it is truthy. */
  function QueryArgument(argsDict: Request.Kwargs, k: Key): (r: Option<Value>)
    ensures r.Some? ==> k.StrKey? && PyDict.Lookup(argsDict, k.s) == r && Truthy(r.value)
    ensures k.StrKey? && PyDict.Lookup(argsDict, k.s).Some? && Truthy(PyDict.Lookup(argsDict, k.s).value) ==>
              r == PyDict.Lookup(argsDict, k.s)
  {
    if k.StrKey? && PyDict.Lookup(argsDict, k.s).Some? && Truthy(PyDict.Lookup(argsDict, k.s).value)
    then PyDict.Lookup(argsDict, k.s) else None
  }

  /** Lines 205-212: each query entry `arg ↦ wire` whose argument is truthy
      sends the argument under `wire`, in the order of the entries. */
  function QueryParams(q: Entries, entries: Entries, argsDict: Request.Kwargs): (r: Result<Entries, CallError>)
    decreases |entries|
  {
    if |entries| == 0 then Success(q)
    else
      var (k, wire) := entries[0];
      match QueryArgument(argsDict, k)
      case None => QueryParams(q, entries[1..], argsDict)
      case Some(v) =>
        var key :- ToKey(wire);
        QueryParams(PyDict.Set(q, key, v), entries[1..], argsDict)
  }

  /** The reference reading of the query loop: the last entry, from the back,
      whose argument is truthy and whose wire name is `key`. */
  function LastSent(entries: Entries, argsDict: Request.Kwargs, key: Key): Option<Value>
    decreases |entries|
  {
    if |entries| == 0 then None
    else
      var i := |entries| - 1;
      var v := QueryArgument(argsDict, entries[i].0);
      if v.Some? && ToKey(entries[i].1) == Success(key) then v
      else LastSent(entries[..i], argsDict, key)
  }

  predicate WireNamesModelled(entries: Entries) {
    forall i | 0 <= i < |entries| :: ToKey(entries[i].1).Success?
  }

  /** With wire names `Key` represents the loop succeeds, and every wire name carries
      the value of the last truthy argument sent under it. */
  lemma {:induction false} QueryParamsLookup(q: Entries, entries: Entries, argsDict: Request.Kwargs, key: Key)
    requires WireNamesModelled(entries)
    ensures QueryParams(q, entries, argsDict).Success?
    ensures PyDict.Lookup(QueryParams(q, entries, argsDict).value, key) ==
            if LastSent(entries, argsDict, key).Some? then LastSent(entries, argsDict, key) else PyDict.Lookup(q, key)
    decreases |entries|
  {
    if |entries| > 0 {
      var (k, wire) := entries[0];
      assert WireNamesModelled(entries[1..]) by {
        forall i | 0 <= i < |entries[1..]| ensures ToKey(entries[1..][i].1).Success? {
          assert entries[1..][i] == entries[i + 1];
        }
      }
      var q' := if QueryArgument(argsDict, k).Some? then PyDict.Set(q, ToKey(wire).value, QueryArgument(argsDict, k).value) else q;
      QueryParamsLookup(q', entries[1..], argsDict, key);
      LastSentCons(entries, argsDict, key);
    }
  }

  /** `LastSent` read from the front: a later entry wins over the first. */
  lemma {:induction false} LastSentCons(entries: Entries, argsDict: Request.Kwargs, key: Key)
    requires |entries| > 0 && ToKey(entries[0].1).Success?
    ensures LastSent(entries, argsDict, key) ==
            if LastSent(entries[1..], argsDict, key).Some? then LastSent(entries[1..], argsDict, key)
            else if QueryArgument(argsDict, entries[0].0).Some? && ToKey(entries[0].1) == Success(key)
            then QueryArgument(argsDict, entries[0].0)
            else None
    decreases |entries|
  {
    if |entries| > 1 {
      var i := |entries| - 1;
      assert entries[1..][..i - 1] == entries[..i][1..];
      assert entries[1..][i - 1] == entries[i];
      LastSentCons(entries[..i], argsDict, key);
    }
  }

  /** `h[k] = v` on a dictionary value, case-insensitive when `h` is. */
  function StoreItem(h: Value, k: Key, v: Value): (r: Value)
    requires h.Dict?
    ensures r.Dict? && r.caseInsensitive == h.caseInsensitive
    ensures Get(r, k) == Some(v)
    ensures forall k' | LowerKey(k') != LowerKey(k) :: Get(r, k') == Get(h, k')
  {
    CISetLookup(h.entries, k, v);
    if h.caseInsensitive then Dict(CISet(h.entries, k, v), true) else Dict(PyDict.Set(h.entries, k, v), false)
  }

  /** Lines 246-252: default `content-type` and `accept` to JSON. */
  function HeaderDefaults(h: Value): (r: Value)
    requires h.Dict?
    ensures r.Dict? && Get(r, ContentType).Some? && Get(r, Accept).Some?
    ensures Get(h, ContentType).Some? ==> Get(r, ContentType) == Get(h, ContentType)
    ensures Get(h, Accept).Some? ==> Get(r, Accept) == Get(h, Accept)
    ensures forall k | LowerKey(k) != Accept && LowerKey(k) != ContentType :: Get(r, k) == Get(h, k)
  {
    LowerCaseNames();
    var h1 := if Get(h, ContentType).None? then StoreItem(h, ContentType, Request.Json) else h;
    if Get(h1, Accept).None? then StoreItem(h1, Accept, Request.Json) else h1
  }

  /** As written, lines 214-216 leave `None` when neither the class nor the
      method declares a header, and line 247 then fails on `in None`. */
  function HeaderStepAsWritten(merged: Value): (r: Result<Value, CallError>)
    requires merged.Null? || merged.Dict?
    ensures merged.Dict? ==> r == Success(HeaderDefaults(merged))
  {
    if merged.Null? then Failure(HeadersNone) else Success(HeaderDefaults(merged))
  }

  /** Corrected: no declared header means an empty case-insensitive dictionary. */
  function HeaderStep(merged: Value): (r: Value)
    requires merged.Null? || merged.Dict?
    ensures r.Dict?
    ensures merged.Null? ==> Get(r, ContentType) == Some(Request.Json) && Get(r, Accept) == Some(Request.Json)
    ensures merged.Dict? ==> r == HeaderDefaults(merged)
  {
    if merged.Null? then
      LowerCaseNames();
      var r := HeaderDefaults(Dict([], true));
      assert Get(Dict([], true), ContentType).None? && Get(Dict([], true), Accept).None?;
      r
    else HeaderDefaults(merged)
  }

  /** The as-written header step rejects exactly the case the corrected one
      fills with defaults; elsewhere they agree. */
  lemma UndecoratedHeadersCrash(classHeaders: Value, funcHeaders: Value)
    requires classHeaders.Null? && funcHeaders.Null?
    ensures HeaderStepAsWritten(MergeDicts([classHeaders, funcHeaders])) == Failure(HeadersNone)
    ensures var h := HeaderStep(MergeDicts([classHeaders, funcHeaders]));
            Get(h, ContentType) == Some(Request.Json) && Get(h, Accept) == Some(Request.Json)
  {
    MergeDictsShape([classHeaders, funcHeaders]);
  }

  lemma HeaderStepsAgree(merged: Value)
    requires merged.Dict?
    ensures HeaderStepAsWritten(merged) == Success(HeaderStep(merged))
  {
  }

  /** Lines 259-285: the verbs the older client dispatches. The decorators of
      this version of decorest store members of `HttpMethod` of decorest/types.py, which
      never equal these strings. */
  function Dispatch(v: Value): (r: Result<string, CallError>)
    ensures r.Success? <==> v.Str? && v.s in {"GET", "POST", "PUT", "DELETE", "HEAD"}
    ensures r.Success? ==> r.value == v.s
    ensures r == Failure(NoUpdateFunction) <==> v == Str("UPDATE")
  {
    if v.Str? && v.s in {"GET", "POST", "PUT", "DELETE", "HEAD"} then Success(v.s)
    else if v == Str("UPDATE") then Failure(NoUpdateFunction)
    else Failure(UnsupportedVerb)
  }

  /** The host behaviour the call needs: `str()`, a body serializer call, and
      the URL library. */
  datatype LegacyHost = LegacyHost(str: Value -> string, serialize: (Value, Value) -> Value, lib: UrlLib)

  function RenderArgs(argsDict: Request.Kwargs, host: LegacyHost): map<string, string> {
    map k | k in PyDict.Keys(argsDict) :: host.str(PyDict.Lookup(argsDict, k).value)
  }

  /** What render_path needs of this call: the rendered values of the
      arguments the template names carry no brace or backslash. */
  predicate Renderable(func: LegacyMethod, template: string, args: seq<Value>, host: LegacyHost)
    requires DistinctNames(func.params)
  {
    PathTemplate.SafeToRender(template, RenderArgs(BindArguments(func.params, args), host))
  }

  function DictOrNone(v: Value, e: CallError): (r: Result<Value, CallError>)
    ensures r.Success? <==> v.Null? || v.Dict?
    ensures r.Success? ==> r.value == v
  {
    if v.Null? || v.Dict? then Success(v) else Failure(e)
  }

  /** Lines 219-228: the same body selection as the newer assembler. The
      argument the first element names is the body, passed through the second
      element when both are truthy; the second element is read only then. */
  function CallBody(func: LegacyMethod, argsDict: Request.Kwargs, host: LegacyHost): (r: Result<Value, CallError>)
    ensures DecorStore.GetDecor(func.table, "body").Null? ==> r == Success(Null)
    ensures var decl := DecorStore.GetDecor(func.table, "body");
            !decl.Null? && !decl.List? && !decl.Tuple? ==> r == Failure(BodyDecorMalformed)
    ensures var decl := DecorStore.GetDecor(func.table, "body");
            (decl.List? || decl.Tuple?) ==>
              var items := Request.Elements(decl);
              var content := Request.BodyArgument(argsDict, items[0]);
              (!Truthy(content) ==> r == Success(content)) &&
              (Truthy(content) && |items| < 2 ==> r == Failure(BodyDecorMalformed)) &&
              (Truthy(content) && |items| >= 2 ==>
                 r == Success(if Truthy(items[1]) then host.serialize(items[1], content) else content))
  {
    var h := Request.Host(host.str, (_, _) => "", host.serialize, _ => "", (_, _) => false);
    match Request.DeclaredBody(Request.Method(func.table, func.params, Null), argsDict, h)
    case Success(b) => Success(b)
    case Failure(_) => Failure(BodyDecorMalformed)
  }

  /** Lines 230-233: the method's authentication, else the class's. */
  function CallAuth(classTable: Option<Table>, func: LegacyMethod): (r: Value)
    ensures !DecorStore.GetDecor(func.table, "auth").Null? ==> r == DecorStore.GetDecor(func.table, "auth")
    ensures DecorStore.GetDecor(func.table, "auth").Null? ==> r == DecorStore.GetDecor(classTable, "auth")
  {
    var a := DecorStore.GetDecor(func.table, "auth");
    if a.Null? then DecorStore.GetDecor(classTable, "auth") else a
  }

  /** Lines 240-241: a class endpoint decoration replaces the client's
      endpoint for this and every later call. */
  function CallClient(client: RestClient, classTable: Option<Table>): (r: Result<RestClient, CallError>)
    ensures DecorStore.GetDecor(classTable, "endpoint").Null? ==> r == Success(client)
    ensures DecorStore.GetDecor(classTable, "endpoint").Str? ==>
              r == Success(RestClient(Some(DecorStore.GetDecor(classTable, "endpoint").s)))
  {
    var e := DecorStore.GetDecor(classTable, "endpoint");
    if e.Null? then Success(client)
    else if e.Str? then Success(RestClient(Some(e.s)))
    else Failure(EndpointNotString)
  }

  /** `HttpMethodDecorator.call(func, *args)`, up to the backend call, with the
      corrected path rendering and header step. `args[0]` is the client
      instance, whose state before the call is `self`. */
  function Call(classTable: Option<Table>, self: RestClient, func: LegacyMethod, template: string,
                args: seq<Value>, host: LegacyHost): (o: CallOutcome)
    requires DistinctNames(func.params) && Renderable(func, template, args, host)
    ensures |args| == 0 ==> o == CallOutcome(Failure(NoClientArgument), self)
    ensures |args| > 0 ==>
              var argsDict := BindArguments(func.params, args);
              var rendered := PathTemplate.RenderPath(template, RenderArgs(argsDict, host));
              (rendered.Failure? ==> o == CallOutcome(Failure(MissingArgument(rendered.error.token)), self)) &&
              (rendered.Success? ==> o == Prepare(classTable, self, func, rendered.value, argsDict, host))
  {
    if |args| == 0 then CallOutcome(Failure(NoClientArgument), self)
    else
      var argsDict := BindArguments(func.params, args);
      var rendered := PathTemplate.RenderPath(template, RenderArgs(argsDict, host));
      if rendered.Failure? then CallOutcome(Failure(MissingArgument(rendered.error.token)), self)
      else Prepare(classTable, self, func, rendered.value, argsDict, host)
  }

  /** Lines 205-212: the query parameters of the call. */
  function CallQuery(func: LegacyMethod, argsDict: Request.Kwargs): (r: Result<Entries, CallError>)
    ensures DecorStore.GetDecor(func.table, "query").Null? ==> r == Success([])
    ensures var q := DecorStore.GetDecor(func.table, "query");
            q.Dict? ==> r == QueryParams([], q.entries, argsDict)
    ensures !(DecorStore.GetDecor(func.table, "query").Null? || DecorStore.GetDecor(func.table, "query").Dict?) ==>
              r == Failure(QueryNotDict)
  {
    var q :- DictOrNone(DecorStore.GetDecor(func.table, "query"), QueryNotDict);
    if q.Null? then Success([]) else QueryParams([], q.entries, argsDict)
  }

  /** What lines 205-237 gather before the endpoint is touched. */
  datatype Gathered = Gathered(query: Entries, headers: Value, body: Value, auth: Value, on: Value)

  /** Lines 205-237: query, merged headers, body, authentication and status
      handlers, each from its helper, failing at the first that fails. */
  function Gather(classTable: Option<Table>, func: LegacyMethod, argsDict: Request.Kwargs, host: LegacyHost): (r: Result<Gathered, CallError>)
    ensures r.Success? <==>
              CallQuery(func, argsDict).Success? && CallHeaders(classTable, func).Success? &&
              CallBody(func, argsDict, host).Success? &&
              DictOrNone(DecorStore.GetDecor(classTable, "on"), HandlersNotDict).Success? &&
              DictOrNone(DecorStore.GetDecor(func.table, "on"), HandlersNotDict).Success?
    ensures CallQuery(func, argsDict).Failure? ==> r == Failure(CallQuery(func, argsDict).error)
    ensures r.Success? ==>
              Success(r.value.query) == CallQuery(func, argsDict) &&
              Success(r.value.headers) == CallHeaders(classTable, func) &&
              Success(r.value.body) == CallBody(func, argsDict, host) &&
              r.value.auth == CallAuth(classTable, func) &&
              r.value.on == MergeDicts([DecorStore.GetDecor(classTable, "on"), DecorStore.GetDecor(func.table, "on")])
  {
    var query :- CallQuery(func, argsDict);
    var mergedHeaders :- CallHeaders(classTable, func);
    var body :- CallBody(func, argsDict, host);
    var classOn :- DictOrNone(DecorStore.GetDecor(classTable, "on"), HandlersNotDict);
    var funcOn :- DictOrNone(DecorStore.GetDecor(func.table, "on"), HandlersNotDict);
    Success(Gathered(query, mergedHeaders, body, CallAuth(classTable, func), MergeDicts([classOn, funcOn])))
  }

  /** Lines 214-216: the class's header decoration merged with the method's;
      `None` when neither declares one. */
  function CallHeaders(classTable: Option<Table>, func: LegacyMethod): (r: Result<Value, CallError>)
    ensures r.Success? <==> DictOrNone(DecorStore.GetDecor(classTable, "header"), HeaderNotDict).Success? &&
                            DictOrNone(DecorStore.GetDecor(func.table, "header"), HeaderNotDict).Success?
    ensures r.Failure? ==> r.error == HeaderNotDict
    ensures r.Success? ==> r.value.Null? || r.value.Dict?
    ensures r.Success? ==> (r.value.Null? <==> (DecorStore.GetDecor(classTable, "header").Null? &&
                                               DecorStore.GetDecor(func.table, "header").Null?))
  {
    var classHeaders :- DictOrNone(DecorStore.GetDecor(classTable, "header"), HeaderNotDict);
    var funcHeaders :- DictOrNone(DecorStore.GetDecor(func.table, "header"), HeaderNotDict);
    var ds := [classHeaders, funcHeaders];
    MergeDictsShape(ds);
    assert (forall i | 0 <= i < |ds| :: ds[i].Null?) <==> ds[0].Null? && ds[1].Null?;
    Success(MergeDicts(ds))
  }

  /** Lines 205-285, once the path is rendered. */
  function Prepare(classTable: Option<Table>, self: RestClient, func: LegacyMethod, path: string,
                   argsDict: Request.Kwargs, host: LegacyHost): (o: CallOutcome)
    ensures Gather(classTable, func, argsDict, host).Failure? ==>
              o == CallOutcome(Failure(Gather(classTable, func, argsDict, host).error), self)
    ensures Gather(classTable, func, argsDict, host).Success? && CallClient(self, classTable).Success? ==>
              o.client == CallClient(self, classTable).value
    ensures CallClient(self, classTable).Failure? ==> o.client == self && o.result.Failure?
    ensures o.result.Success? ==>
              var g := Gather(classTable, func, argsDict, host);
              g.Success? && CallClient(self, classTable) == Success(o.client) &&
              Dispatch(DecorStore.GetDecor(func.table, "http_method")) == Success(o.result.value.verb) &&
              BuildRequest(o.client, Split(path, '/'), g.value.query, host.lib) == Success(o.result.value.url) &&
              o.result.value.headers == HeaderStep(g.value.headers) &&
              o.result.value.body == g.value.body && o.result.value.auth == g.value.auth &&
              o.result.value.onHandlers == g.value.on
    ensures o.result.Success? ==>
              o.result.value.headers.Dict? &&
              Get(o.result.value.headers, ContentType).Some? && Get(o.result.value.headers, Accept).Some?
    ensures Gather(classTable, func, argsDict, host).Success? && CallClient(self, classTable).Success? &&
            CallClient(self, classTable).value.endpoint.Some? ==>
              (o.result.Success? <==> Dispatch(DecorStore.GetDecor(func.table, "http_method")).Success?)
  {
    var g := Gather(classTable, func, argsDict, host);
    if g.Failure? then CallOutcome(Failure(g.error), self)
    else
      match CallClient(self, classTable)
      case Failure(e) => CallOutcome(Failure(e), self)
      case Success(client) =>
        var url := BuildRequest(client, Split(path, '/'), g.value.query, host.lib);
        if url.Failure? then CallOutcome(Failure(CallError.NoEndpoint), client)
        else
          var headers := HeaderStep(g.value.headers);
          match Dispatch(DecorStore.GetDecor(func.table, "http_method"))
          case Failure(e) => CallOutcome(Failure(e), client)
          case Success(verb) =>
            CallOutcome(Success(LegacyRequest(verb, url.value, headers, g.value.body, g.value.auth, g.value.on)), client)
  }

  /** The decorators of this version of decorest (decorest/GET.py and the like) store a
      member of the `HttpMethod` enumeration of decorest/types.py, which never
      equals the strings the older call compares with: such a call fails. */
  lemma EnumVerbNeverDispatched(classTable: Option<Table>, self: RestClient, func: LegacyMethod,
                                template: string, args: seq<Value>, host: LegacyHost)
    requires DistinctNames(func.params) && Renderable(func, template, args, host)
    requires DecorStore.GetDecor(func.table, "http_method").Verb?
    ensures Call(classTable, self, func, template, args, host).result.Failure?
  {
  }

  /** The other verb decorators (decorest/PUT.py, DELETE.py, OPTIONS.py and
      UPDATE.py) set an attribute of the function that `call` never reads and
      store no `http_method` decoration: such a call fails as well. */
  lemma UndecoratedVerbNeverDispatched(classTable: Option<Table>, self: RestClient, func: LegacyMethod,
                                       template: string, args: seq<Value>, host: LegacyHost)
    requires DistinctNames(func.params) && Renderable(func, template, args, host)
    requires DecorStore.GetDecor(func.table, "http_method").Null?
    ensures Call(classTable, self, func, template, args, host).result.Failure?
  {
  }

  /** A class endpoint decoration replaces the endpoint the instance was
      created with once the call gets past line 237, and the instance keeps
      it whatever happens next. */
  lemma ClassEndpointSticks(classTable: Option<Table>, self: RestClient, func: LegacyMethod,
                            path: string, argsDict: Request.Kwargs, host: LegacyHost)
    requires DecorStore.GetDecor(classTable, "endpoint").Str?
    ensures var o := Prepare(classTable, self, func, path, argsDict, host);
            Gather(classTable, func, argsDict, host).Success? ==>
              o.client == RestClient(Some(DecorStore.GetDecor(classTable, "endpoint").s))
    ensures var o := Prepare(classTable, self, func, path, argsDict, host);
            Gather(classTable, func, argsDict, host).Failure? ==> o.client == self
  {
  }

  /** With the enumeration verbs of this version of decorest, a class
      endpoint decoration still replaces the instance's endpoint, although
      the call fails. */
  lemma FailedCallKeepsEndpoint(classTable: Option<Table>, self: RestClient, func: LegacyMethod,
                                path: string, argsDict: Request.Kwargs, host: LegacyHost)
    requires DecorStore.GetDecor(classTable, "endpoint").Str? && DecorStore.GetDecor(func.table, "http_method").Verb?
    requires Gather(classTable, func, argsDict, host).Success?
    ensures var o := Prepare(classTable, self, func, path, argsDict, host);
            o.result.Failure? && o.client == RestClient(Some(DecorStore.GetDecor(classTable, "endpoint").s))
  {
    ClassEndpointSticks(classTable, self, func, path, argsDict, host);
  }

  /** A call whose class and method declare no header still sends JSON as
      content type and accepted type. */
  lemma UndecoratedCallSendsJson(classTable: Option<Table>, self: RestClient, func: LegacyMethod,
                                 template: string, args: seq<Value>, host: LegacyHost)
    requires DistinctNames(func.params) && Renderable(func, template, args, host)
    requires DecorStore.GetDecor(classTable, "header").Null? && DecorStore.GetDecor(func.table, "header").Null?
    ensures var r := Call(classTable, self, func, template, args, host).result;
            r.Success? ==> Get(r.value.headers, ContentType) == Some(Request.Json) &&
                           Get(r.value.headers, Accept) == Some(Request.Json)
  {
    if |args| > 0 {
      var argsDict := BindArguments(func.params, args);
      var rendered := PathTemplate.RenderPath(template, RenderArgs(argsDict, host));
      if rendered.Success? {
        PrepareSendsJson(classTable, self, func, rendered.value, argsDict, host);
      }
    }
  }

  lemma PrepareSendsJson(classTable: Option<Table>, self: RestClient, func: LegacyMethod, path: string,
                         argsDict: Request.Kwargs, host: LegacyHost)
    requires DecorStore.GetDecor(classTable, "header").Null? && DecorStore.GetDecor(func.table, "header").Null?
    ensures var r := Prepare(classTable, self, func, path, argsDict, host).result;
            r.Success? ==> Get(r.value.headers, ContentType) == Some(Request.Json) &&
                           Get(r.value.headers, Accept) == Some(Request.Json)
  {
    assert CallHeaders(classTable, func) == Success(Null);
  }

  /** After `@body(name, serializer)` the call sends the argument bound to
      `name`, passed through the serializer only when both are truthy. */
  lemma BodyDecorationPicksArgument(own: Option<Table>, name: string, serializer: Value,
                                    params: seq<Param>, argsDict: Request.Kwargs, host: LegacyHost)
    ensures var t := Body(own, name, serializer);
            var content := PyDict.Lookup(argsDict, name).GetOr(Null);
            t.Success? &&
            CallBody(LegacyMethod(Some(t.value), params), argsDict, host) ==
              Success(if Truthy(content) && Truthy(serializer) then host.serialize(serializer, content) else content)
  {
    var t := Body(own, name, serializer);
    var decl := Tuple([Str(name), serializer]);
    assert DecorStore.GetDecor(Some(t.value), "body") == decl;
    assert decl.elems[0] == Str(name) && decl.elems[1] == serializer;
  }
}

=== FILE: objects.dfy ===
/** Dictionary objects and their identity, for the aliasing of `merge_dicts`
    in decorest/request.py. The rest of the model works on values; here a
    dictionary is an object in a heap, so that "returns its first argument,
    updated in place" can be told apart from "returns a merged copy".

    `merge_dicts` (decorest/utils.py:74-87) keeps its first non-`None`
    argument as the result and updates it in place. Lines 91-93 hand it the
    class's own header dictionary, and lines 124-125 the class's or the
    method's own handler dictionary, which line 169 then updates with the
    call's `on` override. The evidently intended behaviour copies the first
    dictionary before updating it. */
module Objects {
  import opened Wrappers
  import opened Values
  import opened Utils
  import opened DecorStore
  import Request

  /** Live dictionary objects, by address. */
  type Heap = map<nat, Value>

  /** A reference, or `None`, to a dictionary object of the heap. */
  predicate Live(h: Heap, a: Option<nat>) {
    a.Some? ==> a.value in h && h[a.value].Dict?
  }

  /** The dictionary a reference points to; `None` for no reference. */
  function Deref(h: Heap, a: Option<nat>): (v: Value)
    requires Live(h, a)
    ensures v.Null? <==> a.None?
    ensures v.Null? || v.Dict?
  {
    if a.Some? then h[a.value] else Null
  }

  /** `merge_dicts(a, b)` on objects. As written (`into == None`) the first
      non-`None` object is the result itself, updated in place with the
      second. With `into == Some(s)` it is first copied into the new object
      `s`, and only `s` is written. */
  function MergeObjects(h: Heap, a: Option<nat>, b: Option<nat>, into: Option<nat>): (r: (Heap, Option<nat>))
    requires Live(h, a) && Live(h, b) && (into.Some? ==> into.value !in h)
    ensures Live(r.0, r.1) && Deref(r.0, r.1) == MergeDicts([Deref(h, a), Deref(h, b)])
    ensures r.1.None? <==> a.None? && b.None?
    ensures into.None? ==>
              r.1 == (if a.Some? then a else b) && r.0.Keys == h.Keys &&
              forall o | o in h && Some(o) != a :: r.0[o] == h[o]
    ensures into.Some? ==>
              (r.1.Some? ==> r.1 == into) && h.Keys <= r.0.Keys &&
              forall o | o in h :: r.0[o] == h[o]
  {
    MergePair(Deref(h, a), Deref(h, b));
    var first := if a.Some? then a else b;
    var second := if a.Some? then b else None;
    match first
    case None => (h, None)
    case Some(f) =>
      var target := if into.Some? then into.value else f;
      var h1 := h[target := h[f]];
      if second.Some? then (h1[target := MergeStep(h[f], h[second.value])], Some(target))
      else (h1, Some(target))
  }

  /** Two addresses for new objects: neither is in use, and they differ. */
  predicate Spare(h: Heap, x: nat, y: nat) {
    x !in h && y !in h && x != y
  }

  /** Lines 91-93: `_merge_args` builds a new dictionary object `bound` at
      `boundAt`, `merge_dicts` merges it into the class's header object, and the
      request's headers are the contents of the result. `into` is `None` as
      written and the address of the copy when copying. */
  function HeaderStage(h: Heap, classHeaders: Option<nat>, bound: Entries, boundAt: nat, into: Option<nat>): (r: (Heap, Value))
    requires Live(h, classHeaders) && boundAt !in h
    requires into.Some? ==> Spare(h, boundAt, into.value)
  {
    var h1 := h[boundAt := Dict(bound, false)];
    var m := MergeObjects(h1, classHeaders, Some(boundAt), into);
    (m.0, Deref(m.0, m.1))
  }

  /** Lines 124-125 and 168-169: the class's and the method's handler
      objects are merged, and the result is merged with the call's `on`
      override (`None` when the call passes none). `into1` and `into2` are
      `None` as written and the addresses of the two copies when copying. */
  function HandlerStage(h: Heap, classOn: Option<nat>, funcOn: Option<nat>, callOn: Option<nat>,
                        into1: Option<nat>, into2: Option<nat>): (r: (Heap, Value))
    requires Live(h, classOn) && Live(h, funcOn) && Live(h, callOn)
    requires into1.Some? <==> into2.Some?
    requires into1.Some? ==> Spare(h, into1.value, into2.value)
  {
    var m1 := MergeObjects(h, classOn, funcOn, into1);
    var m2 := MergeObjects(m1.0, m1.1, callOn, into2);
    (m2.0, Deref(m2.0, m2.1))
  }

  /** As written, the class's header object ends up holding the request's
      headers: the class's headers updated with the bound ones. */
  lemma HeaderStageWritesClass(h: Heap, classHeaders: Option<nat>, bound: Entries, boundAt: nat)
    requires Live(h, classHeaders) && boundAt !in h && classHeaders.Some?
    ensures var r := HeaderStage(h, classHeaders, bound, boundAt, None);
            classHeaders.value in r.0 &&
            r.0[classHeaders.value] == r.1 == UpdateEntries(h[classHeaders.value], bound)
  {
    var h1 := h[boundAt := Dict(bound, false)];
    assert Deref(h1, classHeaders) == h[classHeaders.value];
    MergePair(h[classHeaders.value], Dict(bound, false));
  }

  /** As written, the handler object the request uses is the class's own, or
      the method's own when the class declares none: after the call it holds
      the request's handlers, the call's override included. */
  lemma HandlerStageWritesShared(h: Heap, classOn: Option<nat>, funcOn: Option<nat>, callOn: Option<nat>)
    requires Live(h, classOn) && Live(h, funcOn) && Live(h, callOn)
    ensures var r := HandlerStage(h, classOn, funcOn, callOn, None, None);
            (classOn.Some? ==> classOn.value in r.0 && r.0[classOn.value] == r.1) &&
            (classOn.None? && funcOn.Some? ==> funcOn.value in r.0 && r.0[funcOn.value] == r.1)
  {
  }

  /** With copying merges, no object that existed before the call changes,
      the class's and the method's handler and header objects included. */
  lemma CopyingKeepsObjects(h: Heap, classHeaders: Option<nat>, bound: Entries, boundAt: nat, spare: nat,
                            classOn: Option<nat>, funcOn: Option<nat>, callOn: Option<nat>, s1: nat, s2: nat)
    requires Live(h, classHeaders) && Live(h, classOn) && Live(h, funcOn) && Live(h, callOn)
    requires Spare(h, boundAt, spare) && Spare(h, s1, s2)
    ensures var r := HeaderStage(h, classHeaders, bound, boundAt, Some(spare));
            forall o | o in h :: o in r.0 && r.0[o] == h[o]
    ensures var r := HandlerStage(h, classOn, funcOn, callOn, Some(s1), Some(s2));
            forall o | o in h :: o in r.0 && r.0[o] == h[o]
  {
    var h1 := h[boundAt := Dict(bound, false)];
    assert spare !in h1;
  }

  /** The copying merges compute the same headers as the merges as written:
      only the side effect on the class differs. */
  lemma CopyingSameHeaders(h: Heap, classHeaders: Option<nat>, bound: Entries, boundAt: nat, spare: nat)
    requires Live(h, classHeaders) && Spare(h, boundAt, spare)
    ensures HeaderStage(h, classHeaders, bound, boundAt, Some(spare)).1 ==
            HeaderStage(h, classHeaders, bound, boundAt, None).1
  {
  }

  /** The copying merges compute the same handlers as the merges as written,
      unless the call passes the very object the first merge wrote. */
  lemma CopyingSameHandlers(h: Heap, classOn: Option<nat>, funcOn: Option<nat>, callOn: Option<nat>, s1: nat, s2: nat)
    requires Live(h, classOn) && Live(h, funcOn) && Live(h, callOn) && Spare(h, s1, s2)
    requires callOn.Some? && classOn.Some? ==> callOn != classOn
    ensures HandlerStage(h, classOn, funcOn, callOn, Some(s1), Some(s2)).1 ==
            HandlerStage(h, classOn, funcOn, callOn, None, None).1
  {
    var w := MergeObjects(h, classOn, funcOn, None);
    var c := MergeObjects(h, classOn, funcOn, Some(s1));
    assert Deref(w.0, callOn) == Deref(h, callOn);
    assert Deref(c.0, callOn) == Deref(h, callOn);
  }

  /** The header stage with copying merges is the value-level `BaseHeaders`
      of the assembler, which therefore models the intended behaviour. */
  lemma HeaderStageIsBaseHeaders(client: Request.Client, func: Request.Method, argsDict: Request.Kwargs,
                                 h: Heap, classHeaders: Option<nat>, bound: Entries, boundAt: nat, spare: nat)
    requires Live(h, classHeaders) && Spare(h, boundAt, spare)
    requires Deref(h, classHeaders) == GetDecor(client.classTable, "header")
    requires Request.MergeArgs(argsDict, func.table, "header") == Success(bound)
    ensures Request.BaseHeaders(client, func, argsDict) == Success(HeaderStage(h, classHeaders, bound, boundAt, Some(spare)).1)
  {
    var h1 := h[boundAt := Dict(bound, false)];
    assert Deref(h1, classHeaders) == Deref(h, classHeaders);
  }

  /** The handler stage with copying merges is the value-level assembler's:
      the declared handlers, overridden by the call's `on` dictionary. */
  lemma HandlerStageIsDeclared(client: Request.Client, func: Request.Method,
                               h: Heap, classOn: Option<nat>, funcOn: Option<nat>, callOn: Option<nat>, s1: nat, s2: nat)
    requires Live(h, classOn) && Live(h, funcOn) && Live(h, callOn) && Spare(h, s1, s2)
    requires Deref(h, classOn) == GetDecor(client.classTable, "on") && Deref(h, funcOn) == GetDecor(func.table, "on")
    ensures Request.DeclaredHandlers(client, func).Success?
    ensures var r := HandlerStage(h, classOn, funcOn, callOn, Some(s1), Some(s2)).1;
            var declared := Request.DeclaredHandlers(client, func).value;
            r == if callOn.Some? then Request.Overridden(declared, "on", Deref(h, callOn)) else declared
  {
    var c := MergeObjects(h, classOn, funcOn, Some(s1));
    assert Deref(c.0, callOn) == Deref(h, callOn);
    var declared := Request.DeclaredHandlers(client, func).value;
    MergePair(declared, Deref(h, callOn));
  }
}

=== FILE: path_template.dfy ===
/** Path-template rendering of decorest/utils.py: the leftmost placeholder
    `{token}` (regular expression `{([^}.]*)}`) is looked up among the bound
    arguments and every occurrence of it is replaced at once; this repeats
    until no placeholder is left, or fails on the first unbound token. */
module PathTemplate {
  import opened Wrappers

  datatype RenderError = MissingArgument(token: string)

  predicate IsCloser(c: char) {
    c == '}' || c == '.'
  }

  /** How far `[^}.]*` reaches: the index of the first `}` or `.`, or the length. */
  function Span(s: string): (n: nat)
    ensures n <= |s|
    ensures forall i | 0 <= i < n :: !IsCloser(s[i])
    ensures n < |s| ==> IsCloser(s[n])
  {
    if |s| == 0 || IsCloser(s[0]) then 0 else 1 + Span(s[1..])
  }

  /** The token captured when `{([^}.]*)}` matches at the start of `s`. */
  function TokenAt(s: string): Option<string> {
    if |s| > 0 && s[0] == '{' && 1 + Span(s[1..]) < |s| && s[1 + Span(s[1..])] == '}'
    then Some(s[1..1 + Span(s[1..])])
    else None
  }

  /** `re.search`: the token of the leftmost match. */
  function FirstToken(s: string): Option<string>
    decreases |s|
  {
    if |s| == 0 then None
    else if TokenAt(s).Some? then TokenAt(s)
    else FirstToken(s[1..])
  }

  /** Every token the pattern matches somewhere in `s`. */
  function Tokens(s: string): set<string> {
    set i | 0 <= i < |s| && TokenAt(s[i..]).Some? :: TokenAt(s[i..]).value
  }

  function Placeholder(token: string): string {
    "{" + token + "}"
  }

  predicate IsIdentChar(c: char) {
    ('a' <= c <= 'z') || ('A' <= c <= 'Z') || ('0' <= c <= '9') || c == '_'
  }

  /** A Python parameter name (ASCII): what a bound argument's key always is. */
  predicate IsIdentifier(s: string) {
    |s| > 0 && !('0' <= s[0] <= '9') && forall i | 0 <= i < |s| :: IsIdentChar(s[i])
  }

  /** A rendered value that `re.sub` inserts literally and that cannot open or
      close a placeholder. */
  predicate IsSafeValue(v: string) {
    forall i | 0 <= i < |v| :: v[i] != '{' && v[i] != '}' && v[i] != '\\'
  }

  predicate ValidArgs(args: map<string, string>) {
    forall k | k in args :: IsIdentifier(k) && IsSafeValue(args[k])
  }

  /** `re.sub` with a literal pattern: leftmost, non-overlapping replacement. */
  function ReplaceAll(s: string, pat: string, v: string): string
    requires |pat| > 0
    decreases |s|
  {
    if |s| < |pat| then s
    else if s[..|pat|] == pat then v + ReplaceAll(s[|pat|..], pat, v)
    else [s[0]] + ReplaceAll(s[1..], pat, v)
  }

  /** The number of `{` in a string: the measure that makes rendering terminate. */
  function Opens(s: string): nat {
    if |s| == 0 then 0 else (if s[0] == '{' then 1 else 0) + Opens(s[1..])
  }

  lemma {:induction false} OpensConcat(a: string, b: string)
    ensures Opens(a + b) == Opens(a) + Opens(b)
  {
    if |a| > 0 {
      assert (a + b)[1..] == a[1..] + b;
      OpensConcat(a[1..], b);
    } else {
      assert a + b == b;
    }
  }

  /** Replacing a placeholder by a value without `{` removes at least one `{`
      whenever the placeholder occurs, and never adds one. */
  lemma {:induction false} ReplaceRemovesOpen(s: string, token: string, v: string, at: nat)
    requires IsSafeValue(v)
    requires at + |Placeholder(token)| <= |s| && s[at..at + |Placeholder(token)|] == Placeholder(token)
    ensures Opens(ReplaceAll(s, Placeholder(token), v)) < Opens(s)
    decreases |s|
  {
    var pat := Placeholder(token);
    if s[..|pat|] == pat {
      SafeHasNoOpens(v);
      OpensConcat(v, ReplaceAll(s[|pat|..], pat, v));
      ReplaceKeepsOpens(s[|pat|..], token, v);
      assert s == [s[0]] + s[1..];
      assert s[1..] == s[1..|pat|] + s[|pat|..];
      OpensConcat(s[1..|pat|], s[|pat|..]);
    } else {
      assert at > 0;
      assert s[1..][at - 1..at - 1 + |pat|] == s[at..at + |pat|];
      ReplaceRemovesOpen(s[1..], token, v, at - 1);
      OpensConcat([s[0]], ReplaceAll(s[1..], pat, v));
    }
  }

  lemma {:induction false} ReplaceKeepsOpens(s: string, token: string, v: string)
    requires IsSafeValue(v)
    ensures Opens(ReplaceAll(s, Placeholder(token), v)) <= Opens(s)
    decreases |s|
  {
    var pat := Placeholder(token);
    if |s| < |pat| {
    } else if s[..|pat|] == pat {
      SafeHasNoOpens(v);
      OpensConcat(v, ReplaceAll(s[|pat|..], pat, v));
      ReplaceKeepsOpens(s[|pat|..], token, v);
      assert s == s[..|pat|] + s[|pat|..];
      OpensConcat(s[..|pat|], s[|pat|..]);
    } else {
      ReplaceKeepsOpens(s[1..], token, v);
      OpensConcat([s[0]], ReplaceAll(s[1..], pat, v));
    }
  }

  lemma {:induction false} SafeHasNoOpens(v: string)
    requires IsSafeValue(v)
    ensures Opens(v) == 0
  {
    if |v| > 0 {
      SafeHasNoOpens(v[1..]);
    }
  }

  /** The leftmost match is a literal occurrence of its placeholder. */
  lemma {:induction false} FirstTokenOccurs(s: string, token: string) returns (at: nat)
    requires FirstToken(s) == Some(token)
    ensures at + |Placeholder(token)| <= |s| && s[at..at + |Placeholder(token)|] == Placeholder(token)
    decreases |s|
  {
    if TokenAt(s).Some? {
      at := 0;
      assert s[..|Placeholder(token)|] == Placeholder(token);
    } else {
      var t := s[1..];
      var a := FirstTokenOccurs(t, token);
      at := a + 1;
      var n := |Placeholder(token)|;
      var u, w := s[at..at + n], t[a..a + n];
      forall i | 0 <= i < n ensures u[i] == w[i] {
        assert u[i] == s[at + i] && w[i] == t[a + i];
      }
      assert u == w;
    }
  }

  /** One rendering step strictly decreases the number of `{`. */
  lemma RenderStepShrinks(s: string, token: string, v: string)
    requires FirstToken(s) == Some(token) && IsSafeValue(v)
    ensures Opens(ReplaceAll(s, Placeholder(token), v)) < Opens(s)
  {
    var at := FirstTokenOccurs(s, token);
    ReplaceRemovesOpen(s, token, v, at);
  }

  /** What rendering needs of the arguments. When every token of the template
      is an identifier, only the values substituted for those tokens matter:
      they must not carry a brace or a backslash, and any other argument may
      hold anything. A template with another token (`{a-b}`, `{x{y}`) could
      have a placeholder assembled by a substitution, so there every argument
      must be a safe one. */
  predicate SafeToRender(path: string, args: map<string, string>) {
    if forall t | t in Tokens(path) :: IsIdentifier(t)
    then forall k | k in args && k in Tokens(path) :: IsSafeValue(args[k])
    else ValidArgs(args)
  }

  /** `render_path`. */
  function RenderPath(path: string, args: map<string, string>): (r: Result<string, RenderError>)
    requires SafeToRender(path, args)
    ensures r.Success? ==> FirstToken(r.value) == None
    ensures r.Failure? ==> r.error.token !in args
    ensures FirstToken(path) == None ==> r == Success(path)
    ensures FirstToken(path).Some? && FirstToken(path).value !in args ==>
              r == Failure(MissingArgument(FirstToken(path).value))
    decreases Opens(path)
  {
    match FirstToken(path)
    case None => Success(path)
    case Some(token) =>
      if token !in args then Failure(MissingArgument(token))
      else
        SafeToRenderStep(path, token, args);
        RenderStepShrinks(path, token, args[token]);
        RenderPath(ReplaceAll(path, Placeholder(token), args[token]), args)
  }

  /** The first match is one of the tokens of the string. */
  lemma {:induction false} FirstTokenIn(s: string)
    requires FirstToken(s).Some?
    ensures FirstToken(s).value in Tokens(s)
    decreases |s|
  {
    if TokenAt(s).Some? {
      assert s[0..] == s;
    } else {
      FirstTokenIn(s[1..]);
      var t := FirstToken(s).value;
      var i :| 0 <= i < |s[1..]| && TokenAt(s[1..][i..]).Some? && TokenAt(s[1..][i..]).value == t;
      assert s[1..][i..] == s[i + 1..];
    }
  }

  /** `Bound` and `Tokens` say the same thing. */
  lemma BoundTokens(s: string, keys: set<string>)
    requires Bound(s, keys)
    ensures Tokens(s) <= keys
  {
    forall t | t in Tokens(s) ensures t in keys {
      var i :| 0 <= i < |s| && TokenAt(s[i..]).Some? && TokenAt(s[i..]).value == t;
      BoundSuffix(s, keys, i);
    }
  }

  /** Substituting the first token of a template whose tokens are all
      identifiers, by a safe value, creates no token: the template after the
      step has no token the template before it lacked. */
  lemma StepKeepsTokens(s: string, token: string, v: string)
    requires forall t | t in Tokens(s) :: IsIdentifier(t)
    requires FirstToken(s) == Some(token) && IsSafeValue(v)
    ensures Tokens(ReplaceAll(s, Placeholder(token), v)) <= Tokens(s)
  {
    FirstTokenIn(s);
    TokensBound(s, Tokens(s));
    ReplaceKeepsBound(s, token, v, Tokens(s));
    BoundTokens(ReplaceAll(s, Placeholder(token), v), Tokens(s));
  }

  /** One rendering step keeps what rendering needs, and the substituted value
      is a safe one. */
  lemma SafeToRenderStep(path: string, token: string, args: map<string, string>)
    requires SafeToRender(path, args) && FirstToken(path) == Some(token) && token in args
    ensures IsSafeValue(args[token])
    ensures SafeToRender(ReplaceAll(path, Placeholder(token), args[token]), args)
  {
    FirstTokenIn(path);
    if forall t | t in Tokens(path) :: IsIdentifier(t) {
      StepKeepsTokens(path, token, args[token]);
    }
  }

  /** Arguments whose placeholder does not occur in a template of identifier
      tokens play no part in rendering it: two argument maps that agree on the
      template's tokens render it alike. */
  lemma {:induction false} OnlyTokensMatter(path: string, args: map<string, string>, other: map<string, string>)
    requires SafeToRender(path, args) && SafeToRender(path, other)
    requires forall t | t in Tokens(path) :: IsIdentifier(t)
    requires forall t | t in Tokens(path) :: (t in args <==> t in other) && (t in args ==> args[t] == other[t])
    ensures RenderPath(path, args) == RenderPath(path, other)
    decreases Opens(path)
  {
    match FirstToken(path)
    case None =>
    case Some(token) =>
      FirstTokenIn(path);
      if token in args {
        SafeToRenderStep(path, token, args);
        SafeToRenderStep(path, token, other);
        StepKeepsTokens(path, token, args[token]);
        RenderStepShrinks(path, token, args[token]);
        OnlyTokensMatter(ReplaceAll(path, Placeholder(token), args[token]), args, other);
      }
  }

  /** The arguments a template of identifier tokens uses. */
  function Used(path: string, args: map<string, string>): (r: map<string, string>)
    ensures r.Keys == args.Keys * Tokens(path)
    ensures forall k | k in r :: r[k] == args[k]
  {
    map k | k in args && k in Tokens(path) :: args[k]
  }

  /** Rendering with every bound argument is rendering with only the used
      ones, whatever the unused ones hold. */
  lemma UnusedArgumentsIgnored(path: string, args: map<string, string>)
    requires SafeToRender(path, args)
    requires forall t | t in Tokens(path) :: IsIdentifier(t)
    ensures SafeToRender(path, Used(path, args))
    ensures RenderPath(path, args) == RenderPath(path, Used(path, args))
  {
    OnlyTokensMatter(path, args, Used(path, args));
  }

  /** Every match in `s`, at any position, captures a token from `keys`. */
  predicate Bound(s: string, keys: set<string>)
    decreases |s|
  {
    |s| == 0 || ((TokenAt(s).Some? ==> TokenAt(s).value in keys) && Bound(s[1..], keys))
  }

  lemma {:induction false} TokensBound(s: string, keys: set<string>)
    requires Tokens(s) <= keys
    ensures Bound(s, keys)
    decreases |s|
  {
    if |s| > 0 {
      assert s[0..] == s;
      forall t | t in Tokens(s[1..]) ensures t in Tokens(s) {
        var i :| 0 <= i < |s[1..]| && TokenAt(s[1..][i..]).Some? && TokenAt(s[1..][i..]).value == t;
        assert s[1..][i..] == s[i + 1..];
      }
      TokensBound(s[1..], keys);
    }
  }

  lemma {:induction false} BoundSuffix(s: string, keys: set<string>, n: nat)
    requires Bound(s, keys) && n <= |s|
    ensures Bound(s[n..], keys)
    decreases n
  {
    if n > 0 {
      BoundSuffix(s[1..], keys, n - 1);
      assert s[1..][n - 1..] == s[n..];
    }
  }

  lemma {:induction false} FirstTokenBound(s: string, keys: set<string>)
    requires Bound(s, keys) && FirstToken(s).Some?
    ensures FirstToken(s).value in keys
    decreases |s|
  {
    if TokenAt(s).None? {
      FirstTokenBound(s[1..], keys);
    }
  }

  /** Text without `{` in front of a bound string keeps it bound. */
  lemma {:induction false} BoundAfterSafe(v: string, y: string, keys: set<string>)
    requires forall i | 0 <= i < |v| :: v[i] != '{'
    requires Bound(y, keys)
    ensures Bound(v + y, keys)
    decreases |v|
  {
    if |v| == 0 {
      assert v + y == y;
    } else {
      assert (v + y)[1..] == v[1..] + y;
      BoundAfterSafe(v[1..], y, keys);
    }
  }

  /** Whether a `{` before the first `}`/`.` of `x` could start a placeholder
      ending at that `}`; `Guard` says it cannot. */
  predicate Guard(x: string) {
    forall p | 0 <= p < Span(x) :: x[p] == '{' ==> !(Span(x) < |x| && x[Span(x)] == '}')
  }

  lemma PlaceholderBreaksGuard(x: string, token: string)
    requires IsIdentifier(token)
    requires |x| >= |Placeholder(token)| && x[..|Placeholder(token)|] == Placeholder(token)
    ensures !Guard(x)
  {
    var pat := Placeholder(token);
    assert x[0] == '{';
    assert forall i | 1 <= i <= |token| :: x[i] == token[i - 1];
    assert x[|token| + 1] == '}';
    assert Span(x) == |token| + 1;
  }

  /** Replacement leaves everything up to and including the first `}`/`.` alone. */
  lemma {:induction false} ReplaceKeepsHead(x: string, token: string, v: string)
    requires IsIdentifier(token) && Guard(x)
    ensures Span(x) == |x| ==> ReplaceAll(x, Placeholder(token), v) == x
    ensures Span(x) < |x| ==>
      ReplaceAll(x, Placeholder(token), v) == x[..Span(x) + 1] + ReplaceAll(x[Span(x) + 1..], Placeholder(token), v)
    decreases |x|, 1
  {
    var pat := Placeholder(token);
    var j := Span(x);
    if |x| < |pat| {
      if j < |x| {
        assert x == x[..j + 1] + x[j + 1..];
      }
    } else if x[..|pat|] == pat {
      PlaceholderBreaksGuard(x, token);
      assert false;
    } else if IsCloser(x[0]) {
      assert x[..1] == [x[0]];
    } else {
      ReplaceKeepsHeadStep(x, token, v);
    }
  }

  /** The step of `ReplaceKeepsHead` past a first character that neither
      starts the pattern nor closes the span. */
  lemma {:induction false} ReplaceKeepsHeadStep(x: string, token: string, v: string)
    requires IsIdentifier(token) && Guard(x)
    requires |x| >= |Placeholder(token)| && x[..|Placeholder(token)|] != Placeholder(token) && !IsCloser(x[0])
    ensures Span(x) == |x| ==> ReplaceAll(x, Placeholder(token), v) == x
    ensures Span(x) < |x| ==>
      ReplaceAll(x, Placeholder(token), v) == x[..Span(x) + 1] + ReplaceAll(x[Span(x) + 1..], Placeholder(token), v)
    decreases |x|, 0
  {
    var pat := Placeholder(token);
    var j := Span(x);
    var x' := x[1..];
    assert ReplaceAll(x, pat, v) == [x[0]] + ReplaceAll(x', pat, v);
    GuardTail(x);
    ReplaceKeepsHead(x', token, v);
    if j < |x| {
      ConsPrefix(x, j, ReplaceAll(x[j + 1..], pat, v));
    } else {
      assert x == [x[0]] + x';
    }
  }

  lemma ConsPrefix(x: string, k: nat, tail: string)
    requires k < |x|
    ensures x[1..][k..] == x[k + 1..]
    ensures [x[0]] + (x[1..][..k] + tail) == x[..k + 1] + tail
  {
    assert x[..k + 1] == [x[0]] + x[1..][..k];
  }

  /** Dropping a first character that does not close the span keeps `Guard`. */
  lemma GuardTail(x: string)
    requires |x| > 0 && !IsCloser(x[0]) && Guard(x)
    ensures Span(x[1..]) == Span(x) - 1 && Guard(x[1..])
  {
    var x' := x[1..];
    assert forall p | 0 <= p < Span(x') :: x'[p] == x[p + 1];
  }

  lemma SpanUnique(s: string, n: nat)
    requires n <= |s|
    requires forall i | 0 <= i < n :: !IsCloser(s[i])
    requires n < |s| ==> IsCloser(s[n])
    ensures Span(s) == n
  {
  }

  lemma TokenAfterBrace(z: string)
    ensures TokenAt(['{'] + z) ==
      if Span(z) < |z| && z[Span(z)] == '}' then Some(z[..Span(z)]) else None
  {
    var a := ['{'] + z;
    assert a[1..] == z;
    var n := Span(z);
    assert a[0] == '{';
    if n < |z| {
      assert a[1 + n] == z[n];
      assert a[1..1 + n] == z[..n];
    }
  }

  /** The match at the head of `{` + x is unchanged by replacing in `x`. */
  lemma HeadTokenKept(x: string, token: string, v: string)
    requires IsIdentifier(token) && Guard(x)
    ensures TokenAt(['{'] + ReplaceAll(x, Placeholder(token), v)) == TokenAt(['{'] + x)
  {
    var y := ReplaceAll(x, Placeholder(token), v);
    ReplaceKeepsHead(x, token, v);
    var j := Span(x);
    if j < |x| {
      assert y[..j + 1] == x[..j + 1];
      assert forall i | 0 <= i <= j :: y[i] == x[i];
      SpanUnique(y, j);
      assert y[..j] == x[..j];
    }
    TokenAfterBrace(x);
    TokenAfterBrace(y);
  }

  /** Replacing a bound identifier's placeholder by a safe value keeps every
      match bound: substitution never produces a new, unbound placeholder. */
  lemma {:induction false} ReplaceKeepsBound(s: string, token: string, v: string, keys: set<string>)
    requires forall k | k in keys :: IsIdentifier(k)
    requires IsIdentifier(token) && IsSafeValue(v) && Bound(s, keys)
    ensures Bound(ReplaceAll(s, Placeholder(token), v), keys)
    decreases |s|
  {
    var pat := Placeholder(token);
    if |s| < |pat| {
    } else if s[..|pat|] == pat {
      BoundSuffix(s, keys, |pat|);
      ReplaceKeepsBound(s[|pat|..], token, v, keys);
      BoundAfterSafe(v, ReplaceAll(s[|pat|..], pat, v), keys);
    } else {
      var x := s[1..];
      var r := ReplaceAll(s, pat, v);
      ReplaceKeepsBound(x, token, v, keys);
      assert r == [s[0]] + ReplaceAll(x, pat, v);
      assert r[1..] == ReplaceAll(x, pat, v);
      if s[0] == '{' {
        assert s == ['{'] + x;
        GuardFromBound(s, keys);
        HeadTokenKept(x, token, v);
      }
    }
  }

  lemma GuardFromBound(s: string, keys: set<string>)
    requires forall k | k in keys :: IsIdentifier(k)
    requires |s| > 0 && s[0] == '{' && Bound(s, keys)
    ensures Guard(s[1..])
  {
    var x := s[1..];
    var j := Span(x);
    forall p | 0 <= p < j && x[p] == '{' ensures !(j < |x| && x[j] == '}') {
      if j < |x| && x[j] == '}' {
        assert false;
      }
    }
  }

  /** A template whose every placeholder is bound renders successfully, and then
      (by `RenderPath`'s contract) has no placeholder left. */
  lemma CompleteBindingRenders(path: string, args: map<string, string>)
    requires SafeToRender(path, args) && Tokens(path) <= args.Keys
    ensures RenderPath(path, args).Success?
  {
    if forall t | t in Tokens(path) :: IsIdentifier(t) {
      TokensBound(path, Tokens(path));
      BoundRenders(path, args, Tokens(path));
    } else {
      TokensBound(path, args.Keys);
      BoundRenders(path, args, args.Keys);
    }
  }

  lemma {:induction false} BoundRenders(path: string, args: map<string, string>, keys: set<string>)
    requires forall k | k in keys :: IsIdentifier(k) && k in args && IsSafeValue(args[k])
    requires Bound(path, keys)
    ensures SafeToRender(path, args) && RenderPath(path, args).Success?
    decreases Opens(path)
  {
    BoundTokens(path, keys);
    match FirstToken(path)
    case None =>
    case Some(token) =>
      FirstTokenBound(path, keys);
      RenderStepShrinks(path, token, args[token]);
      ReplaceKeepsBound(path, token, args[token], keys);
      BoundRenders(ReplaceAll(path, Placeholder(token), args[token]), args, keys);
  }

  /** A template part with no brace at all. */
  predicate NoBraces(s: string) {
    forall i | 0 <= i < |s| :: s[i] != '{' && s[i] != '}'
  }

  /** `re.sub` leaves a string without `{` alone, and passes over such a
      prefix. */
  lemma {:induction false} ReplaceAbsent(s: string, pat: string, v: string)
    requires |pat| > 0 && pat[0] == '{'
    requires forall i | 0 <= i < |s| :: s[i] != '{'
    ensures ReplaceAll(s, pat, v) == s
    decreases |s|
  {
    if |s| >= |pat| {
      assert s[..|pat|][0] != pat[0];
      ReplaceAbsent(s[1..], pat, v);
      assert s == [s[0]] + s[1..];
    }
  }

  lemma {:induction false} ReplaceSkipsPrefix(pre: string, rest: string, pat: string, v: string)
    requires |pat| > 0 && pat[0] == '{'
    requires forall i | 0 <= i < |pre| :: pre[i] != '{'
    ensures ReplaceAll(pre + rest, pat, v) == pre + ReplaceAll(rest, pat, v)
    decreases |pre|
  {
    if |pre| > 0 {
      var s := pre + rest;
      assert s[1..] == pre[1..] + rest;
      ReplaceSkipsPrefix(pre[1..], rest, pat, v);
      if |s| < |pat| {
        assert ReplaceAll(rest, pat, v) == rest;
        assert ReplaceAll(pre[1..] + rest, pat, v) == pre[1..] + rest;
      } else {
        assert s[..|pat|][0] == pre[0];
        assert ReplaceAll(s, pat, v) == [s[0]] + ReplaceAll(s[1..], pat, v);
        assert [pre[0]] + (pre[1..] + ReplaceAll(rest, pat, v)) == pre + ReplaceAll(rest, pat, v);
      }
    } else {
      assert pre + rest == rest;
    }
  }

  lemma {:induction false} FirstTokenSkipsPrefix(pre: string, rest: string)
    requires forall i | 0 <= i < |pre| :: pre[i] != '{'
    ensures FirstToken(pre + rest) == FirstToken(rest)
    decreases |pre|
  {
    if |pre| > 0 {
      assert (pre + rest)[1..] == pre[1..] + rest;
      FirstTokenSkipsPrefix(pre[1..], rest);
    } else {
      assert pre + rest == rest;
    }
  }

  /** A placeholder of an identifier is matched as that token. */
  lemma PlaceholderMatches(token: string, rest: string)
    requires IsIdentifier(token)
    ensures TokenAt(Placeholder(token) + rest) == Some(token)
  {
    var s := Placeholder(token) + rest;
    var x := s[1..];
    assert x == token + "}" + rest;
    assert forall i | 0 <= i < |token| :: x[i] == token[i] && !IsCloser(x[i]);
    assert IsCloser(x[|token|]);
    assert Span(x) == |token|;
    assert s[0] == '{' && s[1 + |token|] == '}';
    assert s[1..1 + |token|] == token;
  }

  /** An occurrence of the pattern at the start is replaced, and the rest follows. */
  lemma ReplaceAtPattern(p: string, rest: string, v: string)
    requires |p| > 0
    ensures ReplaceAll(p + rest, p, v) == v + ReplaceAll(rest, p, v)
  {
    var s := p + rest;
    assert s[..|p|] == p;
    assert s[|p|..] == rest;
  }

  /** As written, `render_path('{id}', {'id': '{id}'})` does not return: the
      substitution gives back the string it started from, so the loop of
      decorest/utils.py:30-35 matches the same token again, forever. Such a
      value is not safe to render; `RenderStepShrinks` shows that with a safe
      value every step removes a placeholder. */
  lemma SelfPlaceholderFixedPoint(token: string)
    requires IsIdentifier(token)
    ensures FirstToken(Placeholder(token)) == Some(token)
    ensures ReplaceAll(Placeholder(token), Placeholder(token), Placeholder(token)) == Placeholder(token)
    ensures !SafeToRender(Placeholder(token), map[token := Placeholder(token)])
  {
    var p := Placeholder(token);
    PlaceholderMatches(token, "");
    assert p + "" == p;
    ReplaceAtPattern(p, "", p);
    assert p[0..] == p;
    assert token in Tokens(p);
    assert p[0] == '{';
  }
}

=== FILE: pydict.dfy ===
/** Python dictionaries: insertion-ordered entries with pairwise distinct keys.
    Assigning an existing key keeps its position; a new key is appended; this is
    what makes iteration order, and so "which binding wins", well defined. */
module PyDict {
  import opened Wrappers

  predicate DistinctKeys<K(==), V>(d: seq<(K, V)>) {
    forall i, j | 0 <= i < j < |d| :: d[i].0 != d[j].0
  }

  type Dict<K(==,!new), V> = d: seq<(K, V)> | DistinctKeys(d) witness []

  function Keys<K(==,!new), V>(d: seq<(K, V)>): set<K> {
    set i | 0 <= i < |d| :: d[i].0
  }

  lemma KeysConcat<K(!new), V>(a: seq<(K, V)>, b: seq<(K, V)>)
    ensures Keys(a + b) == Keys(a) + Keys(b)
  {
    var ab := a + b;
    forall k | k in Keys(ab) ensures k in Keys(a) + Keys(b) {
      var i :| 0 <= i < |ab| && ab[i].0 == k;
      if i >= |a| {
        assert b[i - |a|].0 == k;
      }
    }
    forall k | k in Keys(a) ensures k in Keys(ab) {
      var i :| 0 <= i < |a| && a[i].0 == k;
      assert ab[i].0 == k;
    }
    forall k | k in Keys(b) ensures k in Keys(ab) {
      var i :| 0 <= i < |b| && b[i].0 == k;
      assert ab[i + |a|].0 == k;
    }
  }

  lemma KeysSingleton<K(!new), V>(k: K, v: V)
    ensures Keys([(k, v)]) == {k}
  {
    assert [(k, v)][0].0 == k;
  }

  /** The head key of a dictionary does not occur in its tail. */
  lemma KeysCons<K(!new), V>(d: Dict<K, V>)
    requires |d| > 0
    ensures Keys(d) == {d[0].0} + Keys(d[1..])
    ensures d[0].0 !in Keys(d[1..])
  {
    assert d == [d[0]] + d[1..];
    KeysConcat([d[0]], d[1..]);
    KeysSingleton(d[0].0, d[0].1);
    forall i | 0 <= i < |d[1..]| ensures d[1..][i].0 != d[0].0 {
      assert d[1..][i] == d[i + 1];
    }
  }

  /** Putting an entry whose key is new in front of a dictionary keeps the keys distinct. */
  lemma ConsDistinct<K(!new), V>(x: (K, V), rest: Dict<K, V>)
    requires x.0 !in Keys(rest)
    ensures DistinctKeys([x] + rest)
  {
    var r := [x] + rest;
    forall i, j | 0 <= i < j < |r| ensures r[i].0 != r[j].0 {
      assert r[j] == rest[j - 1];
      if i > 0 {
        assert r[i] == rest[i - 1];
      } else {
        assert rest[j - 1].0 in Keys(rest);
      }
    }
  }

  /** `d.get(k)`: the value stored under `k`, if any. */
  function Lookup<K(==,!new), V>(d: Dict<K, V>, k: K): (r: Option<V>)
    ensures r.Some? <==> k in Keys(d)
  {
    if |d| == 0 then None
    else
      KeysCons(d);
      if d[0].0 == k then Some(d[0].1) else Lookup(d[1..], k)
  }

  /** The entry at position `i` is what a lookup of its key finds. */
  lemma {:induction false} LookupEntry<K(!new), V>(d: Dict<K, V>, i: nat)
    requires i < |d|
    ensures Lookup(d, d[i].0) == Some(d[i].1)
  {
    if i > 0 {
      KeysCons(d);
      assert d[i].0 != d[0].0;
      LookupEntry(d[1..], i - 1);
      assert d[1..][i - 1] == d[i];
    }
  }

  /** `d[k] = v`: replaces the value in place when `k` is present, else appends. */
  function Set<K(==,!new), V>(d: Dict<K, V>, k: K, v: V): (r: Dict<K, V>)
    ensures Keys(r) == Keys(d) + {k}
    ensures Lookup(r, k) == Some(v)
    ensures forall k' | k' != k :: Lookup(r, k') == Lookup(d, k')
    ensures k in Keys(d) ==> |r| == |d| && forall i | 0 <= i < |d| :: r[i].0 == d[i].0
    ensures k !in Keys(d) ==> r == d + [(k, v)]
  {
    KeysSingleton(k, v);
    if |d| == 0 then [(k, v)]
    else
      KeysCons(d);
      if d[0].0 == k then
        var r: seq<(K, V)> := [(k, v)] + d[1..];
        ConsDistinct((k, v), d[1..]);
        KeysConcat([(k, v)], d[1..]);
        assert r[1..] == d[1..];
        r
      else
        var rest := Set(d[1..], k, v);
        var r: seq<(K, V)> := [d[0]] + rest;
        ConsDistinct(d[0], rest);
        KeysConcat([d[0]], rest);
        KeysSingleton(d[0].0, d[0].1);
        assert r[1..] == rest;
        assert d == [d[0]] + d[1..];
        r
  }

  /** `del d[k]` guarded by `k in d`: removes the entry, keeping the order of the others. */
  function Remove<K(==,!new), V>(d: Dict<K, V>, k: K): (r: Dict<K, V>)
    ensures Keys(r) == Keys(d) - {k}
    ensures Lookup(r, k) == None
    ensures forall k' | k' != k :: Lookup(r, k') == Lookup(d, k')
  {
    if |d| == 0 then d
    else
      KeysCons(d);
      if d[0].0 == k then d[1..]
      else
        var rest := Remove(d[1..], k);
        var r: seq<(K, V)> := [d[0]] + rest;
        KeysConcat([d[0]], rest);
        KeysSingleton(d[0].0, d[0].1);
        assert r[1..] == rest;
        r
  }

  /** `d.update(e)`: assigns every entry of `e`, in `e`'s order. */
  function Update<K(==,!new), V>(d: Dict<K, V>, e: Dict<K, V>): (r: Dict<K, V>)
    ensures Keys(r) == Keys(d) + Keys(e)
    decreases |e|
  {
    if |e| == 0 then d
    else
      KeysCons(e);
      Update(Set(d, e[0].0, e[0].1), e[1..])
  }

  /** Updating with a single entry is assigning it. */
  lemma UpdateSingle<K(!new), V>(d: Dict<K, V>, k: K, v: V)
    ensures Update(d, [(k, v)]) == Set(d, k, v)
  {
    var e: Dict<K, V> := [(k, v)];
    assert e[1..] == [];
  }

  /** After `d.update(e)` a key takes its value from `e` when `e` has it,
      otherwise keeps its value in `d`: the later dictionary wins. */
  lemma {:induction false} UpdateLookup<K(!new), V>(d: Dict<K, V>, e: Dict<K, V>, k: K)
    ensures Lookup(Update(d, e), k) == if k in Keys(e) then Lookup(e, k) else Lookup(d, k)
    decreases |e|
  {
    if |e| > 0 {
      KeysCons(e);
      var d' := Set(d, e[0].0, e[0].1);
      UpdateLookup(d', e[1..], k);
    }
  }

  /** Every key already in `d` keeps its position under `Update`: the keys of `d`
      are a prefix of the keys of the result. */
  lemma {:induction false} UpdateKeepsPrefix<K(!new), V>(d: Dict<K, V>, e: Dict<K, V>)
    ensures |d| <= |Update(d, e)|
    ensures forall i | 0 <= i < |d| :: Update(d, e)[i].0 == d[i].0
    decreases |e|
  {
    if |e| > 0 {
      var d' := Set(d, e[0].0, e[0].1);
      UpdateKeepsPrefix(d', e[1..]);
    }
  }

  /** The value of the last pair in `es` whose key is `k`. */
  function LastOf<K(==,!new), V>(es: seq<(K, V)>, k: K): Option<V>
    decreases |es|
  {
    if |es| == 0 then None
    else if es[|es| - 1].0 == k then Some(es[|es| - 1].1)
    else LastOf(es[..|es| - 1], k)
  }

  /** `for k, v in es: d[k] = v`, where `es` may repeat a key. */
  function SetAll<K(==,!new), V>(d: Dict<K, V>, es: seq<(K, V)>): (r: Dict<K, V>)
    decreases |es|
  {
    if |es| == 0 then d
    else Set(SetAll(d, es[..|es| - 1]), es[|es| - 1].0, es[|es| - 1].1)
  }

  /** After the assignments a key holds the value of its last assignment, or
      what it held before when it was never assigned. */
  lemma {:induction false} SetAllLookup<K(!new), V>(d: Dict<K, V>, es: seq<(K, V)>, k: K)
    ensures Lookup(SetAll(d, es), k) == if LastOf(es, k).Some? then LastOf(es, k) else Lookup(d, k)
    decreases |es|
  {
    if |es| > 0 {
      SetAllLookup(d, es[..|es| - 1], k);
    }
  }
}

=== FILE: request.dfy ===
/** The request assembler of decorest/request.py: `HttpRequest.__init__` turns
    one call of a decorated client method into a request description (verb,
    path, URL, backend keyword arguments, status handlers, stream flag).

    The assembly runs in three stages, as the source does:
    `Declared` reads the decorations of the method and of the client class
    (lines 61-135), `ApplyOverrides` lets keyword arguments of the call
    override them (lines 143-194), and `Finish` resolves the endpoint, adds
    default headers and fills the backend keyword arguments (lines 197-293). */
module Request {
  import opened Wrappers
  import PyDict
  import opened Values
  import opened HttpTypes
  import opened Text
  import opened Utils
  import opened DecorStore
  import PathTemplate

  /** Keyword arguments of a call, and the ones handed to the HTTP backend. */
  type Kwargs = PyDict.Dict<string, Value>

  datatype Backend = Requests | Httpx

  /** What the assembler reads from the client instance. `classTable` is the
      decoration table of the client's class, `instanceTable` the one seen
      through the instance; `endpoint` is `endpoint_` and `auth` the result of
      `auth_()`, both defined outside this model. */
  datatype Client = Client(
    classTable: Option<Table>,
    instanceTable: Option<Table>,
    endpoint: Value,
    backend: Backend,
    auth: Value)

  /** A decorated client method: its decoration table, its declared parameters
      (`self` first) and the `endpoint` decoration of the class that defines it
      (what `get_method_class_decor` returns; not part of this model). */
  datatype Method = Method(table: Option<Table>, params: seq<Param>, classEndpoint: Value)

  /** Library and host behaviour the assembler calls but this model does not
      define: `str()`, the client's `build_path_`, calling a body serializer,
      `json.dumps`, and the backend-specific guess of whether the keyword
      arguments already describe a multipart upload (lines 210-216). */
  datatype Host = Host(
    str: Value -> string,
    buildPath: (seq<string>, Value) -> string,
    serialize: (Value, Value) -> Value,
    jsonDumps: Value -> string,
    multipartInferred: (Backend, Kwargs) -> bool)

  datatype AssemblyError =
    | UnsupportedMethod            // ValueError of lines 69-70
    | MethodNameError              // str(HttpMethod.INVALID) fails while formatting that message
    | NoClientArgument             // args[0] of an empty argument tuple
    | MissingArgument(token: string)
    | DecorNotDict(decor: string)  // a dictionary decoration holding something else
    | HeaderListNotStrings         // ", ".join over a list with a non-string
    | BodyDecorMalformed           // a body decoration that cannot be indexed as lines 113-117 do
    | OverrideTypeError(decor: string)

  // ---------------------------------------------------------------------------
  // Stage 1: the declared request (lines 61-135)

  /** Lines 61-70: the verb must be one of the seven supported members. */
  function CheckVerb(v: Value): (r: Result<HttpMethod, AssemblyError>)
    ensures r.Success? <==> v.Verb? && IsSupported(v.m)
    ensures r.Success? ==> r.value == v.m
    ensures r.Failure? ==> r.error == (if v == Verb(INVALID) then MethodNameError else UnsupportedMethod)
  {
    if v.Verb? && v.m != INVALID then Success(v.m)
    else if v.Verb? then
      // The message formats the member with `str`, which indexes its empty value.
      assert MethodStr(INVALID).None? by { MethodStrIsName(INVALID); }
      Failure(MethodNameError)
    else Failure(UnsupportedMethod)
  }

  /** A decoration that must hold a dictionary, or nothing. */
  function DictDecor(table: Option<Table>, decor: string): (r: Result<Value, AssemblyError>)
    ensures r.Success? ==> r.value == GetDecor(table, decor) && (r.value.Null? || r.value.Dict?)
    ensures r.Failure? <==> !(GetDecor(table, decor).Null? || GetDecor(table, decor).Dict?)
  {
    var d := GetDecor(table, decor);
    if d.Null? || d.Dict? then Success(d) else Failure(DecorNotDict(decor))
  }

  /** Where `_merge_args` puts one decoration entry `arg ↦ value`: a string value
      naming a bound argument becomes `value ↦ args[arg]`, anything else is
      kept literally. */
  function ArgEntry(argsDict: Kwargs, e: (Key, Value)): (r: (Key, Value))
    ensures e.1.Str? && e.0.StrKey? && e.0.s in PyDict.Keys(argsDict) ==>
              r == (StrKey(e.1.s), PyDict.Lookup(argsDict, e.0.s).value)
    ensures !(e.1.Str? && e.0.StrKey? && e.0.s in PyDict.Keys(argsDict)) ==> r == e
  {
    if e.1.Str? && e.0.StrKey? && e.0.s in PyDict.Keys(argsDict) then
      (StrKey(e.1.s), PyDict.Lookup(argsDict, e.0.s).value)
    else e
  }

  function ArgEntries(argsDict: Kwargs, es: Entries): (r: seq<(Key, Value)>)
    ensures |r| == |es|
    ensures forall i | 0 <= i < |es| :: r[i] == ArgEntry(argsDict, es[i])
  {
    seq(|es|, i requires 0 <= i < |es| => ArgEntry(argsDict, es[i]))
  }

  /** `_merge_args(args_dict, func, decor)`. */
  function MergeArgs(argsDict: Kwargs, table: Option<Table>, decor: string): (r: Result<Entries, AssemblyError>)
    ensures r.Failure? <==> DictDecor(table, decor).Failure?
    ensures r.Success? && GetDecor(table, decor).Null? ==> r.value == []
  {
    var d :- DictDecor(table, decor);
    if d.Null? then Success([])
    else Success(PyDict.SetAll([], ArgEntries(argsDict, d.entries)))
  }

  /** Each output key of `_merge_args` holds the value of the last decoration
      entry that maps to it. */
  lemma MergeArgsLookup(argsDict: Kwargs, table: Option<Table>, decor: string, k: Key)
    requires GetDecor(table, decor).Dict?
    ensures MergeArgs(argsDict, table, decor).Success?
    ensures PyDict.Lookup(MergeArgs(argsDict, table, decor).value, k) ==
            PyDict.LastOf(ArgEntries(argsDict, GetDecor(table, decor).entries), k)
  {
    PyDict.SetAllLookup([], ArgEntries(argsDict, GetDecor(table, decor).entries), k);
  }

  lemma {:induction false} LastOfLater<K(!new), V>(es: seq<(K, V)>, i: nat)
    requires i < |es|
    requires forall j | i < j < |es| :: es[j].0 != es[i].0
    ensures PyDict.LastOf(es, es[i].0) == Some(es[i].1)
    decreases |es|
  {
    if i < |es| - 1 {
      LastOfLater(es[..|es| - 1], i);
    }
  }

  /** A string-valued decoration entry whose name is a bound argument is sent
      under the string, with the argument's value (`first_name` ↦ `firstName`
      sends `firstName`); any other entry is sent literally. */
  lemma MergeArgsBinds(argsDict: Kwargs, table: Option<Table>, decor: string, i: nat)
    requires GetDecor(table, decor).Dict? && i < |GetDecor(table, decor).entries|
    requires var es := ArgEntries(argsDict, GetDecor(table, decor).entries);
             forall j | i < j < |es| :: es[j].0 != es[i].0
    ensures var e := GetDecor(table, decor).entries[i];
            var out := MergeArgs(argsDict, table, decor).value;
            if e.1.Str? && e.0.StrKey? && e.0.s in PyDict.Keys(argsDict)
            then PyDict.Lookup(out, StrKey(e.1.s)) == PyDict.Lookup(argsDict, e.0.s)
            else PyDict.Lookup(out, e.0) == Some(e.1)
  {
    var es := ArgEntries(argsDict, GetDecor(table, decor).entries);
    LastOfLater(es, i);
    MergeArgsLookup(argsDict, table, decor, es[i].0);
  }

  /** The strings a list of string values holds, in order. */
  function Strings(items: seq<Value>): (r: seq<string>)
    requires forall i | 0 <= i < |items| :: items[i].Str?
    ensures |r| == |items| && forall i | 0 <= i < |items| :: r[i] == items[i].s
  {
    seq(|items|, i requires 0 <= i < |items| => items[i].s)
  }

  /** Lines 105-107: a list value becomes its strings joined with ", ". */
  function JoinHeaderValue(v: Value): (r: Result<Value, AssemblyError>)
    ensures !v.List? ==> r == Success(v)
    ensures v.List? ==> (r.Success? <==> forall i | 0 <= i < |v.items| :: v.items[i].Str?)
    ensures v.List? && r.Success? ==> r.value == Str(JoinWith(Strings(v.items), ", "))
    ensures r.Success? ==> r.value.Str? || r.value == v
  {
    if !v.List? then Success(v)
    else if forall i | 0 <= i < |v.items| :: v.items[i].Str? then Success(Str(JoinWith(Strings(v.items), ", ")))
    else Failure(HeaderListNotStrings)
  }

  function JoinHeaderLists(es: Entries): (r: Result<Entries, AssemblyError>)
    ensures r.Success? ==> |r.value| == |es|
    ensures r.Success? ==> forall i | 0 <= i < |es| :: r.value[i].0 == es[i].0 && !r.value[i].1.List?
    ensures r.Success? <==> forall i | 0 <= i < |es| :: JoinHeaderValue(es[i].1).Success?
    ensures r.Success? ==> forall i | 0 <= i < |es| :: r.value[i] == (es[i].0, JoinHeaderValue(es[i].1).value)
    decreases |es|
  {
    if |es| == 0 then Success([])
    else
      var v :- JoinHeaderValue(es[0].1);
      var rest :- JoinHeaderLists(es[1..]);
      PyDict.KeysCons(es);
      assert PyDict.Keys(rest) == PyDict.Keys(es[1..]) by {
        assert forall i | 0 <= i < |rest| :: rest[i].0 == es[1..][i].0;
      }
      var r: seq<(Key, Value)> := [(es[0].0, v)] + rest;
      assert r[1..] == rest;
      assert forall i | 1 <= i < |es| :: es[1..][i - 1] == es[i];
      Success(r)
  }

  /** Lines 98-103: method header decorations whose name is not an argument
      name are set literally. */
  function LiteralHeaders(h: Entries, decl: Entries, argsDict: Kwargs): (r: Entries)
    decreases |decl|
  {
    if |decl| == 0 then h
    else
      var k := decl[0].0;
      var h' := if k.StrKey? && k.s in PyDict.Keys(argsDict) then h else CISet(h, k, decl[0].1);
      LiteralHeaders(h', decl[1..], argsDict)
  }

  /** The declared parts of a request before the call's own overrides. */
  datatype Pending = Pending(
    headers: Entries,          // case-insensitive
    query: Value,
    form: Value,
    multipart: Value,
    on: Value,
    timeout: Value,
    stream: Value,
    body: Value,
    kwargs: Kwargs)

  predicate WellFormed(p: Pending) {
    (p.query.Null? || p.query.Dict?) && (p.form.Null? || p.form.Dict?) &&
    (p.multipart.Null? || p.multipart.Dict?) && (p.on.Null? || p.on.Dict?)
  }

  /** Lines 91-107: class headers merged with the argument-bound method headers,
      then the literal method headers, then lists joined. */
  function DeclaredHeaders(client: Client, func: Method, argsDict: Kwargs): (r: Result<Entries, AssemblyError>)
    ensures r.Success? ==> forall i | 0 <= i < |r.value| :: !r.value[i].1.List?
  {
    var merged :- BaseHeaders(client, func, argsDict);
    var ci := CIUpdate([], merged.entries);
    var literal := match GetDecor(func.table, "header")
                   case Dict(decl, _) => LiteralHeaders(ci, decl, argsDict)
                   case _ => ci;
    JoinHeaderLists(literal)
  }

  /** Lines 91-93 before the copy into a new case-insensitive dictionary: the
      class headers, updated with the argument-bound method headers. */
  function BaseHeaders(client: Client, func: Method, argsDict: Kwargs): (r: Result<Value, AssemblyError>)
    ensures r.Success? ==> r.value.Dict?
    ensures r.Failure? <==> MergeArgs(argsDict, func.table, "header").Failure? ||
                            DictDecor(client.classTable, "header").Failure?
    ensures r.Success? && GetDecor(client.classTable, "header").Null? ==>
              MergeArgs(argsDict, func.table, "header").Success? &&
              r.value == Dict(MergeArgs(argsDict, func.table, "header").value, false)
    ensures var ch := GetDecor(client.classTable, "header");
            var bound := MergeArgs(argsDict, func.table, "header");
            ch.Dict? && bound.Success? ==> r == Success(UpdateEntries(ch, bound.value))
  {
    var bound :- MergeArgs(argsDict, func.table, "header");
    var classHeaders :- DictDecor(client.classTable, "header");
    var ds := [classHeaders, Dict(bound, false)];
    MergePair(classHeaders, Dict(bound, false));
    Success(MergeDicts(ds))
  }

  /** The elements of a list or a tuple, which `x[0]` and `x[1]` index. */
  function Elements(v: Value): seq<Value>
    requires v.List? || v.Tuple?
  {
    if v.List? then v.items else v.elems
  }

  /** `args_dict.get(name)`: parameter names are strings, so any other name
      finds nothing. */
  function BodyArgument(argsDict: Kwargs, name: Value): Value {
    if name.Str? then PyDict.Lookup(argsDict, name.s).GetOr(Null) else Null
  }

  /** Lines 111-118: the body is the value of the argument the `body`
      decoration's first element names, passed through its second element
      when both are truthy. The second element is read only when the value is
      truthy, so a one-element decoration fails only then. */
  function DeclaredBody(func: Method, argsDict: Kwargs, host: Host): (r: Result<Value, AssemblyError>)
    ensures GetDecor(func.table, "body").Null? ==> r == Success(Null)
    ensures var decl := GetDecor(func.table, "body");
            !decl.Null? && !decl.List? && !decl.Tuple? ==> r == Failure(BodyDecorMalformed)
    ensures var decl := GetDecor(func.table, "body");
            (decl.List? || decl.Tuple?) ==>
              var content := BodyArgument(argsDict, Elements(decl)[0]);
              (!Truthy(content) ==> r == Success(content)) &&
              (Truthy(content) && |Elements(decl)| < 2 ==> r == Failure(BodyDecorMalformed)) &&
              (Truthy(content) && |Elements(decl)| >= 2 ==>
                 r == Success(if Truthy(Elements(decl)[1]) then host.serialize(Elements(decl)[1], content) else content))
  {
    var decl := GetDecor(func.table, "body");
    if decl.Null? then Success(Null)
    else if !decl.List? && !decl.Tuple? then Failure(BodyDecorMalformed)
    else
      var content := BodyArgument(argsDict, Elements(decl)[0]);
      if !Truthy(content) then Success(content)
      else if |Elements(decl)| < 2 then Failure(BodyDecorMalformed)
      else if Truthy(Elements(decl)[1]) then Success(host.serialize(Elements(decl)[1], content))
      else Success(content)
  }

  /** Lines 124-125: class handlers, updated with the method's. */
  function DeclaredHandlers(client: Client, func: Method): (r: Result<Value, AssemblyError>)
    ensures r.Success? ==> r.value.Null? || r.value.Dict?
    ensures r.Success? <==> DictDecor(client.classTable, "on").Success? && DictDecor(func.table, "on").Success?
    ensures r.Success? ==> r.value == MergeDicts([GetDecor(client.classTable, "on"), GetDecor(func.table, "on")])
    ensures r.Success? && GetDecor(client.classTable, "on").Dict? ==>
              r.value == MergeStep(GetDecor(client.classTable, "on"), GetDecor(func.table, "on"))
    ensures r.Success? && GetDecor(client.classTable, "on").Null? ==> r.value == GetDecor(func.table, "on")
  {
    var c :- DictDecor(client.classTable, "on");
    var m :- DictDecor(func.table, "on");
    MergePair(c, m);
    Success(MergeDicts([c, m]))
  }

  /** Lines 128-130: the class timeout, replaced by the method's when truthy. */
  function DeclaredTimeout(client: Client, func: Method): (r: Value)
    ensures Truthy(GetDecor(func.table, "timeout")) ==> r == GetDecor(func.table, "timeout")
    ensures !Truthy(GetDecor(func.table, "timeout")) ==> r == GetDecor(client.classTable, "timeout")
  {
    if Truthy(GetDecor(func.table, "timeout")) then GetDecor(func.table, "timeout")
    else GetDecor(client.classTable, "timeout")
  }

  /** Lines 133-135: the method's stream decoration unless it reads as `None`,
      else the class's. */
  function DeclaredStream(client: Client, func: Method): (r: Value)
    ensures r.Null? || Truthy(r)
    ensures !GetDecor(func.table, "stream").Null? ==> r == GetDecor(func.table, "stream")
    ensures GetDecor(func.table, "stream").Null? ==> r == GetDecor(client.classTable, "stream")
  {
    var s := GetDecor(func.table, "stream");
    if s.Null? then GetDecor(client.classTable, "stream") else s
  }

  /** `kwargs.pop(key)` guarded by `key in kwargs`. */
  function Pop(kwargs: Kwargs, key: string): (r: (Value, Kwargs))
    ensures key in PyDict.Keys(kwargs) ==> PyDict.Lookup(kwargs, key) == Some(r.0)
    ensures key !in PyDict.Keys(kwargs) ==> r == (Null, kwargs)
    ensures PyDict.Keys(r.1) == PyDict.Keys(kwargs) - {key}
    ensures forall k | k != key :: PyDict.Lookup(r.1, k) == PyDict.Lookup(kwargs, k)
  {
    match PyDict.Lookup(kwargs, key)
    case Some(v) => (v, PyDict.Remove(kwargs, key))
    case None => (Null, kwargs)
  }

  /** The state of the assembler after line 135, and the session pulled out
      of the keyword arguments (lines 76-83). */
  datatype Declared = Declared(
    verb: HttpMethod,
    path: string,
    argsDict: Kwargs,
    session: Value,
    sessionEndpoint: Value,
    pending: Pending)

  /** What render_path needs of this call: the rendered values of the
      arguments the template names carry no brace or backslash. */
  predicate Renderable(func: Method, template: string, args: seq<Value>, host: Host)
    requires DistinctNames(func.params)
  {
    PathTemplate.SafeToRender(template, RenderArgs(BindArguments(func.params, args), host))
  }

  function RenderArgs(argsDict: Kwargs, host: Host): map<string, string> {
    map k | k in PyDict.Keys(argsDict) :: host.str(PyDict.Lookup(argsDict, k).value)
  }

  /** Lines 61-135. */
  function Declare(client: Client, func: Method, template: string, args: seq<Value>,
                   kwargs: Kwargs, host: Host): (r: Result<Declared, AssemblyError>)
    requires DistinctNames(func.params) && Renderable(func, template, args, host)
    ensures CheckVerb(GetDecor(func.table, "http_method")).Failure? ==>
              r == Failure(CheckVerb(GetDecor(func.table, "http_method")).error)
    ensures CheckVerb(GetDecor(func.table, "http_method")).Success? && |args| == 0 ==> r == Failure(NoClientArgument)
    ensures r.Success? ==> CheckVerb(GetDecor(func.table, "http_method")) == Success(r.value.verb)
    ensures r.Success? ==> WellFormed(r.value.pending)
    ensures r.Success? ==> r.value.argsDict == BindArguments(func.params, args)
    ensures r.Success? ==> PathTemplate.RenderPath(template, RenderArgs(r.value.argsDict, host)) == Success(r.value.path)
    ensures r.Success? ==> DeclarePending(client, func, r.value.argsDict, r.value.pending.kwargs, host) == Success(r.value.pending)
    ensures r.Success? ==> r.value.session == PyDict.Lookup(kwargs, "__session").GetOr(Null) &&
                           r.value.sessionEndpoint == PyDict.Lookup(kwargs, "__endpoint").GetOr(Null)
    ensures r.Success? ==> "__session" !in PyDict.Keys(r.value.pending.kwargs) &&
                           "__endpoint" !in PyDict.Keys(r.value.pending.kwargs)
    ensures r.Success? ==> forall k | k != "__session" && k != "__endpoint" ::
                             PyDict.Lookup(r.value.pending.kwargs, k) == PyDict.Lookup(kwargs, k)
  {
    var verb :- CheckVerb(GetDecor(func.table, "http_method"));
    if |args| == 0 then Failure(NoClientArgument)
    else
      var argsDict := BindArguments(func.params, args);
      var rendered := PathTemplate.RenderPath(template, RenderArgs(argsDict, host));
      if rendered.Failure? then Failure(MissingArgument(rendered.error.token))
      else
      var path := rendered.value;
      var (session, kw1) := Pop(kwargs, "__session");
      var (sessionEndpoint, kw2) := Pop(kw1, "__endpoint");
      var pending :- DeclarePending(client, func, argsDict, kw2, host);
      Success(Declared(verb, path, argsDict, session, sessionEndpoint, pending))
  }

  /** Lines 86-135: the declared query, form and multipart parameters, headers,
      body, handlers, timeout and stream flag, next to the keyword arguments
      left after the session ones. */
  function DeclarePending(client: Client, func: Method, argsDict: Kwargs, kw: Kwargs, host: Host): (r: Result<Pending, AssemblyError>)
    ensures r.Success? <==>
              MergeArgs(argsDict, func.table, "query").Success? && MergeArgs(argsDict, func.table, "form").Success? &&
              MergeArgs(argsDict, func.table, "multipart").Success? && DeclaredHeaders(client, func, argsDict).Success? &&
              DeclaredBody(func, argsDict, host).Success? && DeclaredHandlers(client, func).Success?
    ensures r.Success? ==>
              WellFormed(r.value) && r.value.kwargs == kw &&
              r.value.query == Dict(MergeArgs(argsDict, func.table, "query").value, false) &&
              r.value.form == Dict(MergeArgs(argsDict, func.table, "form").value, false) &&
              r.value.multipart == Dict(MergeArgs(argsDict, func.table, "multipart").value, false)
    ensures r.Success? ==>
              DeclaredHeaders(client, func, argsDict) == Success(r.value.headers) &&
              DeclaredBody(func, argsDict, host) == Success(r.value.body) &&
              DeclaredHandlers(client, func) == Success(r.value.on) &&
              r.value.timeout == DeclaredTimeout(client, func) && r.value.stream == DeclaredStream(client, func)
  {
    var query :- MergeArgs(argsDict, func.table, "query");
    var form :- MergeArgs(argsDict, func.table, "form");
    var multipart :- MergeArgs(argsDict, func.table, "multipart");
    var headers :- DeclaredHeaders(client, func, argsDict);
    var body :- DeclaredBody(func, argsDict, host);
    var on :- DeclaredHandlers(client, func);
    Success(Pending(headers, Dict(query, false), Dict(form, false), Dict(multipart, false), on,
                    DeclaredTimeout(client, func), DeclaredStream(client, func), body, kw))
  }

  // ---------------------------------------------------------------------------
  // Stage 2: the call's overrides (lines 143-194, 355-367)

  /** `_validate_decor`: the type each override must have. `CaseInsensitiveDict`
      is not a `dict`, and `bool` counts as a number. */
  predicate ValidOverride(decor: string, v: Value) {
    if decor in {"header", "query", "form", "multipart", "on"} then IsPlainDict(v)
    else if decor in {"accept", "content"} then v.Str?
    else if decor == "timeout" then IsNumber(v)
    else if decor == "stream" then v.Bool?
    else true
  }

  /** The overrides the loop removes from the keyword arguments: all of
      `DECOR_LIST` but `endpoint`. */
  const Consumed: set<string> :=
    {"header", "query", "form", "multipart", "on", "accept", "content", "timeout", "stream", "body"}

  /** The overrides merged into a dictionary of their own, and those that
      replace a value. */
  const MergedOverrides: set<string> := {"query", "form", "multipart", "on"}
  const ReplacedOverrides: set<string> := {"timeout", "stream", "body"}

  /** The pending value an override of `decor` writes, for the overrides that
      do not write a header. */
  function FieldOf(p: Pending, decor: string): Value {
    if decor == "query" then p.query
    else if decor == "form" then p.form
    else if decor == "multipart" then p.multipart
    else if decor == "on" then p.on
    else if decor == "timeout" then p.timeout
    else if decor == "stream" then p.stream
    else if decor == "body" then p.body
    else Null
  }

  /** What the override `v` of `decor` makes of the value `prior` it writes:
      `merge_dicts(prior, v)` for a dictionary override, `v` itself otherwise. */
  function Overridden(prior: Value, decor: string, v: Value): Value {
    if decor in MergedOverrides && (prior.Null? || prior.Dict?) && v.Dict? then MergeStep(prior, v) else v
  }

  /** The headers after the override `v` of `decor`: `header` updates them,
      `accept` and `content` set one name, the others leave them alone. */
  function HeadersAfter(h: Entries, decor: string, v: Value): Entries
    requires decor == "header" ==> v.Dict?
  {
    if decor == "header" then CIUpdate(h, v.entries)
    else if decor == "accept" then CISet(h, Accept, v)
    else if decor == "content" then CISet(h, ContentType, v)
    else h
  }

  /** The pending state with the value `x` written where `f` writes. */
  function SetField(p: Pending, f: string, x: Value): (r: Pending)
    ensures r.headers == p.headers && r.kwargs == p.kwargs
    ensures forall g | g in MergedOverrides + ReplacedOverrides :: FieldOf(r, g) == if g == f then x else FieldOf(p, g)
    ensures WellFormed(p) && (f in MergedOverrides ==> x.Null? || x.Dict?) ==> WellFormed(r)
  {
    if f == "query" then p.(query := x)
    else if f == "form" then p.(form := x)
    else if f == "multipart" then p.(multipart := x)
    else if f == "on" then p.(on := x)
    else if f == "timeout" then p.(timeout := x)
    else if f == "stream" then p.(stream := x)
    else if f == "body" then p.(body := x)
    else p
  }

  /** Writing the headers or the keyword arguments writes no field. */
  lemma FieldOfFrame(p: Pending, h: Entries, kw: Kwargs)
    ensures forall g :: FieldOf(p.(headers := h), g) == FieldOf(p, g) && FieldOf(p.(kwargs := kw), g) == FieldOf(p, g)
  {
  }

  /** Lines 146-192 for one override `v` of `decor` that has its type. */
  function Override(p: Pending, decor: string, v: Value): (r: Pending)
    requires WellFormed(p) && ValidOverride(decor, v)
    ensures WellFormed(r) && r.kwargs == p.kwargs
    ensures r.headers == HeadersAfter(p.headers, decor, v)
    ensures forall f | f in MergedOverrides + ReplacedOverrides ::
              FieldOf(r, f) == if f == decor then Overridden(FieldOf(p, f), f, v) else FieldOf(p, f)
  {
    var h := p.(headers := HeadersAfter(p.headers, decor, v));
    FieldOfFrame(p, h.headers, p.kwargs);
    if decor in MergedOverrides + ReplacedOverrides then SetField(h, decor, Overridden(FieldOf(p, decor), decor, v))
    else h
  }

  /** One iteration of the override loop. `endpoint` is listed but not consumed:
      it stays among the keyword arguments. */
  function ApplyOverride(p: Pending, decor: string): (r: Result<Pending, AssemblyError>)
    requires WellFormed(p)
    ensures r.Success? ==> WellFormed(r.value)
    ensures decor !in PyDict.Keys(p.kwargs) ==> r == Success(p)
    ensures r.Failure? <==> decor in PyDict.Keys(p.kwargs) && !ValidOverride(decor, PyDict.Lookup(p.kwargs, decor).value)
    ensures r.Failure? ==> r.error == OverrideTypeError(decor)
    ensures r.Success? && decor in PyDict.Keys(p.kwargs) && decor in Consumed ==>
              r.value.kwargs == PyDict.Remove(p.kwargs, decor)
    ensures decor !in Consumed ==> r == Success(p)
    ensures r.Success? ==>
              forall k :: PyDict.Lookup(r.value.kwargs, k) ==
                            if k == decor && decor in Consumed then None else PyDict.Lookup(p.kwargs, k)
    ensures r.Success? && decor in PyDict.Keys(p.kwargs) ==>
              var v := PyDict.Lookup(p.kwargs, decor).value;
              r.value.headers == HeadersAfter(p.headers, decor, v) &&
              forall f | f in MergedOverrides + ReplacedOverrides ::
                FieldOf(r.value, f) == if f == decor then Overridden(FieldOf(p, f), f, v) else FieldOf(p, f)
  {
    if decor !in PyDict.Keys(p.kwargs) then Success(p)
    else
      var v := PyDict.Lookup(p.kwargs, decor).value;
      var rest := PyDict.Remove(p.kwargs, decor);
      if !ValidOverride(decor, v) then Failure(OverrideTypeError(decor))
      else if decor in Consumed then
        var q := Override(p, decor, v);
        FieldOfFrame(q, q.headers, rest);
        Success(q.(kwargs := rest))
      else Success(p)
  }

  function ApplyAll(p: Pending, decors: seq<string>): (r: Result<Pending, AssemblyError>)
    requires WellFormed(p)
    ensures r.Success? ==> WellFormed(r.value)
    decreases |decors|
  {
    if |decors| == 0 then Success(p)
    else
      var p' :- ApplyOverride(p, decors[0]);
      ApplyAll(p', decors[1..])
  }

  /** Lines 143-194: the overrides, in the order of `DECOR_LIST`. */
  function ApplyOverrides(p: Pending): (r: Result<Pending, AssemblyError>)
    requires WellFormed(p)
    ensures r.Success? ==> WellFormed(r.value)
    ensures |p.kwargs| == 0 ==> r == Success(p)
  {
    if |p.kwargs| == 0 then Success(p) else ApplyAll(p, DecorList)
  }

  // ---------------------------------------------------------------------------
  // Stage 3: endpoint, defaults and backend keyword arguments (lines 197-293)

  /** Python's `a or b`. */
  function Or(a: Value, b: Value): (r: Value)
    ensures Truthy(a) ==> r == a
    ensures !Truthy(a) ==> r == b
  {
    if Truthy(a) then a else b
  }

  /** Lines 197-200: the session endpoint, then the client's, then the
      defining class's decoration, then the client's decoration. */
  function EffectiveEndpoint(sessionEndpoint: Value, client: Client, func: Method): Value {
    Or(sessionEndpoint, Or(client.endpoint, Or(func.classEndpoint, GetDecor(client.instanceTable, "endpoint"))))
  }

  /** The prepared request. */
  datatype Prepared = Prepared(
    verb: HttpMethod,
    path: string,
    url: string,
    session: Value,
    isMultipart: bool,
    onHandlers: Value,
    isStream: Value,
    kwargs: Kwargs)

  const Json: Value := Str("application/json")
  const FormEncoded: Value := Str("application/x-www-form-urlencoded")

  /** Lines 219-225: `content-type` defaults to JSON unless present or
      multipart; `accept` defaults to JSON unless present. */
  function DefaultHeaders(h: Entries, isMultipart: bool): (r: Entries)
    ensures CILookup(r, Accept) ==
            if CILookup(h, Accept).Some? then CILookup(h, Accept) else Some(Json)
    ensures CILookup(r, ContentType) ==
            if CILookup(h, ContentType).Some? || isMultipart then CILookup(h, ContentType)
            else Some(Json)
    ensures forall k | LowerKey(k) != Accept && LowerKey(k) != ContentType ::
              CILookup(r, k) == CILookup(h, k)
  {
    LowerCaseNames();
    CISetLookup(h, ContentType, Json);
    var h1 := if CILookup(h, ContentType).None? && !isMultipart
              then CISet(h, ContentType, Json) else h;
    CISetLookup(h1, Accept, Json);
    if CILookup(h1, Accept).None? then CISet(h1, Accept, Json) else h1
  }

  /** Lines 248-259: where a truthy body goes. A JSON content type turns a
      dictionary into its JSON text first; httpx takes a dictionary as `data`
      and anything else as `content`, requests takes everything as `data`. */
  function BodyArgs(kw: Kwargs, body: Value, headers: Entries, backend: Backend, host: Host): (r: Kwargs)
    ensures !Truthy(body) ==> r == kw
    ensures forall k | k != "data" && k != "content" :: PyDict.Lookup(r, k) == PyDict.Lookup(kw, k)
    ensures Truthy(body) && IsPlainDict(body) && CILookup(headers, ContentType) == Some(Json) ==>
              PyDict.Lookup(r, if backend == Httpx then "content" else "data") == Some(Str(host.jsonDumps(body)))
    ensures Truthy(body) && IsPlainDict(body) && CILookup(headers, ContentType) != Some(Json) ==>
              PyDict.Lookup(r, "data") == Some(body)
    ensures Truthy(body) && !IsPlainDict(body) ==>
              PyDict.Lookup(r, if backend == Httpx then "content" else "data") == Some(body)
    ensures backend == Requests ==> PyDict.Lookup(r, "content") == PyDict.Lookup(kw, "content")
  {
    assert "data"[0] != "content"[0];
    if !Truthy(body) then kw
    else
      var b := if CILookup(headers, ContentType) == Some(Json) && IsPlainDict(body)
               then Str(host.jsonDumps(body)) else body;
      if backend == Httpx && !IsPlainDict(b) then PyDict.Set(kw, "content", b)
      else PyDict.Set(kw, "data", b)
  }

  /** `kwargs[to] = kwargs.pop(from)` guarded by `from in kwargs`. */
  function Rename(kw: Kwargs, from: string, to: string): (r: Kwargs)
    requires from != to
    ensures from !in PyDict.Keys(r)
    ensures PyDict.Lookup(r, to) == if from in PyDict.Keys(kw) then PyDict.Lookup(kw, from) else PyDict.Lookup(kw, to)
    ensures forall k | k != from && k != to :: PyDict.Lookup(r, k) == PyDict.Lookup(kw, k)
  {
    if from in PyDict.Keys(kw) then PyDict.Remove(PyDict.Set(kw, to, PyDict.Lookup(kw, from).value), from)
    else kw
  }

  /** `_normalize_for_requests`. */
  function NormalizeForRequests(kw: Kwargs): Kwargs {
    Rename(kw, "follow_redirects", "allow_redirects")
  }

  /** `_normalize_for_httpx`. */
  function NormalizeForHttpx(kw: Kwargs): Kwargs {
    Rename(kw, "allow_redirects", "follow_redirects")
  }

  /** Lines 197-293. */
  function Finish(d: Declared, p: Pending, client: Client, func: Method, host: Host): (r: Prepared)
    requires WellFormed(p)
  {
    var endpoint := EffectiveEndpoint(d.sessionEndpoint, client, func);
    var url := host.buildPath(Split(d.path, '/'), endpoint);
    var isMultipart := IsMultipart(p, client, host);
    var kw := BackendKwargs(p, client, host);
    var kw' := if client.backend == Requests then NormalizeForRequests(kw) else NormalizeForHttpx(kw);
    Prepared(d.verb, d.path, url, d.session, isMultipart, p.on, p.stream, kw')
  }

  /** `if c: kw[k] = v`. */
  function SetIf(kw: Kwargs, c: bool, k: string, v: Value): (r: Kwargs)
    ensures PyDict.Lookup(r, k) == if c then Some(v) else PyDict.Lookup(kw, k)
    ensures forall k' | k' != k :: PyDict.Lookup(r, k') == PyDict.Lookup(kw, k')
  {
    if c then PyDict.Set(kw, k, v) else kw
  }

  /** Lines 207-216: multipart bindings make the request multipart; otherwise
      the backend decides from the keyword arguments. */
  function IsMultipart(p: Pending, client: Client, host: Host): bool {
    if Truthy(p.multipart) then true else host.multipartInferred(client.backend, p.kwargs)
  }

  /** Lines 219-225 and 262-266: the headers sent. */
  function FinalHeaders(p: Pending, isMultipart: bool): (h: Entries) {
    var h0 := DefaultHeaders(p.headers, isMultipart);
    if Truthy(p.form) then CISet(h0, ContentType, FormEncoded) else h0
  }

  /** Lines 207-209 and 243-270: the keyword arguments for the backend, before
      the redirect flag is renamed. */
  function BackendKwargs(p: Pending, client: Client, host: Host): (kw: Kwargs)
    requires WellFormed(p)
  {
    var isMultipart := IsMultipart(p, client, host);
    var kw0 := SetIf(p.kwargs, Truthy(p.multipart), "files", p.multipart);
    var h0 := DefaultHeaders(p.headers, isMultipart);
    var kw1 := SetIf(kw0, Truthy(client.auth), "auth", client.auth);
    var kw2 := SetIf(kw1, Truthy(p.timeout), "timeout", p.timeout);
    var kw6 := PayloadArgs(kw2, p, h0, client, host);
    var h := FinalHeaders(p, isMultipart);
    SetIf(kw6, |h| > 0, "headers", Dict(h, false))
  }

  /** Lines 250-266: the body, the query, the form and the stream flag; no
      other keyword argument changes. */
  function PayloadArgs(kw: Kwargs, p: Pending, headers: Entries, client: Client, host: Host): (r: Kwargs)
    ensures forall k | k != "data" && k != "content" && k != "params" && k != "stream" ::
              PyDict.Lookup(r, k) == PyDict.Lookup(kw, k)
    ensures PyDict.Lookup(r, "params") == if Truthy(p.query) then Some(p.query) else PyDict.Lookup(kw, "params")
    ensures PyDict.Lookup(r, "data") ==
              if Truthy(p.form) then Some(p.form)
              else PyDict.Lookup(BodyArgs(kw, p.body, headers, client.backend, host), "data")
    ensures PyDict.Lookup(r, "content") == PyDict.Lookup(BodyArgs(kw, p.body, headers, client.backend, host), "content")
    ensures PyDict.Lookup(r, "stream") == if Truthy(p.stream) then Some(p.stream) else PyDict.Lookup(kw, "stream")
  {
    var kw3 := BodyArgs(kw, p.body, headers, client.backend, host);
    var r := QueryFormStream(kw3, p);
    assert PyDict.Lookup(r, "content") == PyDict.Lookup(kw3, "content") by {
      assert "content"[0] != "params"[0] && "content"[0] != "data"[0] && "content"[0] != "stream"[0];
    }
    r
  }

  /** Lines 261-266: a truthy query, form or stream flag overrides `params`,
      `data` or `stream`. */
  function QueryFormStream(kw: Kwargs, p: Pending): (r: Kwargs)
    ensures forall k | k != "data" && k != "params" && k != "stream" :: PyDict.Lookup(r, k) == PyDict.Lookup(kw, k)
    ensures PyDict.Lookup(r, "params") == if Truthy(p.query) then Some(p.query) else PyDict.Lookup(kw, "params")
    ensures PyDict.Lookup(r, "data") == if Truthy(p.form) then Some(p.form) else PyDict.Lookup(kw, "data")
    ensures PyDict.Lookup(r, "stream") == if Truthy(p.stream) then Some(p.stream) else PyDict.Lookup(kw, "stream")
  {
    assert "params"[0] != "data"[0] && "params"[0] != "stream"[0] && "data"[0] != "stream"[0];
    var kw4 := SetIf(kw, Truthy(p.query), "params", p.query);
    var kw5 := SetIf(kw4, Truthy(p.form), "data", p.form);
    SetIf(kw5, Truthy(p.stream), "stream", p.stream)
  }

  /** `HttpRequest(func, path_template, args, kwargs)`. */
  function Assemble(client: Client, func: Method, template: string, args: seq<Value>,
                    kwargs: Kwargs, host: Host): (r: Result<Prepared, AssemblyError>)
    requires DistinctNames(func.params) && Renderable(func, template, args, host)
    ensures CheckVerb(GetDecor(func.table, "http_method")).Failure? ==>
              r == Failure(CheckVerb(GetDecor(func.table, "http_method")).error)
    ensures r.Success? ==> IsSupported(r.value.verb) && Verb(r.value.verb) == GetDecor(func.table, "http_method")
    ensures Declare(client, func, template, args, kwargs, host).Failure? ==>
              r == Failure(Declare(client, func, template, args, kwargs, host).error)
    ensures var d := Declare(client, func, template, args, kwargs, host);
            d.Success? && ApplyOverrides(d.value.pending).Failure? ==> r == Failure(ApplyOverrides(d.value.pending).error)
    ensures var d := Declare(client, func, template, args, kwargs, host);
            r.Success? ==> d.Success? && ApplyOverrides(d.value.pending).Success? &&
                           r.value == Finish(d.value, ApplyOverrides(d.value.pending).value, client, func, host)
  {
    var d :- Declare(client, func, template, args, kwargs, host);
    var p :- ApplyOverrides(d.pending);
    Success(Finish(d, p, client, func, host))
  }

  // ---------------------------------------------------------------------------
  // Properties of the stages

  /** Literal method headers: the value of the last declaration of each name
      that is not an argument name. */
  function LastLiteral(decl: Entries, argsDict: Kwargs, k: Key): Option<Value>
    decreases |decl|
  {
    if |decl| == 0 then None
    else
      var later := LastLiteral(decl[1..], argsDict, k);
      if later.Some? then later
      else if LowerKey(decl[0].0) == k && !(decl[0].0.StrKey? && decl[0].0.s in PyDict.Keys(argsDict)) then Some(decl[0].1)
      else None
  }

  /** Lines 100-103 set a method header literally exactly when its name is not
      an argument name, the last declaration winning. */
  lemma {:induction false} LiteralHeadersLookup(h: Entries, decl: Entries, argsDict: Kwargs, k: Key)
    ensures CILookup(LiteralHeaders(h, decl, argsDict), k) ==
            if LastLiteral(decl, argsDict, LowerKey(k)).Some? then LastLiteral(decl, argsDict, LowerKey(k))
            else CILookup(h, k)
    decreases |decl|
  {
    if |decl| > 0 {
      var k0 := decl[0].0;
      var h' := if k0.StrKey? && k0.s in PyDict.Keys(argsDict) then h else CISet(h, k0, decl[0].1);
      CISetLookup(h, k0, decl[0].1);
      LiteralHeadersLookup(h', decl[1..], argsDict, k);
    }
  }

  /** Every override in `Consumed` that is examined leaves the keyword
      arguments; every other keyword argument is passed on unchanged. */
  lemma {:induction false} ApplyAllConsumes(p: Pending, ds: seq<string>)
    requires WellFormed(p)
    ensures ApplyAll(p, ds).Success? ==>
              forall k :: PyDict.Lookup(ApplyAll(p, ds).value.kwargs, k) ==
                            if k in Consumed && k in ds then None else PyDict.Lookup(p.kwargs, k)
    decreases |ds|
  {
    if |ds| > 0 {
      var step := ApplyOverride(p, ds[0]);
      if step.Success? {
        ApplyAllConsumes(step.value, ds[1..]);
        assert forall k :: k in ds <==> k == ds[0] || k in ds[1..];
      }
    }
  }

  lemma OverridesConsumed(p: Pending)
    requires WellFormed(p)
    ensures ApplyOverrides(p).Success? ==>
              forall k :: PyDict.Lookup(ApplyOverrides(p).value.kwargs, k) ==
                            if k in Consumed then None else PyDict.Lookup(p.kwargs, k)
  {
    ApplyAllConsumes(p, DecorList);
    assert forall k | k in Consumed :: k in DecorList;
    if |p.kwargs| == 0 {
      forall k ensures PyDict.Lookup(p.kwargs, k) == None {
      }
    }
  }

  predicate DistinctNamesIn(ds: seq<string>) {
    forall i, j | 0 <= i < j < |ds| :: ds[i] != ds[j]
  }

  /** An override of the wrong type raises `TypeError` naming it; when every
      examined override has its type, the loop succeeds. */
  lemma {:induction false} ApplyAllTypeErrors(p: Pending, ds: seq<string>)
    requires WellFormed(p) && DistinctNamesIn(ds)
    ensures ApplyAll(p, ds).Failure? ==>
              exists d | d in ds :: d in PyDict.Keys(p.kwargs) && !ValidOverride(d, PyDict.Lookup(p.kwargs, d).value) &&
                                  ApplyAll(p, ds).error == OverrideTypeError(d)
    ensures (forall d | d in ds && d in PyDict.Keys(p.kwargs) :: ValidOverride(d, PyDict.Lookup(p.kwargs, d).value)) ==>
              ApplyAll(p, ds).Success?
    decreases |ds|
  {
    if |ds| > 0 {
      var step := ApplyOverride(p, ds[0]);
      assert DistinctNamesIn(ds[1..]) by {
        forall i, j | 0 <= i < j < |ds[1..]| ensures ds[1..][i] != ds[1..][j] {
          assert ds[1..][i] == ds[i + 1] && ds[1..][j] == ds[j + 1];
        }
      }
      if step.Success? {
        var q := step.value;
        ApplyAllTypeErrors(q, ds[1..]);
        forall d | d in ds[1..] ensures d != ds[0] && PyDict.Lookup(q.kwargs, d) == PyDict.Lookup(p.kwargs, d) {
          var j :| 0 <= j < |ds[1..]| && ds[1..][j] == d;
          assert ds[j + 1] == d;
        }
      }
    }
  }

  lemma {:induction false} ApplyAllConcat(p: Pending, a: seq<string>, b: seq<string>)
    requires WellFormed(p)
    ensures ApplyAll(p, a + b) ==
            match ApplyAll(p, a)
            case Failure(e) => Failure(e)
            case Success(q) => ApplyAll(q, b)
    decreases |a|
  {
    if |a| == 0 {
      assert a + b == b;
    } else {
      assert (a + b)[0] == a[0] && (a + b)[1..] == a[1..] + b;
      var step := ApplyOverride(p, a[0]);
      if step.Success? {
        ApplyAllConcat(step.value, a[1..], b);
      }
    }
  }

  /** Overrides other than `header` and `accept` keep the `accept` header. */
  lemma {:induction false} ApplyAllKeepsAccept(p: Pending, ds: seq<string>)
    requires WellFormed(p) && "header" !in ds && "accept" !in ds
    ensures ApplyAll(p, ds).Success? ==> CILookup(ApplyAll(p, ds).value.headers, Accept) == CILookup(p.headers, Accept)
    decreases |ds|
  {
    if |ds| > 0 {
      var step := ApplyOverride(p, ds[0]);
      if step.Success? {
        assert ds[0] != "header" && ds[0] != "accept";
        if ds[0] == "content" && ds[0] in PyDict.Keys(p.kwargs) {
          LowerCaseNames();
          CISetLookup(p.headers, ContentType, PyDict.Lookup(p.kwargs, "content").value);
        }
        ApplyAllKeepsAccept(step.value, ds[1..]);
        assert forall d | d in ds[1..] :: d in ds;
      }
    }
  }

  lemma AcceptThenOthers(q: Pending, post: seq<string>)
    requires WellFormed(q) && "accept" in PyDict.Keys(q.kwargs)
    requires "header" !in post && "accept" !in post
    ensures ApplyAll(q, ["accept"] + post).Success? ==>
              CILookup(ApplyAll(q, ["accept"] + post).value.headers, Accept) == PyDict.Lookup(q.kwargs, "accept")
  {
    assert (["accept"] + post)[0] == "accept" && (["accept"] + post)[1..] == post;
    var mid := ApplyOverride(q, "accept");
    if mid.Success? {
      LowerCaseNames();
      CISetLookup(q.headers, Accept, PyDict.Lookup(q.kwargs, "accept").value);
      ApplyAllKeepsAccept(mid.value, post);
    }
  }

  /** The `accept` override beats an `Accept` entry of the `header` override,
      because `DECOR_LIST` examines `accept` after `header`. */
  lemma AcceptOverrideWins(p: Pending)
    requires WellFormed(p) && "accept" in PyDict.Keys(p.kwargs)
    ensures ApplyOverrides(p).Success? ==>
              CILookup(ApplyOverrides(p).value.headers, Accept) == PyDict.Lookup(p.kwargs, "accept")
  {
    var pre, post := SplitAtAccept();
    ApplyAllConcat(p, pre, ["accept"] + post);
    var first := ApplyAll(p, pre);
    if first.Success? {
      ApplyAllConsumes(p, pre);
      AcceptThenOthers(first.value, post);
    }
  }

  /** A field the loop examines takes the caller's override: a dictionary is
      merged over the declared one, any other value replaces it. */
  lemma {:induction false} ApplyAllField(p: Pending, ds: seq<string>, f: string)
    requires WellFormed(p) && f in MergedOverrides + ReplacedOverrides
    ensures ApplyAll(p, ds).Success? ==>
              FieldOf(ApplyAll(p, ds).value, f) ==
                if f in ds && f in PyDict.Keys(p.kwargs) then Overridden(FieldOf(p, f), f, PyDict.Lookup(p.kwargs, f).value)
                else FieldOf(p, f)
    decreases |ds|
  {
    if |ds| > 0 {
      var step := ApplyOverride(p, ds[0]);
      if step.Success? {
        var q := step.value;
        ApplyAllField(q, ds[1..], f);
        assert forall d :: d in ds <==> d == ds[0] || d in ds[1..];
        assert PyDict.Lookup(q.kwargs, f) == if f == ds[0] then None else PyDict.Lookup(p.kwargs, f);
      }
    }
  }

  /** Lines 155-192, the whole loop: the caller's `timeout`, `stream` and
      `body` replace the declared ones, and its `query`, `form`, `multipart`
      and `on` dictionaries are merged over the declared ones. */
  lemma OverriddenField(p: Pending, f: string)
    requires WellFormed(p) && f in MergedOverrides + ReplacedOverrides
    ensures ApplyOverrides(p).Success? ==>
              FieldOf(ApplyOverrides(p).value, f) ==
                if f in PyDict.Keys(p.kwargs) then Overridden(FieldOf(p, f), f, PyDict.Lookup(p.kwargs, f).value)
                else FieldOf(p, f)
    ensures ApplyOverrides(p).Success? && f in ReplacedOverrides && f in PyDict.Keys(p.kwargs) ==>
              Some(FieldOf(ApplyOverrides(p).value, f)) == PyDict.Lookup(p.kwargs, f)
  {
    if |p.kwargs| == 0 {
      assert PyDict.Keys(p.kwargs) == {};
    } else {
      ExaminedFields(f);
      ApplyAllField(p, DecorList, f);
    }
    assert f in ReplacedOverrides ==> f !in MergedOverrides;
  }

  lemma ExaminedFields(f: string)
    requires f in MergedOverrides + ReplacedOverrides
    ensures f in DecorList
  {
    assert DecorList[1] == "query" && DecorList[2] == "form" && DecorList[3] == "multipart" && DecorList[4] == "on";
    assert DecorList[7] == "timeout" && DecorList[8] == "stream" && DecorList[9] == "body";
  }

  /** Every key of a dictionary override reaches the request with the
      caller's value; the keys it lacks keep the declared value. */
  lemma MergedOverrideKey(p: Pending, f: string, k: Key)
    requires WellFormed(p) && f in MergedOverrides && f in PyDict.Keys(p.kwargs)
    ensures var v := PyDict.Lookup(p.kwargs, f).value;
            var prior := FieldOf(p, f);
            var ci := prior.Dict? && prior.caseInsensitive;
            ApplyOverrides(p).Success? ==>
              FieldOf(ApplyOverrides(p).value, f).Dict? && v.Dict? &&
              Get(FieldOf(ApplyOverrides(p).value, f), k) ==
                if UpdateSource(ci, v.entries, k).Some? then UpdateSource(ci, v.entries, k)
                else if prior.Dict? then Get(prior, k) else None
  {
    var r := ApplyOverrides(p);
    if r.Success? {
      OverriddenField(p, f);
      OverridesTyped(p, f);
      var v := PyDict.Lookup(p.kwargs, f).value;
      var prior := FieldOf(p, f);
      if prior.Dict? {
        UpdateEntriesGet(prior, v.entries, k);
      }
    }
  }

  /** A successful loop met every examined override with its type. */
  lemma OverridesTyped(p: Pending, d: string)
    requires WellFormed(p) && d in DecorList && d in PyDict.Keys(p.kwargs)
    ensures ApplyOverrides(p).Success? ==> ValidOverride(d, PyDict.Lookup(p.kwargs, d).value)
  {
    DecorListDistinct();
    ApplyAllTypeErrors(p, DecorList);
    if ApplyOverrides(p).Success? && !ValidOverride(d, PyDict.Lookup(p.kwargs, d).value) {
      ApplyAllFails(p, DecorList, d);
    }
  }

  lemma DecorListDistinct()
    ensures DistinctNamesIn(DecorList)
  {
    assert forall i | 0 <= i < |DecorList| :: DecorList[i][0] == "hqfmoactsbe"[i];
  }

  /** An examined override of the wrong type makes the loop fail. */
  lemma {:induction false} ApplyAllFails(p: Pending, ds: seq<string>, d: string)
    requires WellFormed(p) && d in ds && d in PyDict.Keys(p.kwargs) && !ValidOverride(d, PyDict.Lookup(p.kwargs, d).value)
    ensures ApplyAll(p, ds).Failure?
    decreases |ds|
  {
    var step := ApplyOverride(p, ds[0]);
    if step.Success? {
      assert ds[0] != d;
      assert PyDict.Lookup(step.value.kwargs, d) == PyDict.Lookup(p.kwargs, d);
      ApplyAllFails(step.value, ds[1..], d);
    }
  }

  /** After the `header` override, only `accept` and `content` write a header. */
  lemma {:induction false} ApplyAllHeaders(p: Pending, ds: seq<string>, k: Key)
    requires WellFormed(p) && "header" !in ds
    ensures ApplyAll(p, ds).Success? ==>
              CILookup(ApplyAll(p, ds).value.headers, k) ==
                if LowerKey(k) == Accept && "accept" in ds && "accept" in PyDict.Keys(p.kwargs) then PyDict.Lookup(p.kwargs, "accept")
                else if LowerKey(k) == ContentType && "content" in ds && "content" in PyDict.Keys(p.kwargs) then PyDict.Lookup(p.kwargs, "content")
                else CILookup(p.headers, k)
    decreases |ds|
  {
    if |ds| > 0 {
      var step := ApplyOverride(p, ds[0]);
      if step.Success? {
        var q := step.value;
        ApplyAllHeaders(q, ds[1..], k);
        assert forall d :: d in ds <==> d == ds[0] || d in ds[1..];
        LowerCaseNames();
        if ds[0] in PyDict.Keys(p.kwargs) {
          CISetLookup(p.headers, Accept, PyDict.Lookup(p.kwargs, ds[0]).value);
          CISetLookup(p.headers, ContentType, PyDict.Lookup(p.kwargs, ds[0]).value);
        }
        assert PyDict.Lookup(q.kwargs, "accept") == if ds[0] == "accept" then None else PyDict.Lookup(p.kwargs, "accept");
        assert PyDict.Lookup(q.kwargs, "content") == if ds[0] == "content" then None else PyDict.Lookup(p.kwargs, "content");
      }
    }
  }

  /** Lines 146-192, the whole loop, for one header name: the `accept` and
      `content` overrides win for their names, then the last matching entry of
      the `header` override, then the declared header. */
  lemma OverriddenHeader(p: Pending, k: Key)
    requires WellFormed(p)
    ensures ApplyOverrides(p).Success? ==>
              CILookup(ApplyOverrides(p).value.headers, k) ==
                if LowerKey(k) == Accept && "accept" in PyDict.Keys(p.kwargs) then PyDict.Lookup(p.kwargs, "accept")
                else if LowerKey(k) == ContentType && "content" in PyDict.Keys(p.kwargs) then PyDict.Lookup(p.kwargs, "content")
                else if "header" in PyDict.Keys(p.kwargs) && PyDict.Lookup(p.kwargs, "header").value.Dict? &&
                        LastMatch(PyDict.Lookup(p.kwargs, "header").value.entries, LowerKey(k)).Some?
                then LastMatch(PyDict.Lookup(p.kwargs, "header").value.entries, LowerKey(k))
                else CILookup(p.headers, k)
  {
    if |p.kwargs| == 0 {
      assert PyDict.Keys(p.kwargs) == {};
    } else {
      var rest := DecorList[1..];
      assert DecorList == ["header"] + rest;
      assert "header" !in rest && "accept" in rest && "content" in rest by {
        assert forall i | 0 <= i < |rest| :: rest[i][0] != 'h';
        assert rest[4] == "accept" && rest[5] == "content";
      }
      ApplyAllConcat(p, ["header"], rest);
      var first := ApplyOverride(p, "header");
      assert ApplyAll(p, ["header"]) == (match first case Failure(e) => Failure(e) case Success(q) => ApplyAll(q, []));
      if first.Success? {
        var q := first.value;
        ApplyAllHeaders(q, rest, k);
        if "header" in PyDict.Keys(p.kwargs) {
          CIUpdateLookup(p.headers, PyDict.Lookup(p.kwargs, "header").value.entries, k);
        }
      }
    }
  }

  /** `DECOR_LIST` around `accept`: `header` comes before it and nothing
      after it names a header. */
  lemma SplitAtAccept() returns (pre: seq<string>, post: seq<string>)
    ensures DecorList == pre + (["accept"] + post)
    ensures "accept" !in pre && "header" !in post && "accept" !in post
  {
    pre := ["header", "query", "form", "multipart", "on"];
    post := ["content", "timeout", "stream", "body", "endpoint"];
    assert DecorList == pre + (["accept"] + post);
    assert forall i | 0 <= i < |pre| :: pre[i][0] != 'a';
    assert forall i | 0 <= i < |post| :: post[i][0] != 'a' && post[i][0] != 'h';
  }

  /** Status handlers: the class's, updated with the method's, updated with
      the call's; on a shared status code the later one wins. */
  lemma HandlerPrecedence(client: Client, func: Method, callOn: Value, k: Key)
    requires DeclaredHandlers(client, func).Success? && IsPlainDict(callOn)
    requires AllPlain([GetDecor(client.classTable, "on"), GetDecor(func.table, "on")])
    ensures var on := Overridden(DeclaredHandlers(client, func).value, "on", callOn);
            on.Dict? &&
            PyDict.Lookup(on.entries, k) == LastWith([GetDecor(client.classTable, "on"), GetDecor(func.table, "on"), callOn], k)
  {
    var classOn := GetDecor(client.classTable, "on");
    var funcOn := GetDecor(func.table, "on");
    var ds := [classOn, funcOn, callOn];
    assert DictsOrNone(ds) && AllPlain(ds);
    var x := MergeStep(MergeStep(Null, classOn), funcOn);
    MergePair(classOn, funcOn);
    assert ds[1..] == [funcOn, callOn] && ds[1..][1..] == [callOn] && ds[1..][1..][1..] == [];
    assert MergeDicts(ds) == MergeFrom(MergeStep(Null, classOn), [funcOn, callOn]);
    assert MergeFrom(MergeStep(Null, classOn), [funcOn, callOn]) == MergeFrom(x, [callOn]);
    assert MergeFrom(x, [callOn]) == MergeFrom(MergeStep(x, callOn), []);
    assert Overridden(DeclaredHandlers(client, func).value, "on", callOn) == MergeDicts(ds);
    MergeDictsShape(ds);
    assert FirstPresent(ds).Some? by {
      assert FirstPresent(ds[1..][1..]) == Some(callOn);
    }
    MergeDictsPlain(ds, k);
  }

  /** Lines 124-125 and 168-169 through the whole assembly: a status code
      gets the call's handler, else the method's, else the class's. */
  lemma AssembledHandlers(client: Client, func: Method, template: string, args: seq<Value>,
                          kwargs: Kwargs, host: Host, k: Key)
    requires DistinctNames(func.params) && Renderable(func, template, args, host)
    requires "on" in PyDict.Keys(kwargs)
    requires AllPlain([GetDecor(client.classTable, "on"), GetDecor(func.table, "on")])
    ensures var r := Assemble(client, func, template, args, kwargs, host);
            var callOn := PyDict.Lookup(kwargs, "on").value;
            r.Success? ==>
              callOn.Dict? && r.value.onHandlers.Dict? &&
              PyDict.Lookup(r.value.onHandlers.entries, k) ==
                LastWith([GetDecor(client.classTable, "on"), GetDecor(func.table, "on"), callOn], k)
  {
    var r := Assemble(client, func, template, args, kwargs, host);
    if r.Success? {
      var p := Declare(client, func, template, args, kwargs, host).value.pending;
      assert PyDict.Lookup(p.kwargs, "on") == PyDict.Lookup(kwargs, "on");
      ExaminedFields("on");
      OverriddenField(p, "on");
      OverridesTyped(p, "on");
      HandlerPrecedence(client, func, PyDict.Lookup(kwargs, "on").value, k);
    }
  }

  /** Lines 185-186 through the whole assembly: the caller's truthy timeout is
      the one the backend receives. */
  lemma AssembledTimeout(client: Client, func: Method, template: string, args: seq<Value>,
                         kwargs: Kwargs, host: Host)
    requires DistinctNames(func.params) && Renderable(func, template, args, host)
    requires "timeout" in PyDict.Keys(kwargs) && Truthy(PyDict.Lookup(kwargs, "timeout").value)
    ensures var r := Assemble(client, func, template, args, kwargs, host);
            r.Success? ==> PyDict.Lookup(r.value.kwargs, "timeout") == PyDict.Lookup(kwargs, "timeout")
  {
    var r := Assemble(client, func, template, args, kwargs, host);
    if r.Success? {
      var d := Declare(client, func, template, args, kwargs, host).value;
      assert PyDict.Lookup(d.pending.kwargs, "timeout") == PyDict.Lookup(kwargs, "timeout");
      OverriddenTimeoutSent(d, client, func, host);
    }
  }

  lemma OverriddenTimeoutSent(d: Declared, client: Client, func: Method, host: Host)
    requires WellFormed(d.pending)
    requires "timeout" in PyDict.Keys(d.pending.kwargs) && Truthy(PyDict.Lookup(d.pending.kwargs, "timeout").value)
    ensures ApplyOverrides(d.pending).Success? ==>
              PyDict.Lookup(Finish(d, ApplyOverrides(d.pending).value, client, func, host).kwargs, "timeout") ==
              PyDict.Lookup(d.pending.kwargs, "timeout")
  {
    if ApplyOverrides(d.pending).Success? {
      var p := ApplyOverrides(d.pending).value;
      TimeoutToBackend(d.pending, client, host);
      FinishKwargs(d, p, client, func, host);
      assert "timeout"[0] != "follow_redirects"[0] && "timeout"[0] != "allow_redirects"[0];
    }
  }

  lemma TimeoutToBackend(p: Pending, client: Client, host: Host)
    requires WellFormed(p) && "timeout" in PyDict.Keys(p.kwargs) && Truthy(PyDict.Lookup(p.kwargs, "timeout").value)
    ensures ApplyOverrides(p).Success? ==>
              PyDict.Lookup(BackendKwargs(ApplyOverrides(p).value, client, host), "timeout") == PyDict.Lookup(p.kwargs, "timeout")
  {
    if ApplyOverrides(p).Success? {
      OverriddenField(p, "timeout");
      BackendKwargsCarry(ApplyOverrides(p).value, client, host);
    }
  }

  /** The first truthy value of a chain, else `None`. */
  function FirstTruthy(vs: seq<Value>): (r: Value)
    decreases |vs|
  {
    if |vs| == 0 then Null
    else if Truthy(vs[0]) then vs[0]
    else FirstTruthy(vs[1..])
  }

  /** Lines 197-200: the endpoint is the first truthy one of the chain. */
  lemma EffectiveEndpointIsFirstTruthy(sessionEndpoint: Value, client: Client, func: Method)
    ensures EffectiveEndpoint(sessionEndpoint, client, func) ==
            FirstTruthy([sessionEndpoint, client.endpoint, func.classEndpoint, GetDecor(client.instanceTable, "endpoint")])
  {
    var g := GetDecor(client.instanceTable, "endpoint");
    var vs := [sessionEndpoint, client.endpoint, func.classEndpoint, g];
    assert FirstTruthy([g]) == g by {
      assert FirstTruthy([g][1..]) == Null;
    }
    assert [func.classEndpoint, g][1..] == [g];
    assert FirstTruthy([func.classEndpoint, g]) == Or(func.classEndpoint, g);
    assert [client.endpoint, func.classEndpoint, g][1..] == [func.classEndpoint, g];
    assert FirstTruthy([client.endpoint, func.classEndpoint, g]) == Or(client.endpoint, Or(func.classEndpoint, g));
    assert vs[1..] == [client.endpoint, func.classEndpoint, g];
  }

  /** The headers sent always carry `accept`, carry `content-type` unless the
      request is multipart without one, and a form forces the URL-encoded
      content type. */
  lemma FinalHeadersDefaults(p: Pending, isMultipart: bool)
    ensures var h := FinalHeaders(p, isMultipart);
            CILookup(h, Accept).Some? &&
            (Truthy(p.form) ==> CILookup(h, ContentType) == Some(FormEncoded)) &&
            (!isMultipart ==> CILookup(h, ContentType).Some?)
  {
    LowerCaseNames();
    var h0 := DefaultHeaders(p.headers, isMultipart);
    CISetLookup(h0, ContentType, FormEncoded);
  }

  /** The backend receives the headers, multipart bindings as `files`, and a
      truthy timeout. */
  lemma BackendKwargsCarry(p: Pending, client: Client, host: Host)
    requires WellFormed(p)
    ensures var kw := BackendKwargs(p, client, host);
            PyDict.Lookup(kw, "headers") == Some(Dict(FinalHeaders(p, IsMultipart(p, client, host)), false)) &&
            (Truthy(p.multipart) ==> IsMultipart(p, client, host) && PyDict.Lookup(kw, "files") == Some(p.multipart)) &&
            (Truthy(p.timeout) ==> PyDict.Lookup(kw, "timeout") == Some(p.timeout))
  {
    var isMultipart := IsMultipart(p, client, host);
    var kw0 := SetIf(p.kwargs, Truthy(p.multipart), "files", p.multipart);
    var h0 := DefaultHeaders(p.headers, isMultipart);
    var kw1 := SetIf(kw0, Truthy(client.auth), "auth", client.auth);
    var kw2 := SetIf(kw1, Truthy(p.timeout), "timeout", p.timeout);
    var kw6 := PayloadArgs(kw2, p, h0, client, host);
    var h := FinalHeaders(p, isMultipart);
    FinalHeadersDefaults(p, isMultipart);
    assert BackendKwargs(p, client, host) == SetIf(kw6, |h| > 0, "headers", Dict(h, false));
    assert "headers"[0] != "timeout"[0] && "headers"[0] != "files"[0];
    PayloadKeepsOthers(kw2, p, h0, client, host);
    assert PyDict.Lookup(kw2, "files") == PyDict.Lookup(kw0, "files");
  }

  /** The payload step leaves `timeout` and `files` alone. */
  lemma PayloadKeepsOthers(kw: Kwargs, p: Pending, headers: Entries, client: Client, host: Host)
    ensures var r := PayloadArgs(kw, p, headers, client, host);
            PyDict.Lookup(r, "timeout") == PyDict.Lookup(kw, "timeout") &&
            PyDict.Lookup(r, "files") == PyDict.Lookup(kw, "files")
  {
    assert "timeout"[0] != "content"[0] && "timeout"[0] != "data"[0];
    assert "files"[0] != "content"[0] && "files"[0] != "data"[0];
  }

  /** The backend receives the query as `params`, the form as `data` in place
      of any body, and a truthy stream flag as `stream`. */
  lemma BackendKwargsPayload(p: Pending, client: Client, host: Host)
    requires WellFormed(p)
    ensures var kw := BackendKwargs(p, client, host);
            (Truthy(p.query) ==> PyDict.Lookup(kw, "params") == Some(p.query)) &&
            (Truthy(p.form) ==> PyDict.Lookup(kw, "data") == Some(p.form)) &&
            (Truthy(p.stream) ==> PyDict.Lookup(kw, "stream") == Some(p.stream))
  {
    var isMultipart := IsMultipart(p, client, host);
    var kw0 := SetIf(p.kwargs, Truthy(p.multipart), "files", p.multipart);
    var h0 := DefaultHeaders(p.headers, isMultipart);
    var kw1 := SetIf(kw0, Truthy(client.auth), "auth", client.auth);
    var kw2 := SetIf(kw1, Truthy(p.timeout), "timeout", p.timeout);
    var kw6 := PayloadArgs(kw2, p, h0, client, host);
    var h := FinalHeaders(p, isMultipart);
    assert BackendKwargs(p, client, host) == SetIf(kw6, |h| > 0, "headers", Dict(h, false));
    assert "headers"[0] != "params"[0] && "headers"[0] != "data"[0] && "headers"[0] != "stream"[0];
  }

  /** The redirect flag is spelt the way the backend expects, and the other
      backend keyword arguments pass through the renaming. */
  lemma FinishKwargs(d: Declared, p: Pending, client: Client, func: Method, host: Host)
    requires WellFormed(p)
    ensures var r := Finish(d, p, client, func, host);
            var kw := BackendKwargs(p, client, host);
            (client.backend == Requests ==> "follow_redirects" !in PyDict.Keys(r.kwargs)) &&
            (client.backend == Httpx ==> "allow_redirects" !in PyDict.Keys(r.kwargs)) &&
            forall k | k != "follow_redirects" && k != "allow_redirects" :: PyDict.Lookup(r.kwargs, k) == PyDict.Lookup(kw, k)
  {
  }

  /** `_normalize_for_requests` and `_normalize_for_httpx` are idempotent and
      undo each other when the target name was not in use. */
  lemma NormalizeRoundTrip(kw: Kwargs)
    ensures NormalizeForRequests(NormalizeForRequests(kw)) == NormalizeForRequests(kw)
    ensures NormalizeForHttpx(NormalizeForHttpx(kw)) == NormalizeForHttpx(kw)
    ensures "allow_redirects" !in PyDict.Keys(kw) ==>
              forall k :: PyDict.Lookup(NormalizeForHttpx(NormalizeForRequests(kw)), k) == PyDict.Lookup(kw, k)
    ensures "follow_redirects" !in PyDict.Keys(kw) ==>
              forall k :: PyDict.Lookup(NormalizeForRequests(NormalizeForHttpx(kw)), k) == PyDict.Lookup(kw, k)
  {
  }

  // ---------------------------------------------------------------------------
  // What a call leaves behind in the class's decoration table

  /** As written, lines 91-93 and 124-125 hand the class's own header and
      handler dictionaries to `merge_dicts`, which returns the first of them
      after updating it in place, and lines 168-169 update the same handler
      dictionary with the call's `on` override (`callOn`, `None` when the call
      passes none). This is the class table after one call that gets past
      those lines. */
  function ClassTableAfterCall(client: Client, func: Method, argsDict: Kwargs, callOn: Value): (r: Option<Table>)
    ensures r.Some? <==> client.classTable.Some?
    ensures r.Some? ==> forall n | n != "header" && n != "on" ::
              PyDict.Lookup(r.value, n) == PyDict.Lookup(client.classTable.value, n)
    ensures var ch := GetDecor(client.classTable, "header");
            var bound := MergeArgs(argsDict, func.table, "header");
            ch.Dict? && bound.Success? ==> PyDict.Lookup(r.value, "header") == Some(UpdateEntries(ch, bound.value))
    ensures var ch := GetDecor(client.classTable, "header");
            var bound := MergeArgs(argsDict, func.table, "header");
            r.Some? && !(ch.Dict? && bound.Success?) ==>
              PyDict.Lookup(r.value, "header") == PyDict.Lookup(client.classTable.value, "header")
    ensures var co := GetDecor(client.classTable, "on");
            var fo := GetDecor(func.table, "on");
            co.Dict? && (fo.Null? || fo.Dict?) && (callOn.Null? || IsPlainDict(callOn)) ==>
              PyDict.Lookup(r.value, "on") == Some(MergeStep(MergeStep(co, fo), callOn))
    ensures r.Some? && !GetDecor(client.classTable, "on").Dict? ==>
              PyDict.Lookup(r.value, "on") == PyDict.Lookup(client.classTable.value, "on")
  {
    match client.classTable
    case None => None
    case Some(t) =>
      var t1 := HeaderWriteBack(t, GetDecor(client.classTable, "header"), MergeArgs(argsDict, func.table, "header"));
      Some(HandlerWriteBack(t1, GetDecor(client.classTable, "on"), GetDecor(func.table, "on"), callOn))
  }

  /** Lines 91-93: the class's header dictionary `ch`, updated in place. */
  function HeaderWriteBack(t: Table, ch: Value, bound: Result<Entries, AssemblyError>): (r: Table)
    ensures forall n | n != "header" :: PyDict.Lookup(r, n) == PyDict.Lookup(t, n)
    ensures ch.Dict? && bound.Success? ==> PyDict.Lookup(r, "header") == Some(UpdateEntries(ch, bound.value))
    ensures !(ch.Dict? && bound.Success?) ==> r == t
  {
    if ch.Dict? && bound.Success? then PyDict.Set(t, "header", UpdateEntries(ch, bound.value)) else t
  }

  /** Lines 124-125 and 168-169: the class's handler dictionary `co`, updated
      in place with the method's and then the call's handlers. */
  function HandlerWriteBack(t: Table, co: Value, fo: Value, callOn: Value): (r: Table)
    ensures forall n | n != "on" :: PyDict.Lookup(r, n) == PyDict.Lookup(t, n)
    ensures !co.Dict? ==> r == t
    ensures co.Dict? && (fo.Null? || fo.Dict?) && (callOn.Null? || IsPlainDict(callOn)) ==>
              PyDict.Lookup(r, "on") == Some(MergeStep(MergeStep(co, fo), callOn))
  {
    if co.Dict? then
      var co1 := if fo.Null? || fo.Dict? then MergeStep(co, fo) else co;
      var co2 := if IsPlainDict(callOn) then MergeStep(co1, callOn) else co1;
      PyDict.Set(t, "on", co2)
    else t
  }

  /** Lines 124-125 and 168-169 when the class declares no handlers:
      `merge_dicts` returns the method's own handler dictionary, and the
      call's `on` override updates it in place. */
  function MethodTableAfterCall(client: Client, func: Method, callOn: Value): (r: Option<Table>)
    ensures r.Some? <==> func.table.Some?
    ensures r.Some? ==> forall n | n != "on" :: PyDict.Lookup(r.value, n) == PyDict.Lookup(func.table.value, n)
    ensures GetDecor(client.classTable, "on").Null? && GetDecor(func.table, "on").Dict? && IsPlainDict(callOn) ==>
              PyDict.Lookup(r.value, "on") == Some(MergeStep(GetDecor(func.table, "on"), callOn))
    ensures !(GetDecor(client.classTable, "on").Null? && GetDecor(func.table, "on").Dict? && IsPlainDict(callOn)) ==>
              r == func.table
  {
    var fo := GetDecor(func.table, "on");
    if GetDecor(client.classTable, "on").Null? && fo.Dict? && IsPlainDict(callOn) then
      Some(PyDict.Set(func.table.value, "on", MergeStep(fo, callOn)))
    else func.table
  }

  /** The intended behaviour: the merges work on copies, and the class table
      after a call is the one before it. The assembler of this model computes
      every call from the tables alone, which is this behaviour. */
  function ClassTableAfterCallCopying(client: Client, func: Method, argsDict: Kwargs, callOn: Value): (r: Option<Table>)
    ensures forall n :: GetDecor(r, n) == GetDecor(client.classTable, n)
  {
    client.classTable
  }

  /** One call of a method of the client: the method, its bound arguments and
      its `on` override (`None` when it passes none). */
  datatype CallRecord = CallRecord(func: Method, argsDict: Kwargs, callOn: Value)

  /** The class table after a sequence of calls that get past line 169, as
      written. */
  function ClassAfterCalls(client: Client, calls: seq<CallRecord>): (r: Option<Table>)
    decreases |calls|
  {
    if |calls| == 0 then client.classTable
    else
      var c := calls[0];
      var t := ClassTableAfterCall(client, c.func, c.argsDict, c.callOn);
      ClassAfterCalls(client.(classTable := t), calls[1..])
  }

  /** The value the last of `calls` that binds the header `k` gives it. */
  function LastBound(ci: bool, calls: seq<CallRecord>, k: Key): Option<Value>
    decreases |calls|
  {
    if |calls| == 0 then None
    else
      var later := LastBound(ci, calls[1..], k);
      var bound := MergeArgs(calls[0].argsDict, calls[0].func.table, "header");
      if later.Some? then later
      else if bound.Success? then UpdateSource(ci, bound.value, k)
      else None
  }

  lemma MergeWithEmpty(x: Value)
    requires x.Dict?
    ensures MergeDicts([x, Dict([], false)]) == x
  {
    var ds := [x, Dict([], false)];
    assert ds[1..] == [Dict([], false)] && ds[1..][1..] == [];
    assert MergeDicts(ds) == MergeFrom(x, ds[1..]);
    assert MergeFrom(x, ds[1..]) == MergeFrom(MergeStep(x, Dict([], false)), []);
    if x.caseInsensitive {
      assert CIUpdate(x.entries, []) == x.entries;
    } else {
      assert PyDict.Update(x.entries, []) == x.entries;
    }
  }

  lemma AfterCallHeader(client: Client, func: Method, argsDict: Kwargs, callOn: Value)
    requires GetDecor(client.classTable, "header").Dict?
    requires MergeArgs(argsDict, func.table, "header").Success?
    ensures GetDecor(ClassTableAfterCall(client, func, argsDict, callOn), "header") ==
            UpdateEntries(GetDecor(client.classTable, "header"), MergeArgs(argsDict, func.table, "header").value)
  {
    var ch := GetDecor(client.classTable, "header");
    var x := UpdateEntries(ch, MergeArgs(argsDict, func.table, "header").value);
    var after := ClassTableAfterCall(client, func, argsDict, callOn);
    assert PyDict.Lookup(after.value, "header") == Some(x);
    UpdateKeepsTruthy(ch, MergeArgs(argsDict, func.table, "header").value);
  }

  /** Updating a non-empty dictionary leaves it non-empty. */
  lemma UpdateKeepsTruthy(d: Value, src: Entries)
    requires d.Dict? && Truthy(d)
    ensures Truthy(UpdateEntries(d, src))
  {
    var x := UpdateEntries(d, src);
    assert d.entries[0].0 in PyDict.Keys(d.entries);
    assert d.entries[0].0 in PyDict.Keys(x.entries);
  }

  /** As written, a header bound to an argument of one method ends up among the
      class's headers: after the call the class reads it case-insensitively. */
  lemma CallLeaksBoundHeaders(client: Client, func: Method, argsDict: Kwargs, callOn: Value, k: Key)
    requires GetDecor(client.classTable, "header").Dict? && GetDecor(client.classTable, "header").caseInsensitive
    requires MergeArgs(argsDict, func.table, "header").Success?
    ensures var after := GetDecor(ClassTableAfterCall(client, func, argsDict, callOn), "header");
            var bound := MergeArgs(argsDict, func.table, "header").value;
            after.Dict? &&
            Get(after, k) == if LastMatch(bound, LowerKey(k)).Some? then LastMatch(bound, LowerKey(k))
                             else Get(GetDecor(client.classTable, "header"), k)
  {
    var ch := GetDecor(client.classTable, "header");
    var bound := MergeArgs(argsDict, func.table, "header").value;
    AfterCallHeader(client, func, argsDict, callOn);
    UpdateEntriesGet(ch, bound, k);
  }

  /** As written, a later call of a method without decorations of its own
      starts from the headers an earlier call bound: a header the class never
      declared is sent with the earlier call's value. */
  lemma LaterCallSeesLeakedHeader(client: Client, funcA: Method, argsA: Kwargs, callOn: Value,
                                  funcB: Method, argsB: Kwargs, k: Key, v: Value)
    requires GetDecor(client.classTable, "header").Dict? && GetDecor(client.classTable, "header").caseInsensitive
    requires MergeArgs(argsA, funcA.table, "header").Success?
    requires LastMatch(MergeArgs(argsA, funcA.table, "header").value, LowerKey(k)) == Some(v)
    requires Get(GetDecor(client.classTable, "header"), k).None?
    requires funcB.table.None?
    ensures BaseHeaders(client, funcB, argsB).Success? && Get(BaseHeaders(client, funcB, argsB).value, k).None?
    ensures var client' := client.(classTable := ClassTableAfterCall(client, funcA, argsA, callOn));
            BaseHeaders(client', funcB, argsB).Success? && Get(BaseHeaders(client', funcB, argsB).value, k) == Some(v)
  {
    var client' := client.(classTable := ClassTableAfterCall(client, funcA, argsA, callOn));
    CallLeaksBoundHeaders(client, funcA, argsA, callOn, k);
    assert MergeArgs(argsB, funcB.table, "header") == Success([]);
    MergeWithEmpty(GetDecor(client.classTable, "header"));
    MergeWithEmpty(GetDecor(client'.classTable, "header"));
  }

  /** As written, the class's headers accumulate: after a sequence of calls a
      header reads the value the last call that bound it gave it, else the
      class's own. */
  lemma {:induction false} HeadersAccumulate(client: Client, calls: seq<CallRecord>, k: Key)
    requires GetDecor(client.classTable, "header").Dict?
    ensures var ch := GetDecor(client.classTable, "header");
            var after := GetDecor(ClassAfterCalls(client, calls), "header");
            after.Dict? && after.caseInsensitive == ch.caseInsensitive &&
            Get(after, k) == if LastBound(ch.caseInsensitive, calls, k).Some? then LastBound(ch.caseInsensitive, calls, k)
                             else Get(ch, k)
    decreases |calls|
  {
    if |calls| > 0 {
      var c := calls[0];
      var ch := GetDecor(client.classTable, "header");
      var client' := client.(classTable := ClassTableAfterCall(client, c.func, c.argsDict, c.callOn));
      var bound := MergeArgs(c.argsDict, c.func.table, "header");
      if bound.Success? {
        AfterCallHeader(client, c.func, c.argsDict, c.callOn);
        UpdateEntriesGet(ch, bound.value, k);
      } else {
        assert GetDecor(client'.classTable, "header") == ch;
      }
      HeadersAccumulate(client', calls[1..], k);
    }
  }

  /** As written, a call changes the class's header `k` exactly when it binds
      `k` to a value the class did not hold; with copying merges it never does. */
  lemma HeaderWriteBackExactly(client: Client, func: Method, argsDict: Kwargs, callOn: Value, k: Key)
    requires GetDecor(client.classTable, "header").Dict? && MergeArgs(argsDict, func.table, "header").Success?
    ensures var ch := GetDecor(client.classTable, "header");
            var src := UpdateSource(ch.caseInsensitive, MergeArgs(argsDict, func.table, "header").value, k);
            var asWritten := GetDecor(ClassTableAfterCall(client, func, argsDict, callOn), "header");
            var copying := GetDecor(ClassTableAfterCallCopying(client, func, argsDict, callOn), "header");
            asWritten.Dict? && copying == ch &&
            (Get(asWritten, k) != Get(copying, k) <==> src.Some? && src != Get(ch, k))
  {
    var ch := GetDecor(client.classTable, "header");
    AfterCallHeader(client, func, argsDict, callOn);
    UpdateEntriesGet(ch, MergeArgs(argsDict, func.table, "header").value, k);
  }

  /** As written, a call changes the class's handler for status `k` exactly
      when the method's or the call's handlers give `k` a handler the class
      did not hold, the call's first; with copying merges it never does. */
  lemma HandlerWriteBackExactly(client: Client, func: Method, argsDict: Kwargs, callOn: Value, k: Key)
    requires GetDecor(client.classTable, "on").Dict?
    requires GetDecor(func.table, "on").Null? || GetDecor(func.table, "on").Dict?
    requires callOn.Null? || IsPlainDict(callOn)
    ensures var co := GetDecor(client.classTable, "on");
            var fo := GetDecor(func.table, "on");
            var src := if callOn.Dict? && UpdateSource(co.caseInsensitive, callOn.entries, k).Some?
                       then UpdateSource(co.caseInsensitive, callOn.entries, k)
                       else if fo.Dict? then UpdateSource(co.caseInsensitive, fo.entries, k) else None;
            var asWritten := GetDecor(ClassTableAfterCall(client, func, argsDict, callOn), "on");
            var copying := GetDecor(ClassTableAfterCallCopying(client, func, argsDict, callOn), "on");
            asWritten.Dict? && copying == co &&
            (Get(asWritten, k) != Get(copying, k) <==> src.Some? && src != Get(co, k))
  {
    var co := GetDecor(client.classTable, "on");
    var fo := GetDecor(func.table, "on");
    var co1 := MergeStep(co, fo);
    var co2 := MergeStep(co1, callOn);
    assert PyDict.Lookup(ClassTableAfterCall(client, func, argsDict, callOn).value, "on") == Some(co2);
    if fo.Dict? {
      UpdateEntriesGet(co, fo.entries, k);
      UpdateKeepsTruthy(co, fo.entries);
    }
    if callOn.Dict? {
      UpdateEntriesGet(co1, callOn.entries, k);
      UpdateKeepsTruthy(co1, callOn.entries);
    }
  }

  /** As written, a method whose class declares no handlers keeps the call's
      `on` override: a later call of it declares the override's handlers,
      where the intended behaviour declares the method's own. */
  lemma MethodKeepsCallHandlers(client: Client, func: Method, callOn: Value, k: Key)
    requires GetDecor(client.classTable, "on").Null? && IsPlainDict(GetDecor(func.table, "on")) && IsPlainDict(callOn)
    ensures DeclaredHandlers(client, func) == Success(GetDecor(func.table, "on"))
    ensures var func' := func.(table := MethodTableAfterCall(client, func, callOn));
            DeclaredHandlers(client, func').Success? && DeclaredHandlers(client, func').value.Dict? &&
            PyDict.Lookup(DeclaredHandlers(client, func').value.entries, k) ==
              if PyDict.Lookup(callOn.entries, k).Some? then PyDict.Lookup(callOn.entries, k)
              else PyDict.Lookup(GetDecor(func.table, "on").entries, k)
  {
    var fo := GetDecor(func.table, "on");
    var func' := func.(table := MethodTableAfterCall(client, func, callOn));
    UpdateKeepsTruthy(fo, callOn.entries);
    assert GetDecor(func'.table, "on") == MergeStep(fo, callOn);
    UpdateEntriesGet(fo, callOn.entries, k);
  }
}

=== FILE: response.dfy ===
/** What a call returns once the backend has answered: `handle_response` of
    decorest/request.py and the response half of the older `call` of
    decorest/decorators.py. Both pick one outcome; only the choice is modelled,
    not the handler call or the decoding of the body. */
module Response {
  import opened Wrappers
  import opened Values
  import opened HttpTypes

  /** What the handler reads from a backend response: the status code, whether
      the backend's `raise_for_status()` raises for it, the body text and the
      `content-type` header. */
  datatype HttpResponse = HttpResponse(status: int, raises: bool, text: string, contentType: Option<string>)

  datatype Outcome =
    | Handled(key: Key, handler: Value)  // the handler registered under `key` is called with the response
    | RawResponse                        // the response object itself
    | JsonBody                           // `result.json()`
    | BinaryBody                         // `result.content`
    | TextBody                           // `result.text`
    | NoBody                             // `None`
    | WrappedHttpError                   // `HTTPErrorWrapper` around the backend's error
    | BackendHttpError                   // the backend's error itself

  /** `on and key in on`: the handler registered for `key` in a truthy
      dictionary of handlers. */
  function HandlerFor(on: Value, k: Key): (r: Option<Value>)
    ensures r.Some? ==> on.Dict? && |on.entries| > 0 && Get(on, k) == r
    ensures on.Dict? && Get(on, k).Some? ==> r == Get(on, k)
  {
    if on.Dict? && Truthy(on) then Get(on, k) else None
  }

  /** Lines 344-353 of request.py and 294-303 of decorators.py: a non-empty
      body is decoded by its exact content type; an empty one gives `None`. */
  function BodyOutcome(resp: HttpResponse): (r: Outcome)
    ensures r in {JsonBody, BinaryBody, TextBody, NoBody}
    ensures r == NoBody <==> |resp.text| == 0
    ensures r == JsonBody <==> |resp.text| > 0 && resp.contentType == Some("application/json")
    ensures r == BinaryBody <==> |resp.text| > 0 && resp.contentType == Some("application/octet-stream")
  {
    if |resp.text| == 0 then NoBody
    else if resp.contentType == Some("application/json") then JsonBody
    else if resp.contentType == Some("application/octet-stream") then BinaryBody
    else TextBody
  }

  /** `handle_response` (request.py lines 324-353): a handler for the exact
      status, then the catch-all handler, then the stream flag, then the
      status check, then the body. */
  function HandleResponse(on: Value, isStream: Value, resp: HttpResponse): (r: Outcome)
    ensures HandlerFor(on, IntKey(resp.status)).Some? ==>
              r == Handled(IntKey(resp.status), HandlerFor(on, IntKey(resp.status)).value)
    ensures r.Handled? ==> HandlerFor(on, r.key) == Some(r.handler) &&
                           (r.key == IntKey(resp.status) || r.key == IntKey(AnyStatus))
    ensures r == RawResponse <==> !HasHandler(on, resp) && Truthy(isStream)
    ensures r == WrappedHttpError <==> !HasHandler(on, resp) && !Truthy(isStream) && resp.raises
    ensures r != BackendHttpError
  {
    var exact := HandlerFor(on, IntKey(resp.status));
    var any := HandlerFor(on, IntKey(AnyStatus));
    if exact.Some? then Handled(IntKey(resp.status), exact.value)
    else if any.Some? then Handled(IntKey(AnyStatus), any.value)
    else if Truthy(isStream) then RawResponse
    else if resp.raises then WrappedHttpError
    else BodyOutcome(resp)
  }

  /** A handler applies to the response: one for its status or the catch-all. */
  predicate HasHandler(on: Value, resp: HttpResponse) {
    HandlerFor(on, IntKey(resp.status)).Some? || HandlerFor(on, IntKey(AnyStatus)).Some?
  }

  /** The older response handling (decorators.py lines 287-303): no catch-all,
      no stream flag, and the backend's error is not wrapped. */
  function HandleLegacyResponse(on: Value, resp: HttpResponse): (r: Outcome)
    ensures r.Handled? <==> HandlerFor(on, IntKey(resp.status)).Some?
    ensures r.Handled? ==> r == Handled(IntKey(resp.status), HandlerFor(on, IntKey(resp.status)).value)
    ensures r == BackendHttpError <==> HandlerFor(on, IntKey(resp.status)).None? && resp.raises
    ensures r != RawResponse && r != WrappedHttpError
  {
    var exact := HandlerFor(on, IntKey(resp.status));
    if exact.Some? then Handled(IntKey(resp.status), exact.value)
    else if resp.raises then BackendHttpError
    else BodyOutcome(resp)
  }

  // ---------------------------------------------------------------------------
  // A reference reading: the outcome of the first rule that applies

  /** One rule of the handler chain: `Some` of its outcome when it applies. */
  function Rule(i: nat, on: Value, isStream: Value, resp: HttpResponse): Option<Outcome> {
    if i == 0 then
      (match HandlerFor(on, IntKey(resp.status))
       case Some(h) => Some(Handled(IntKey(resp.status), h))
       case None => None)
    else if i == 1 then
      (match HandlerFor(on, IntKey(AnyStatus))
       case Some(h) => Some(Handled(IntKey(AnyStatus), h))
       case None => None)
    else if i == 2 then (if Truthy(isStream) then Some(RawResponse) else None)
    else if i == 3 then (if resp.raises then Some(WrappedHttpError) else None)
    else Some(BodyOutcome(resp))
  }

  const RuleCount: nat := 5

  /** The outcome of the first rule, from `i` on, that applies. */
  function FirstRule(i: nat, on: Value, isStream: Value, resp: HttpResponse): (r: Outcome)
    requires i < RuleCount
    decreases RuleCount - i
  {
    if Rule(i, on, isStream, resp).Some? || i == RuleCount - 1 then Rule(i, on, isStream, resp).value
    else FirstRule(i + 1, on, isStream, resp)
  }

  /** `handle_response` is the first-applicable-rule reading of its chain. */
  lemma HandleResponseIsFirstRule(on: Value, isStream: Value, resp: HttpResponse)
    ensures HandleResponse(on, isStream, resp) == FirstRule(0, on, isStream, resp)
  {
    LastRules(on, isStream, resp);
  }

  /** The status check and the stream flag, the last rules of the chain. */
  lemma LastRules(on: Value, isStream: Value, resp: HttpResponse)
    ensures FirstRule(3, on, isStream, resp) == if resp.raises then WrappedHttpError else BodyOutcome(resp)
    ensures FirstRule(2, on, isStream, resp) == if Truthy(isStream) then RawResponse else FirstRule(3, on, isStream, resp)
  {
    assert FirstRule(4, on, isStream, resp) == BodyOutcome(resp);
  }

  /** The rule that fires is the first that applies: every rule before it
      does not. */
  lemma FirstApplicableRuleWins(on: Value, isStream: Value, resp: HttpResponse, i: nat)
    requires i < RuleCount && Rule(i, on, isStream, resp).Some?
    requires forall j | 0 <= j < i :: Rule(j, on, isStream, resp).None?
    ensures HandleResponse(on, isStream, resp) == Rule(i, on, isStream, resp).value
  {
    if i > 0 { assert Rule(0, on, isStream, resp).None?; }
    if i > 1 { assert Rule(1, on, isStream, resp).None?; }
    if i > 2 { assert Rule(2, on, isStream, resp).None?; }
    if i > 3 { assert Rule(3, on, isStream, resp).None?; }
  }

  /** A registered handler sees every response of its status, including error
      statuses and streamed responses. */
  lemma HandlerBeatsStatusCheck(on: Value, isStream: Value, resp: HttpResponse)
    requires on.Dict? && Get(on, IntKey(resp.status)).Some?
    ensures HandleResponse(on, isStream, resp) == Handled(IntKey(resp.status), Get(on, IntKey(resp.status)).value)
  {
  }

  /** The catch-all handler (`HttpStatus.ANY`) answers every status that has no
      handler of its own. */
  lemma CatchAllAnswersTheRest(on: Value, isStream: Value, resp: HttpResponse)
    requires on.Dict? && Get(on, IntKey(resp.status)).None? && Get(on, IntKey(AnyStatus)).Some?
    ensures HandleResponse(on, isStream, resp) == Handled(IntKey(AnyStatus), Get(on, IntKey(AnyStatus)).value)
  {
  }

  /** A streamed response without a handler is returned as it is, even when its
      status would raise. */
  lemma StreamSkipsStatusCheck(on: Value, isStream: Value, resp: HttpResponse)
    requires !HasHandler(on, resp) && Truthy(isStream) && resp.raises
    ensures HandleResponse(on, isStream, resp) == RawResponse
  {
  }

  /** When neither the catch-all nor the stream flag is in play, the newer
      handling agrees with the older one up to the wrapping of the error. */
  lemma LegacyAgreesWithoutCatchAll(on: Value, isStream: Value, resp: HttpResponse)
    requires HandlerFor(on, IntKey(AnyStatus)).None? && !Truthy(isStream)
    ensures var older := HandleLegacyResponse(on, resp);
            HandleResponse(on, isStream, resp) == if older == BackendHttpError then WrappedHttpError else older
  {
  }

  /** The older handling ignores a catch-all handler: with no handler of its
      own, an error status raises where the newer handling calls the catch-all. */
  lemma LegacyIgnoresCatchAll(on: Value, resp: HttpResponse)
    requires on.Dict? && resp.status != AnyStatus && resp.raises
    requires Get(on, IntKey(resp.status)).None? && Get(on, IntKey(AnyStatus)).Some?
    ensures HandleLegacyResponse(on, resp) == BackendHttpError
    ensures HandleResponse(on, Null, resp).Handled?
  {
  }
}

=== FILE: template_parts.dfy ===
/** A reference for `render_path` of decorest/utils.py. A template is written
    as a sequence of literal texts and placeholders, `p0 {t1} p1 ... {tn} pn`.
    It renders to the same sequence with every placeholder replaced by its
    argument, and it fails naming the leftmost placeholder whose argument is
    not bound. `RenderPath` substitutes one token at a time, every occurrence
    at once; `TemplateRenders` shows the two agree on every such template. */
module TemplateParts {
  import opened Wrappers
  import opened PathTemplate

  /** A piece of a template: literal text, or a placeholder `{token}`. */
  datatype Part = Text(s: string) | Hole(token: string)

  function Spell(p: Part): string {
    match p
    case Text(s) => s
    case Hole(t) => Placeholder(t)
  }

  /** The template the parts spell. */
  function Template(parts: seq<Part>): string {
    if |parts| == 0 then "" else Spell(parts[0]) + Template(parts[1..])
  }

  /** Literal text has no brace and placeholders name identifiers. */
  predicate Plain(parts: seq<Part>) {
    forall i | 0 <= i < |parts| :: if parts[i].Text? then NoBraces(parts[i].s) else IsIdentifier(parts[i].token)
  }

  function HoleTokens(parts: seq<Part>): set<string> {
    if |parts| == 0 then {}
    else (if parts[0].Hole? then {parts[0].token} else {}) + HoleTokens(parts[1..])
  }

  function HoleCount(parts: seq<Part>): nat {
    if |parts| == 0 then 0 else (if parts[0].Hole? then 1 else 0) + HoleCount(parts[1..])
  }

  function FirstHole(parts: seq<Part>): Option<string> {
    if |parts| == 0 then None
    else if parts[0].Hole? then Some(parts[0].token)
    else FirstHole(parts[1..])
  }

  /** The reference rendering: the parts left to right, each placeholder
      replaced by its argument; the first unbound one is the failure. */
  function Fill(parts: seq<Part>, args: map<string, string>): Result<string, RenderError> {
    if |parts| == 0 then Success("")
    else if parts[0].Hole? && parts[0].token !in args then Failure(MissingArgument(parts[0].token))
    else
      match Fill(parts[1..], args)
      case Success(rest) => Success((if parts[0].Text? then parts[0].s else args[parts[0].token]) + rest)
      case Failure(e) => Failure(e)
  }

  /** Every `{t}` of the parts turned into the literal `v`. */
  function Subst(parts: seq<Part>, t: string, v: string): (r: seq<Part>)
    ensures |r| == |parts|
    ensures forall i | 0 <= i < |parts| :: r[i] == if parts[i] == Hole(t) then Text(v) else parts[i]
  {
    if |parts| == 0 then [] else [if parts[0] == Hole(t) then Text(v) else parts[0]] + Subst(parts[1..], t, v)
  }

  /** Substitution removes the token and at least one placeholder. */
  lemma {:induction false} SubstTokens(parts: seq<Part>, t: string, v: string)
    ensures HoleTokens(Subst(parts, t, v)) == HoleTokens(parts) - {t}
    ensures t in HoleTokens(parts) ==> HoleCount(Subst(parts, t, v)) < HoleCount(parts)
    ensures HoleCount(Subst(parts, t, v)) <= HoleCount(parts)
    decreases |parts|
  {
    if |parts| > 0 {
      SubstTokens(parts[1..], t, v);
      assert Subst(parts, t, v)[1..] == Subst(parts[1..], t, v);
    }
  }

  lemma PlainTokens(parts: seq<Part>)
    requires Plain(parts)
    ensures forall t | t in HoleTokens(parts) :: IsIdentifier(t)
  {
    if |parts| > 0 {
      PlainTokens(parts[1..]);
    }
  }

  lemma FirstHoleIn(parts: seq<Part>)
    requires FirstHole(parts).Some?
    ensures FirstHole(parts).value in HoleTokens(parts)
  {
    if !parts[0].Hole? {
      FirstHoleIn(parts[1..]);
    }
  }

  /** `re.sub` passes over the placeholder of another identifier. */
  lemma OtherPlaceholderSkipped(t0: string, t: string, rest: string, v: string)
    requires IsIdentifier(t0) && IsIdentifier(t) && t0 != t
    ensures ReplaceAll(Placeholder(t0) + rest, Placeholder(t), v) == Placeholder(t0) + ReplaceAll(rest, Placeholder(t), v)
  {
    var s := Placeholder(t0) + rest;
    var pat := Placeholder(t);
    var close := t0 + "}";
    assert s[1..] == close + rest;
    ReplaceSkipsPrefix(close, rest, pat, v);
    if |s| < |pat| {
      assert ReplaceAll(rest, pat, v) == rest;
    } else {
      PlaceholderDiffers(t0, t, rest);
      assert ReplaceAll(s, pat, v) == [s[0]] + ReplaceAll(s[1..], pat, v);
    }
  }

  /** The placeholder of one identifier does not start with that of another. */
  lemma PlaceholderDiffers(t0: string, t: string, rest: string)
    requires IsIdentifier(t0) && IsIdentifier(t) && t0 != t
    requires |Placeholder(t0) + rest| >= |Placeholder(t)|
    ensures (Placeholder(t0) + rest)[..|Placeholder(t)|] != Placeholder(t)
  {
    var s := Placeholder(t0) + rest;
    var pat := Placeholder(t);
    var m: nat;
    if |t| < |t0| {
      m := |t| + 1;
    } else if |t0| < |t| {
      m := |t0| + 1;
    } else {
      var j := Mismatch(t0, t);
      m := j + 1;
    }
    assert s[m] != pat[m];
    assert s[..|pat|][m] != pat[m];
  }

  /** An index where two different strings of one length differ. */
  lemma Mismatch(a: string, b: string) returns (j: nat)
    requires |a| == |b| && a != b
    ensures j < |a| && a[j] != b[j]
  {
    assert a == a[..|a|] && b == b[..|b|];
    j := 0;
    while j < |a| && a[j] == b[j]
      invariant j <= |a|
      invariant a[..j] == b[..j]
    {
      j := j + 1;
    }
  }

  /** One `re.sub` of `{t}` over a template is `Subst`. */
  lemma {:induction false} ReplaceParts(parts: seq<Part>, t: string, v: string)
    requires Plain(parts) && IsIdentifier(t)
    ensures ReplaceAll(Template(parts), Placeholder(t), v) == Template(Subst(parts, t, v))
    decreases |parts|
  {
    if |parts| > 0 {
      var p := Placeholder(t);
      var rest := Template(parts[1..]);
      var sub := Subst(parts, t, v);
      ReplaceParts(parts[1..], t, v);
      assert sub[1..] == Subst(parts[1..], t, v);
      match parts[0]
      case Text(s) =>
        ReplaceSkipsPrefix(s, rest, p, v);
      case Hole(t0) =>
        if t0 == t {
          ReplaceAtPattern(p, rest, v);
        } else {
          OtherPlaceholderSkipped(t0, t, rest, v);
        }
    }
  }

  /** The first match of a template is its first placeholder. */
  lemma {:induction false} FirstTokenParts(parts: seq<Part>)
    requires Plain(parts)
    ensures FirstToken(Template(parts)) == FirstHole(parts)
    decreases |parts|
  {
    if |parts| > 0 {
      var rest := Template(parts[1..]);
      match parts[0]
      case Text(s) =>
        FirstTokenParts(parts[1..]);
        FirstTokenSkipsPrefix(s, rest);
      case Hole(t0) =>
        PlaceholderMatches(t0, rest);
    }
  }

  /** The placeholders of a template are its only tokens. */
  lemma {:induction false} PartsBound(parts: seq<Part>, keys: set<string>)
    requires Plain(parts) && HoleTokens(parts) <= keys
    ensures Bound(Template(parts), keys)
    decreases |parts|
  {
    if |parts| > 0 {
      var rest := Template(parts[1..]);
      PartsBound(parts[1..], keys);
      match parts[0]
      case Text(s) =>
        BoundAfterSafe(s, rest, keys);
      case Hole(t0) =>
        var close := t0 + "}";
        var s := Placeholder(t0) + rest;
        PlaceholderMatches(t0, rest);
        assert s[1..] == close + rest;
        BoundAfterSafe(close, rest, keys);
    }
  }

  /** Filling after substituting a bound token by its argument is filling. */
  lemma {:induction false} FillSubst(parts: seq<Part>, args: map<string, string>, t: string)
    requires t in args
    ensures Fill(Subst(parts, t, args[t]), args) == Fill(parts, args)
    decreases |parts|
  {
    if |parts| > 0 {
      FillSubst(parts[1..], args, t);
      assert Subst(parts, t, args[t])[1..] == Subst(parts[1..], t, args[t]);
    }
  }

  lemma {:induction false} FillMissing(parts: seq<Part>, args: map<string, string>)
    requires FirstHole(parts).Some? && FirstHole(parts).value !in args
    ensures Fill(parts, args) == Failure(MissingArgument(FirstHole(parts).value))
    decreases |parts|
  {
    if !parts[0].Hole? {
      FillMissing(parts[1..], args);
    }
  }

  lemma {:induction false} NoHoleFills(parts: seq<Part>, args: map<string, string>)
    requires FirstHole(parts).None?
    ensures Fill(parts, args) == Success(Template(parts))
    decreases |parts|
  {
    if |parts| > 0 {
      NoHoleFills(parts[1..], args);
    }
  }

  /** `render_path` of `p0 {t1} p1 ... {tn} pn` is the reference rendering:
      `p0 + args[t1] + p1 + ... + args[tn] + pn` when every token is bound,
      else the failure naming the leftmost unbound token. Only the arguments
      of the template's own tokens need be safe values. */
  lemma {:induction false} TemplateRenders(parts: seq<Part>, args: map<string, string>)
    requires Plain(parts)
    requires forall t | t in HoleTokens(parts) && t in args :: IsSafeValue(args[t])
    ensures SafeToRender(Template(parts), args)
    ensures RenderPath(Template(parts), args) == Fill(parts, args)
    decreases HoleCount(parts)
  {
    PlainTokens(parts);
    PartsBound(parts, HoleTokens(parts));
    BoundTokens(Template(parts), HoleTokens(parts));
    FirstTokenParts(parts);
    match FirstHole(parts)
    case None =>
      NoHoleFills(parts, args);
    case Some(t) =>
      FirstHoleIn(parts);
      if t !in args {
        FillMissing(parts, args);
      } else {
        var sub := Subst(parts, t, args[t]);
        ReplaceParts(parts, t, args[t]);
        SubstTokens(parts, t, args[t]);
        FillSubst(parts, args, t);
        TemplateRenders(sub, args);
      }
  }


  /** A template with one more part in front. */
  lemma ConsPart(p: Part, rest: seq<Part>, args: map<string, string>)
    ensures Template([p] + rest) == Spell(p) + Template(rest)
    ensures HoleTokens([p] + rest) == (if p.Hole? then {p.token} else {}) + HoleTokens(rest)
    ensures p.Text? && Fill(rest, args).Success? ==> Fill([p] + rest, args) == Success(p.s + Fill(rest, args).value)
    ensures p.Hole? && p.token in args && Fill(rest, args).Success? ==>
              Fill([p] + rest, args) == Success(args[p.token] + Fill(rest, args).value)
  {
    assert ([p] + rest)[0] == p && ([p] + rest)[1..] == rest;
  }

  /** A token used twice is replaced at both places: only the argument that
      token names needs to be safe. */
  lemma RepeatedTokenRendersEverywhere(pre: string, token: string, mid: string, post: string,
                                       args: map<string, string>)
    requires IsIdentifier(token) && token in args && IsSafeValue(args[token])
    requires NoBraces(pre) && NoBraces(mid) && NoBraces(post)
    ensures SafeToRender(pre + Placeholder(token) + mid + Placeholder(token) + post, args)
    ensures RenderPath(pre + Placeholder(token) + mid + Placeholder(token) + post, args) ==
            Success(pre + args[token] + mid + args[token] + post)
  {
    var parts := RepeatedParts(pre, token, mid, post, args);
    assert Plain(parts) by {
      forall i | 0 <= i < 5
        ensures if parts[i].Text? then NoBraces(parts[i].s) else IsIdentifier(parts[i].token)
      {
        assert i == 0 || i == 1 || i == 2 || i == 3 || i == 4;
      }
    }
    TemplateRenders(parts, args);
  }

  /** The parts of `pre{token}mid{token}post`. */
  lemma RepeatedParts(pre: string, token: string, mid: string, post: string, args: map<string, string>)
    returns (parts: seq<Part>)
    requires token in args
    ensures parts == [Text(pre), Hole(token), Text(mid), Hole(token), Text(post)]
    ensures Template(parts) == pre + Placeholder(token) + mid + Placeholder(token) + post
    ensures Fill(parts, args) == Success(pre + args[token] + mid + args[token] + post)
    ensures HoleTokens(parts) == {token}
  {
    var v := args[token];
    var ph := Placeholder(token);
    var p5: seq<Part> := [Text(post)];
    var p4 := [Hole(token)] + p5;
    var p3 := [Text(mid)] + p4;
    var p2 := [Hole(token)] + p3;
    parts := [Text(pre)] + p2;
    ConsPart(Text(post), [], args);
    assert [Text(post)] + [] == p5;
    ConsPart(Hole(token), p5, args);
    ConsPart(Text(mid), p4, args);
    ConsPart(Hole(token), p3, args);
    ConsPart(Text(pre), p2, args);
    assert post + "" == post;
    assert pre + (ph + (mid + (ph + post))) == pre + ph + mid + ph + post;
    assert pre + (v + (mid + (v + post))) == pre + v + mid + v + post;
  }
}

=== FILE: text.dfy ===
/** String helpers with Python's semantics: `str.endswith`, `str.split(sep)`
    and `sep.join(parts)`. */
module Text {

  predicate EndsWith(s: string, suffix: string) {
    |suffix| <= |s| && s[|s| - |suffix|..] == suffix
  }

  predicate Contains(s: string, c: char) {
    exists i | 0 <= i < |s| :: s[i] == c
  }

  /** `s.split(sep)` for a one-character separator: never empty, and an empty
      field stands between adjacent separators. */
  function Split(s: string, sep: char): (parts: seq<string>)
    ensures |parts| > 0
    ensures forall i | 0 <= i < |parts| :: !Contains(parts[i], sep)
    decreases |s|
  {
    if |s| == 0 then [""]
    else
      var rest := Split(s[1..], sep);
      if s[0] == sep then [""] + rest
      else [[s[0]] + rest[0]] + rest[1..]
  }

  /** `sep.join(parts)` for a separator of any length. */
  function JoinWith(parts: seq<string>, sep: string): (r: string)
    ensures |parts| == 1 ==> r == parts[0]
    decreases |parts|
  {
    if |parts| == 0 then ""
    else if |parts| == 1 then parts[0]
    else parts[0] + sep + JoinWith(parts[1..], sep)
  }

  /** `sep.join(parts)` for a one-character separator. */
  function Join(parts: seq<string>, sep: char): string {
    JoinWith(parts, [sep])
  }

  /** Joining the fields of a split gives the original string back. */
  lemma {:induction false} JoinSplit(s: string, sep: char)
    ensures Join(Split(s, sep), sep) == s
    decreases |s|
  {
    if |s| > 0 {
      var rest := Split(s[1..], sep);
      JoinSplit(s[1..], sep);
      if s[0] == sep {
        assert Split(s, sep)[1..] == rest;
        assert s == [sep] + s[1..];
      } else {
        var parts := Split(s, sep);
        if |rest| == 1 {
          assert parts == [[s[0]] + rest[0]];
        } else {
          assert parts[1..] == rest[1..];
          assert Join(rest, sep) == rest[0] + [sep] + Join(rest[1..], sep);
          assert s == [s[0]] + s[1..];
        }
      }
    }
  }

  /** Splitting a join of separator-free fields gives the fields back. */
  lemma {:induction false} SplitJoin(parts: seq<string>, sep: char)
    requires |parts| > 0
    requires forall i | 0 <= i < |parts| :: !Contains(parts[i], sep)
    ensures Split(Join(parts, sep), sep) == parts
    decreases |parts|, |parts[0]|
  {
    if |parts[0]| > 0 {
      var p0 := parts[0];
      var tail := [p0[1..]] + parts[1..];
      assert !Contains(p0[1..], sep) by {
        forall i | 0 <= i < |p0[1..]| ensures p0[1..][i] != sep {
          assert p0[1..][i] == p0[i + 1];
        }
      }
      SplitJoin(tail, sep);
      assert p0[0] != sep;
      if |parts| == 1 {
        assert Join(parts, sep) == p0;
        assert Join(tail, sep) == p0[1..];
        assert p0 == [p0[0]] + p0[1..];
      } else {
        assert tail[1..] == parts[1..];
        assert Join(parts, sep) == [p0[0]] + Join(tail, sep);
        assert ([p0[0]] + Join(tail, sep))[1..] == Join(tail, sep);
        assert p0 == [p0[0]] + p0[1..];
        assert parts == [p0] + parts[1..];
      }
    } else if |parts| > 1 {
      SplitJoin(parts[1..], sep);
      assert Join(parts, sep) == [sep] + Join(parts[1..], sep);
      assert ([sep] + Join(parts[1..], sep))[1..] == Join(parts[1..], sep);
    }
  }
}

=== FILE: types.dfy ===
/** The HTTP verb and status enumerations of decorest/types.py. */
module HttpTypes {
  import opened Wrappers

  datatype HttpMethod = GET | POST | PUT | PATCH | DELETE | HEAD | OPTIONS | INVALID

  /** An enum member's value. The seven verbs are written with a trailing comma,
      which makes each value a one-element tuple; `INVALID` is a plain string. */
  datatype EnumValue = OneTuple(item: string) | PlainStr(text: string)

  function MethodValue(m: HttpMethod): EnumValue {
    match m
    case GET => OneTuple("GET")
    case POST => OneTuple("POST")
    case PUT => OneTuple("PUT")
    case PATCH => OneTuple("PATCH")
    case DELETE => OneTuple("DELETE")
    case HEAD => OneTuple("HEAD")
    case OPTIONS => OneTuple("OPTIONS")
    case INVALID => PlainStr("")
  }

  /** The member's declared name, as Python's `m.name` gives it. */
  function MemberName(m: HttpMethod): string {
    match m
    case GET => "GET"
    case POST => "POST"
    case PUT => "PUT"
    case PATCH => "PATCH"
    case DELETE => "DELETE"
    case HEAD => "HEAD"
    case OPTIONS => "OPTIONS"
    case INVALID => "INVALID"
  }

  /** `value[0]`: the tuple's element, or the string's first character;
      `None` stands for the IndexError of an empty string. */
  function FirstOf(v: EnumValue): Option<string> {
    match v
    case OneTuple(s) => Some(s)
    case PlainStr(s) => if |s| == 0 then None else Some([s[0]])
  }

  /** `str(m)` of the enum. */
  function MethodStr(m: HttpMethod): Option<string> {
    FirstOf(MethodValue(m))
  }

  /** `str(m)` is the verb's own name for every verb, and raises for `INVALID`. */
  lemma MethodStrIsName(m: HttpMethod)
    ensures m != INVALID ==> MethodStr(m) == Some(MemberName(m))
    ensures m == INVALID ==> MethodStr(m) == None
  {
  }

  /** The verbs the newer assembler accepts. */
  predicate IsSupported(m: HttpMethod) {
    m != INVALID
  }

  datatype HttpStatus =
    | INFORMATIONAL_RESPONSE | SUCCESS | REDIRECTION | CLIENT_ERROR | SERVER_ERROR | ANY

  const AnyStatus: int := 999

  /** The integer value of an `HttpStatus` member. */
  function StatusCode(s: HttpStatus): (r: int)
    ensures s == ANY <==> r == AnyStatus
    ensures s != ANY ==> 1 <= r <= 5
  {
    match s
    case INFORMATIONAL_RESPONSE => 1
    case SUCCESS => 2
    case REDIRECTION => 3
    case CLIENT_ERROR => 4
    case SERVER_ERROR => 5
    case ANY => AnyStatus
  }
}

=== FILE: utils.dfy ===
/** The helpers of decorest/utils.py: binding positional arguments to
    parameter names (`dict_from_args`), merging dictionaries (`merge_dicts`)
    and normalising an endpoint URL (`normalize_url`). `render_path` is the
    module `PathTemplate`. */
module Utils {
  import opened Wrappers
  import opened Text
  import PyDict
  import opened Values

  /** A declared parameter of a decorated method, `self` included: its name and
      its default value, if it has one. */
  datatype Param = Param(name: string, default: Option<Value>)

  predicate DistinctNames(params: seq<Param>) {
    forall i, j | 0 <= i < j < |params| :: params[i].name != params[j].name
  }

  /** What the i-th parameter is bound to: the i-th positional argument when
      there is one, else its default, else nothing. */
  function Binding(params: seq<Param>, args: seq<Value>, i: nat): Option<Value>
    requires i < |params|
  {
    if i < |args| then Some(args[i]) else params[i].default
  }

  /** The names `dict_from_args` binds. */
  function BoundNames(params: seq<Param>, args: seq<Value>): set<string> {
    set i | 0 <= i < |params| && Binding(params, args, i).Some? :: params[i].name
  }

  /** `dict_from_args(func, *args)`, Python 3 branch: walk the declared
      parameters with a separate cursor into the positional arguments. The
      cursor also advances past a defaulted parameter, which is harmless: once
      the positional arguments are used up it never points at one again. */
  method DictFromArgs(params: seq<Param>, args: seq<Value>) returns (r: PyDict.Dict<string, Value>)
    requires DistinctNames(params)
    ensures PyDict.Keys(r) == BoundNames(params, args)
    ensures forall i | 0 <= i < |params| :: PyDict.Lookup(r, params[i].name) == Binding(params, args, i)
  {
    r := [];
    var idx := 0;
    for i := 0 to |params|
      invariant i <= |args| ==> idx == i
      invariant i >= |args| ==> idx >= |args|
      invariant PyDict.Keys(r) == set j | 0 <= j < i && Binding(params, args, j).Some? :: params[j].name
      invariant forall j | 0 <= j < i :: PyDict.Lookup(r, params[j].name) == Binding(params, args, j)
    {
      var p := params[i];
      // `args[idx]` while positional arguments remain, else the default
      var bound := if idx < |args| then Some(args[idx]) else p.default;
      assert bound == Binding(params, args, i);
      if bound.Some? {
        r := PyDict.Set(r, p.name, bound.value);
        idx := idx + 1;
      }
    }
  }

  /** The same binding as a function, for use inside other functions: the
      parameters in declaration order, each with its binding when it has one. */
  function BindArguments(params: seq<Param>, args: seq<Value>): (r: PyDict.Dict<string, Value>)
    requires DistinctNames(params)
    ensures PyDict.Keys(r) == BoundNames(params, args)
    decreases |params|
  {
    if |params| == 0 then []
    else
      var tail := params[1..];
      var rest := BindArguments(tail, if |args| > 0 then args[1..] else []);
      assert BoundNames(params, args) ==
             (if Binding(params, args, 0).Some? then {params[0].name} else {}) +
             BoundNames(tail, if |args| > 0 then args[1..] else []) by {
        ShiftBinding(params, args);
      }
      match Binding(params, args, 0)
      case Some(v) =>
        var r: seq<(string, Value)> := [(params[0].name, v)] + rest;
        PyDict.KeysConcat([(params[0].name, v)], rest);
        PyDict.KeysSingleton(params[0].name, v);
        assert r[1..] == rest;
        r
      case None => rest
  }

  /** Dropping the first parameter and the first argument shifts every binding by one. */
  lemma ShiftBinding(params: seq<Param>, args: seq<Value>)
    requires |params| > 0 && DistinctNames(params)
    ensures forall i | 1 <= i < |params| ::
              Binding(params, args, i) == Binding(params[1..], if |args| > 0 then args[1..] else [], i - 1)
    ensures params[0].name !in BoundNames(params[1..], if |args| > 0 then args[1..] else [])
    ensures BoundNames(params, args) ==
            (if Binding(params, args, 0).Some? then {params[0].name} else {}) +
            BoundNames(params[1..], if |args| > 0 then args[1..] else [])
  {
    var tail := params[1..];
    var rest := if |args| > 0 then args[1..] else [];
    assert forall i | 1 <= i < |params| :: tail[i - 1] == params[i];
    forall n | n in BoundNames(params, args)
      ensures n in (if Binding(params, args, 0).Some? then {params[0].name} else {}) + BoundNames(tail, rest)
    {
      var i :| 0 <= i < |params| && Binding(params, args, i).Some? && params[i].name == n;
      if i > 0 {
        assert Binding(tail, rest, i - 1).Some? && tail[i - 1].name == n;
      }
    }
    forall n | n in BoundNames(tail, rest) ensures n in BoundNames(params, args) {
      var i :| 0 <= i < |tail| && Binding(tail, rest, i).Some? && tail[i].name == n;
      assert Binding(params, args, i + 1).Some? && params[i + 1].name == n;
    }
  }

  /** The function and the loop of `dict_from_args` agree on every lookup. */
  lemma BindArgumentsLookup(params: seq<Param>, args: seq<Value>, i: nat)
    requires DistinctNames(params) && i < |params|
    ensures PyDict.Lookup(BindArguments(params, args), params[i].name) == Binding(params, args, i)
    decreases |params|
  {
    ShiftBinding(params, args);
    var tail := params[1..];
    var rest := if |args| > 0 then args[1..] else [];
    var r := BindArguments(params, args);
    var inner := BindArguments(tail, rest);
    if i > 0 {
      assert tail[i - 1] == params[i];
      BindArgumentsLookup(tail, rest, i - 1);
      if Binding(params, args, 0).Some? {
        assert r[1..] == inner;
        assert r[0].0 == params[0].name != params[i].name;
      }
    } else if Binding(params, args, 0).None? {
      assert params[0].name !in PyDict.Keys(r);
    }
  }

  predicate DictsOrNone(ds: seq<Value>) {
    forall i | 0 <= i < |ds| :: ds[i].Null? || ds[i].Dict?
  }

  /** One iteration of `merge_dicts`: skip `None`, adopt the first dictionary,
      update it with every later one. */
  function MergeStep(acc: Value, d: Value): (r: Value)
    requires acc.Null? || acc.Dict?
    requires d.Null? || d.Dict?
    ensures r.Null? || r.Dict?
  {
    if d.Null? then acc
    else if acc.Null? then d
    else UpdateEntries(acc, d.entries)
  }

  function MergeFrom(acc: Value, ds: seq<Value>): (r: Value)
    requires acc.Null? || acc.Dict?
    requires DictsOrNone(ds)
    ensures r.Null? || r.Dict?
    decreases |ds|
  {
    if |ds| == 0 then acc else MergeFrom(MergeStep(acc, ds[0]), ds[1..])
  }

  /** `merge_dicts(*dict_args)`. */
  function MergeDicts(ds: seq<Value>): (r: Value)
    requires DictsOrNone(ds)
    ensures r.Null? || r.Dict?
  {
    MergeFrom(Null, ds)
  }

  /** The first dictionary among the arguments. */
  function FirstPresent(ds: seq<Value>): (r: Option<Value>)
    ensures r.Some? ==> r.value.Dict?
    decreases |ds|
  {
    if |ds| == 0 then None
    else if ds[0].Dict? then Some(ds[0])
    else FirstPresent(ds[1..])
  }

  /** The value the last dictionary that has `k` maps it to. */
  function LastWith(ds: seq<Value>, k: Key): Option<Value>
    requires DictsOrNone(ds)
    decreases |ds|
  {
    if |ds| == 0 then None
    else
      var later := LastWith(ds[1..], k);
      if later.Some? then later
      else if ds[0].Dict? then PyDict.Lookup(ds[0].entries, k)
      else None
  }

  /** The union of the keys of all dictionary arguments. */
  function AllKeys(ds: seq<Value>): set<Key>
    requires DictsOrNone(ds)
    decreases |ds|
  {
    if |ds| == 0 then {}
    else (if ds[0].Dict? then PyDict.Keys(ds[0].entries) else {}) + AllKeys(ds[1..])
  }

  /** Every dictionary argument is a plain `dict`. */
  predicate AllPlain(ds: seq<Value>) {
    forall i | 0 <= i < |ds| :: ds[i].Null? || (ds[i].Dict? && !ds[i].caseInsensitive)
  }

  /** `merge_dicts` is `None` exactly when every argument is; otherwise it is the
      first dictionary, updated in place, so it keeps that dictionary's kind. */
  lemma {:induction false} MergeFromShape(acc: Value, ds: seq<Value>)
    requires acc.Null? || acc.Dict?
    requires DictsOrNone(ds)
    ensures MergeFrom(acc, ds).Null? <==> acc.Null? && FirstPresent(ds).None?
    ensures acc.Dict? ==> MergeFrom(acc, ds).caseInsensitive == acc.caseInsensitive
    ensures acc.Null? && FirstPresent(ds).Some? ==>
              MergeFrom(acc, ds).Dict? && MergeFrom(acc, ds).caseInsensitive == FirstPresent(ds).value.caseInsensitive
    decreases |ds|
  {
    if |ds| > 0 {
      MergeFromShape(MergeStep(acc, ds[0]), ds[1..]);
    }
  }

  lemma MergeDictsShape(ds: seq<Value>)
    requires DictsOrNone(ds)
    ensures MergeDicts(ds).Null? <==> forall i | 0 <= i < |ds| :: ds[i].Null?
    ensures FirstPresent(ds).Some? ==> MergeDicts(ds).Dict? && MergeDicts(ds).caseInsensitive == FirstPresent(ds).value.caseInsensitive
  {
    MergeFromShape(Null, ds);
    FirstPresentNone(ds);
  }

  lemma {:induction false} FirstPresentNone(ds: seq<Value>)
    requires DictsOrNone(ds)
    ensures FirstPresent(ds).None? <==> forall i | 0 <= i < |ds| :: ds[i].Null?
    decreases |ds|
  {
    if |ds| > 0 {
      FirstPresentNone(ds[1..]);
      assert forall i | 1 <= i < |ds| :: ds[i] == ds[1..][i - 1];
    }
  }

  /** Over plain dictionaries the merge holds the union of the keys, and a key
      shared by several arguments takes its value from the last one. */
  lemma {:induction false} MergeFromPlain(acc: Value, ds: seq<Value>, k: Key)
    requires acc.Null? || (acc.Dict? && !acc.caseInsensitive)
    requires DictsOrNone(ds) && AllPlain(ds)
    ensures var r := MergeFrom(acc, ds);
            r.Dict? ==>
              PyDict.Keys(r.entries) == (if acc.Dict? then PyDict.Keys(acc.entries) else {}) + AllKeys(ds) &&
              PyDict.Lookup(r.entries, k) ==
                if LastWith(ds, k).Some? then LastWith(ds, k)
                else if acc.Dict? then PyDict.Lookup(acc.entries, k) else None
    decreases |ds|
  {
    if |ds| > 0 {
      var acc' := MergeStep(acc, ds[0]);
      assert AllPlain(ds[1..]) by {
        assert forall i | 0 <= i < |ds[1..]| :: ds[1..][i] == ds[i + 1];
      }
      MergeFromPlain(acc', ds[1..], k);
      if ds[0].Dict? && acc.Dict? {
        PyDict.UpdateLookup(acc.entries, ds[0].entries, k);
      }
    }
  }

  lemma MergeDictsPlain(ds: seq<Value>, k: Key)
    requires DictsOrNone(ds) && AllPlain(ds)
    ensures MergeDicts(ds).Dict? ==>
              PyDict.Keys(MergeDicts(ds).entries) == AllKeys(ds) &&
              PyDict.Lookup(MergeDicts(ds).entries, k) == LastWith(ds, k)
  {
    MergeFromPlain(Null, ds, k);
  }

  /** With a single dictionary among the arguments the merge is that very
      dictionary, not a copy of it. */
  lemma {:induction false} MergeSingle(ds: seq<Value>, i: nat)
    requires DictsOrNone(ds) && i < |ds| && ds[i].Dict?
    requires forall j | 0 <= j < |ds| && j != i :: ds[j].Null?
    ensures MergeDicts(ds) == ds[i]
  {
    MergeFromSingle(Null, ds, i);
  }

  lemma {:induction false} MergeFromSingle(acc: Value, ds: seq<Value>, i: nat)
    requires acc.Null? && DictsOrNone(ds) && i < |ds| && ds[i].Dict?
    requires forall j | 0 <= j < |ds| && j != i :: ds[j].Null?
    ensures MergeFrom(acc, ds) == ds[i]
    decreases |ds|
  {
    if i == 0 {
      MergeFromNulls(ds[0], ds[1..]);
    } else {
      assert ds[1..][i - 1] == ds[i];
      MergeFromSingle(Null, ds[1..], i - 1);
    }
  }

  lemma {:induction false} MergeFromNulls(acc: Value, ds: seq<Value>)
    requires acc.Null? || acc.Dict?
    requires forall j | 0 <= j < |ds| :: ds[j].Null?
    ensures MergeFrom(acc, ds) == acc
    decreases |ds|
  {
    if |ds| > 0 {
      MergeFromNulls(acc, ds[1..]);
    }
  }

  /** `merge_dicts(a, b)`: the first dictionary of the two, updated with the
      second when both are dictionaries. */
  lemma MergePair(a: Value, b: Value)
    requires (a.Null? || a.Dict?) && (b.Null? || b.Dict?)
    ensures MergeDicts([a, b]) == MergeStep(MergeStep(Null, a), b)
    ensures a.Dict? ==> MergeDicts([a, b]) == MergeStep(a, b)
  {
    var ds := [a, b];
    assert ds[1..] == [b] && ds[1..][1..] == [];
    assert MergeDicts(ds) == MergeFrom(MergeStep(Null, a), [b]);
    assert MergeFrom(MergeStep(Null, a), [b]) == MergeFrom(MergeStep(MergeStep(Null, a), b), []);
  }

  /** `normalize_url`: append a `/` unless the URL already ends with one. */
  function NormalizeUrl(url: string): (r: string)
    ensures EndsWith(r, "/")
    ensures EndsWith(url, "/") ==> r == url
    ensures !EndsWith(url, "/") ==> r == url + "/"
  {
    if EndsWith(url, "/") then url else url + "/"
  }

  lemma NormalizeUrlIdempotent(url: string)
    ensures NormalizeUrl(NormalizeUrl(url)) == NormalizeUrl(url)
  {
  }
}

=== FILE: values.dfy ===
/** Python values as the request assembler sees them, with the truthiness and
    `isinstance` tests the source applies to them, and case-insensitive
    dictionaries (whose keys are kept lower-cased). */
module Values {
  import PyDict
  import opened Wrappers
  import HttpTypes

  /** Dictionary keys: header, query and decoration names, and status codes. */
  datatype Key = StrKey(s: string) | IntKey(i: int)

  datatype Value =
    | Null
    | Bool(b: bool)
    | Int(i: int)
    | Str(s: string)
    | List(items: seq<Value>)
    | Tuple(elems: seq<Value>)
    | Dict(entries: PyDict.Dict<Key, Value>, caseInsensitive: bool)
    | Verb(m: HttpTypes.HttpMethod)
    | Object(id: nat)  // any other object: a callable, an auth object, a session

  type Entries = PyDict.Dict<Key, Value>

  /** Python's truth value: `None`, `False`, `0`, empty strings and containers are false. */
  predicate Truthy(v: Value) {
    match v
    case Null => false
    case Bool(b) => b
    case Int(i) => i != 0
    case Str(s) => |s| > 0
    case List(items) => |items| > 0
    case Tuple(elems) => |elems| > 0
    case Dict(entries, _) => |entries| > 0
    case Verb(_) => true
    case Object(_) => true
  }

  /** `isinstance(v, dict)`: a case-insensitive dictionary is not a `dict`. */
  predicate IsPlainDict(v: Value) {
    v.Dict? && !v.caseInsensitive
  }

  /** `isinstance(v, numbers.Number)`: `bool` is a subclass of `int`. */
  predicate IsNumber(v: Value) {
    v.Int? || v.Bool?
  }

  function LowerChar(c: char): (r: char)
    ensures 'A' <= c <= 'Z' ==> r as int == c as int + 32
    ensures !('A' <= c <= 'Z') ==> r == c
  {
    if 'A' <= c <= 'Z' then (c as int + 32) as char else c
  }

  /** ASCII lower-casing, the key comparison of a case-insensitive dictionary. */
  function Lower(s: string): (r: string)
    ensures |r| == |s|
    ensures forall i | 0 <= i < |s| :: r[i] == LowerChar(s[i])
  {
    seq(|s|, i requires 0 <= i < |s| => LowerChar(s[i]))
  }

  function LowerKey(k: Key): Key {
    match k
    case StrKey(s) => StrKey(Lower(s))
    case IntKey(i) => IntKey(i)
  }

  lemma LowerIdempotent(s: string)
    ensures Lower(Lower(s)) == Lower(s)
  {
  }

  /** `ci[k] = v`. */
  function CISet(d: Entries, k: Key, v: Value): Entries {
    PyDict.Set(d, LowerKey(k), v)
  }

  /** `k in ci` / `ci.get(k)`. */
  function CILookup(d: Entries, k: Key): Option<Value> {
    PyDict.Lookup(d, LowerKey(k))
  }

  /** `ci.update(e)`: every key of `e` is stored lower-cased, in `e`'s order. */
  function CIUpdate(d: Entries, e: Entries): (r: Entries)
    ensures PyDict.Keys(r) == PyDict.Keys(d) + set k | k in PyDict.Keys(e) :: LowerKey(k)
    decreases |e|
  {
    if |e| == 0 then d
    else
      PyDict.KeysCons(e);
      CIUpdate(CISet(d, e[0].0, e[0].1), e[1..])
  }

  /** `dst.update(src)` on a dictionary value: a case-insensitive target lower-cases keys. */
  function UpdateEntries(dst: Value, src: Entries): (r: Value)
    requires dst.Dict?
    ensures r.Dict? && r.caseInsensitive == dst.caseInsensitive
  {
    if dst.caseInsensitive then Dict(CIUpdate(dst.entries, src), true)
    else Dict(PyDict.Update(dst.entries, src), false)
  }

  function StrEntry(name: string, v: Value): Entries {
    [(StrKey(name), v)]
  }

  /** The value of the last entry of `e` whose lower-cased key is `k`. */
  function LastMatch(e: Entries, k: Key): Option<Value>
    decreases |e|
  {
    if |e| == 0 then None
    else
      var later := LastMatch(e[1..], k);
      if later.Some? then later
      else if LowerKey(e[0].0) == k then Some(e[0].1)
      else None
  }

  /** After `ci.update(e)` a key reads the last entry of `e` that matches it
      case-insensitively, and otherwise keeps what `ci` had. */
  lemma {:induction false} CIUpdateLookup(d: Entries, e: Entries, k: Key)
    ensures CILookup(CIUpdate(d, e), k) ==
            if LastMatch(e, LowerKey(k)).Some? then LastMatch(e, LowerKey(k)) else CILookup(d, k)
    decreases |e|
  {
    if |e| > 0 {
      PyDict.KeysCons(e);
      var d' := CISet(d, e[0].0, e[0].1);
      CIUpdateLookup(d', e[1..], k);
    }
  }

  /** `d.get(k)` on a dictionary value, case-insensitive when `d` is. */
  function Get(d: Value, k: Key): Option<Value>
    requires d.Dict?
  {
    if d.caseInsensitive then CILookup(d.entries, k) else PyDict.Lookup(d.entries, k)
  }

  /** What `dst.update(src)` stores under `k`, if `src` decides it. */
  function UpdateSource(ci: bool, src: Entries, k: Key): Option<Value> {
    if ci then LastMatch(src, LowerKey(k)) else PyDict.Lookup(src, k)
  }

  lemma UpdateEntriesGetAll(dst: Value, src: Entries)
    requires dst.Dict?
    ensures forall k :: Get(UpdateEntries(dst, src), k) ==
              if UpdateSource(dst.caseInsensitive, src, k).Some? then UpdateSource(dst.caseInsensitive, src, k)
              else Get(dst, k)
  {
    forall k {
      UpdateEntriesGet(dst, src, k);
    }
  }

  /** `dst.update(src)`: the source wins on every key it has. */
  lemma UpdateEntriesGet(dst: Value, src: Entries, k: Key)
    requires dst.Dict?
    ensures Get(UpdateEntries(dst, src), k) ==
            if UpdateSource(dst.caseInsensitive, src, k).Some? then UpdateSource(dst.caseInsensitive, src, k)
            else Get(dst, k)
  {
    if dst.caseInsensitive {
      CIUpdateLookup(dst.entries, src, k);
    } else {
      PyDict.UpdateLookup(dst.entries, src, k);
    }
  }

  /** `ci[k] = v` changes exactly the keys equal to `k` up to case. */
  lemma CISetLookup(d: Entries, k: Key, v: Value)
    ensures forall k' :: CILookup(CISet(d, k, v), k') == if LowerKey(k') == LowerKey(k) then Some(v) else CILookup(d, k')
  {
  }

  /** The header names the assembler tests are already lower-case. */
  const Accept: Key := StrKey("accept")
  const ContentType: Key := StrKey("content-type")

  lemma LowerCaseNames()
    ensures LowerKey(Accept) == Accept && LowerKey(ContentType) == ContentType
  {
    assert Lower("accept") == "accept";
    assert Lower("content-type") == "content-type";
  }
}

=== FILE: wrappers.dfy ===
/** Option and Result types used across the model: Python's `None` and
    raised exceptions become explicit values here. */
module Wrappers {

  datatype Option<+T> = None | Some(value: T) {

    predicate IsFailure() {
      None?
    }

    function PropagateFailure<U>(): Option<U>
      requires None?
    {
      None
    }

    function Extract(): T
      requires Some?
    {
      value
    }

    function GetOr(default: T): T {
      match this
      case Some(v) => v
      case None => default
    }
  }

  datatype Result<+R, +E> = Success(value: R) | Failure(error: E) {

    predicate IsFailure() {
      Failure?
    }

    function PropagateFailure<U>(): Result<U, E>
      requires Failure?
    {
      Failure(error)
    }

    function Extract(): R
      requires Success?
    {
      value
    }
  }
}
